=== FILE: README.md ===
# saw-ring: the PCM pipeline of the SAW ring, modelled in Dafny

The SAW ring is a finger-worn sensor with an ESP32 microcontroller. It streams 16-bit
little-endian PCM over serial, UDP, TCP or BLE. Host-side Python programs turn that stream
into four kinds of output:

- live waveforms, spectra and mel spectrograms;
- PCEN spectrograms fed to a gesture classifier that presses keys;
- a texture classifier;
- numbered WAV recordings made by a set of data collectors.

This project models that host side. It covers:

- how byte streams are decoded and framed;
- the fixed-size plot buffers, ring buffers and bounded deques;
- the bookkeeping of the mel and STFT spectrograms (overlap carry, hop residual, image scrolling);
- the PCEN pad and trim;
- the timing gate and key decision of the inference engine;
- the file numbering and loss estimates of the collectors.

It proves properties of each of these.

One module per source file:

| module | models |
|---|---|
| `SerialViewer`, `UdpViewer`, `TcpViewer`, `BleViewer`, `SimpleViewer` | the Qt viewers |
| `QtSpectrogram` | the mel image and overlap carry the serial and UDP viewers share |
| `GestureController`, `Pcen` | the TCP controller and both `extract_pcen` variants |
| `HarGesture` | the Streamlit texture recogniser |
| `GetAudio`, `UdpDataCollector`, `TcpDataCollector`, `BleDataCollector`, `SawCollector` | the collectors |
| `SawDashboard`, `SignalProcess`, `UdpListener` | the dearpygui dashboard and its helpers |
| `Mfcc`, `UdpFft`, `ProcessFft`, `Processing`, `DataVisualization` | the small scripts |

Shared modules:

| module | holds |
|---|---|
| `Pcm` | int16 decoding and normalisation |
| `Framing` | receive events and fixed-size framing |
| `Seqs` | deque, roll and slice-assignment semantics; DC removal |
| `Text` | `str.strip`, `int()`, `str()`, `split`, `os.path.join` |
| `Collection` | file numbering and loss rate shared by the collectors |

How the model is written:

- Objects whose fields the source updates become classes. Their methods are proved against specification functions.
- Loops stay loops, with invariants.
- Receives, clock readings, directory listings, classifier outputs and DSP kernels (Hann window, FFT, mel filter bank, dB conversion, PCEN) are parameters.

## Model

| member | source | states |
|---|---|---|
| Pcm.DecodeSample | src/processing.py:36 | the decoded value is the signed 16-bit sample whose two's-complement bytes are lo, hi; it lies in [-32768, 32767] |
| Pcm.DecodeEncodeSample | src/processing.py:35-36 | decoding the two bytes a sample is encoded as gives the sample back |
| Pcm.EncodeDecodeSample | src/processing.py:35-36 | every byte pair is the encoding of the sample it decodes to |
| Pcm.DecodeSamples | app-tcp/visualization/main.py:64 | an even-length byte string decodes to half as many samples, sample i from bytes 2i and 2i+1 |
| Pcm.EncodeSamples | app-tcp/visualization/main.py:64 | a run of samples is sent as twice as many bytes, two per sample, in order |
| Pcm.DecodeEncodeSamples | app-tcp/visualization/main.py:64 | what a sender transmits is decoded to exactly the samples sent |
| Pcm.EncodeSamplesAppend | app-tcp/visualization/main.py:64 | encoding distributes over concatenation |
| Pcm.EncodeDecodeSamples | app-tcp/visualization/main.py:64 | decoding loses nothing: re-encoding the samples gives back the bytes |
| Pcm.FromBuffer | app-udp/visualization.py:61 | frombuffer refuses an odd-length payload (None) and decodes any even one sample by sample |
| Pcm.Unpack | src/udp_fft.py:45 | struct.unpack('<Nh') succeeds exactly on 2N bytes and yields the N little-endian samples |
| Pcm.Normalise | app-udp/visualization.py:65 | a sample divided by 32768 lies in [-1, 1) |
| Pcm.NormaliseAll | app-udp/visualization.py:65 | element-wise division by 32768, same length, every value in [-1, 1) |
| Pcm.NormalisedBlock | app-udp/visualization.py:61-65 | the normalised samples of an even-length block, one per byte pair |
| Pcm.NormalisedBlockAppend | app-tcp/visualization/main.py:58-67 | decoding is positional: splitting at an even offset and decoding the parts gives the same samples |
| Pcm.Emitted | app-udp/visualization.py:58-66 | a receiver emits nothing for an empty or odd-length payload and the normalised samples otherwise |
| Seqs.Flatten | app-ble/visualization/main.py:249 | np.concatenate / b''.join: no blocks join to nothing |
| Seqs.FlattenLengthSum | app-ble/visualization/main.py:249 | the joined blocks are as long as SumLengths, the sum of the block lengths |
| Seqs.FlattenLength | app-ble/visualization/main.py:249 | k blocks of n elements join to k*n elements |
| Seqs.FlattenAppend | app-ble/visualization/main.py:249 | joining two runs of blocks is joining each run and then the two results |
| Seqs.FlattenSlice | app-tcp/visualization/main.py:58-62 | blocks of equal length n are the consecutive n-wide slices of their concatenation |
| Seqs.Last | app-udp/get_audio.py:142 | s[-n:] and a deque(maxlen=n): the newest min(n, \|s\|) elements, a suffix of s |
| Seqs.LastOfLastAppend | app-serial/visualization.py:315 | trimming to the same bound twice is trimming once |
| Seqs.LastTwice | app-serial/visualization.py:315 | appending in two steps with a trim after each equals one append and one trim |
| Seqs.Extend | app-serial/visualization.py:315 | deque.extend with maxlen n keeps the last n of old ++ new |
| Seqs.ExtendKeepsNewest | app-serial/visualization.py:315 | after an extend the newest elements sit at the end of the deque |
| Seqs.ExtendAll | app-serial/visualization.py:315 | extending block by block keeps the last n of everything appended |
| Seqs.ShiftIn | app-serial/visualization.py:327-328 | y[:-n] = y[n:]; y[-n:] = chunk keeps the length and ends with the chunk; the rest is the old tail |
| Seqs.ShiftInTwice | app-serial/visualization.py:327-328 | two consecutive shifts equal one shift by both blocks |
| Seqs.ShiftInNewest | app-serial/visualization.py:327-328 | shifting in only the newest \|y\| elements is shifting the whole block through |
| Seqs.RollLeft | src/main.py:98 | np.roll(s, -k): element i of the result is element (i + k) mod \|s\| |
| Seqs.OverwriteTail | src/main.py:99 | a[-len(c):] = c replaces exactly the last \|c\| cells |
| Seqs.RollThenOverwrite | app/visualization/main.py:113-115 | the np.roll-then-overwrite update gives the same buffer as the slice-assignment update |
| Seqs.ShiftInPlace | app-udp/visualization.py:252-253 | the in-place slice assignment on the plot array leaves it equal to ShiftIn of its old contents |
| Seqs.MeanRemoved | app-tcp/visualization/main.py:299 | y - mean(y) has the length of y |
| Seqs.MeanRemovedSumsToZero | app-tcp/visualization/main.py:299 | after DC removal the block sums to zero |
| Seqs.MeanRemovedIgnoresOffset | src/surface_recognition/models.py:10 | adding a constant to every sample does not change the DC-removed block |
| Text.Strip | src/mfcc.py:51 | str.strip(): a middle slice of s without surrounding whitespace, empty exactly when s is all whitespace |
| Text.StripClean | src/mfcc.py:51 | a string without surrounding whitespace is its own strip |
| Text.StripIdempotent | data_collection/src/udp_data_collector.py:158-160 | stripping twice is stripping once |
| Text.NatToString | data_collection/src/udp_data_collector.py:201 | str(n) is a non-empty digit string without leading zeros |
| Text.NatToStringRoundTrip | data_collection/src/udp_data_collector.py:201 | the digits of str(n) read back as n |
| Text.IntToString | src/mfcc.py:56-57 | str(i) is "-" and the digits of \|i\| when i < 0, else the digits of i |
| Text.ParseInt | src/mfcc.py:56-57 | int(s) of an unsigned literal, whitespace around it ignored, is the value of its digits |
| Text.ParseIntAccepts | src/mfcc.py:56-57 | int(s) accepts exactly optional whitespace, optional sign, one or more digits; anything else is None (ValueError); a signed literal has the value of its digits, negated after '-' |
| Text.IntToStringRoundTrip | src/mfcc.py:56-57 | int(str(i)) == i for every integer |
| Text.Split | src/mfcc.py:53 | str.split with one separator: count of separators plus one parts, none containing the separator |
| Text.SplitJoin | src/mfcc.py:53 | splitting and re-joining with the separator gives the string back |
| Text.SplitOne | src/mfcc.py:53-54 | with exactly one separator the parts are the text before and after it |
| Text.PathJoin | data_collection/src/udp_data_collector.py:201 | os.path.join: an absolute name wins; otherwise one slash is inserted unless the directory is empty or ends in one |
| Text.ToLower | app-udp/get_audio.py:193 | ASCII lower-casing keeps length and maps each letter to its lower case |
| Framing.RecvFrom | app-udp/visualization.py:56 | recvfrom(size) returns a prefix of the datagram of at most size bytes, the whole datagram when it fits |
| Framing.ReceivedBytes | app-tcp/visualization/main.py:50-55 | defines the bytes recv delivered, appended in arrival order |
| Framing.FramingTail | app-tcp/visualization/main.py:58-62 | dropping the first frame of a framing leaves a framing of the rest |
| Framing.FramingIsGrid | app-tcp/visualization/main.py:55-62 | frame i is bytes [i*size, (i+1)*size) of the stream and the leftover is shorter than size, however receives split it |
| Framing.FramingUnique | app-tcp/visualization/main.py:55-62 | two framings of one stream are equal |
| Framing.DrainFrames | app-tcp/visualization/main.py:58-62 | the inner while-loop cuts frames of exactly size bytes until fewer than size remain; frames ++ rest == buffer |
| Framing.FramingAppend | app-tcp/visualization/main.py:55-62 | draining piece by piece, carrying the leftover, gives the frames of the whole stream |
| Framing.TakeFrame | app/visualization/main.py:46-48 | the single-if form cuts one frame when at least size bytes are buffered and none otherwise; frame ++ rest == buffer |
| Framing.OneFramePerReceiveBounded | app/visualization/main.py:39-48 | with receives of at most size bytes, a leftover below size stays below size after append-and-cut |
| Framing.NormalisedFrames | app-tcp/visualization/main.py:58-67 | defines the emitted blocks: each frame's normalised samples, in order |
| Framing.NormalisedFrameAt | app-tcp/visualization/main.py:61-67 | emitted block i holds the normalised samples of frame i |
| Framing.NormalisedFramesFlatten | app-tcp/visualization/main.py:58-67 | the emitted blocks joined are the normalised samples of all framed bytes: nothing dropped or reordered |
| Framing.NormalisedFramesAppend | app-tcp/visualization/main.py:58-67 | the emitted blocks of two runs of frames are those of the runs joined |
| Collection.OrDefault | data_collection/src/tcp_data_collector.py:178-183 | defines entry.strip(), or the default ("unknown") when that is empty |
| Collection.InitialCount | data_collection/src/ble_data_collector.py:200-204 | defines int(index.strip()) - 1, or 0 when int() raises ValueError |
| Collection.NextCount | data_collection/src/tcp_data_collector.py:186 | defines label_counts.get(label, initial) + 1 |
| Collection.CountsAdvance | data_collection/src/udp_data_collector.py:162-167 | once a number is stored for a label, the next file for that label gets the next number, whatever the index entry says |
| Collection.IndexSetsFirstCount | data_collection/src/udp_data_collector.py:162-167 | for a label with no file yet the index entry is the number of its first file; an unparsable entry gives 1 |
| Collection.WavName | data_collection/src/udp_data_collector.py:201 | f"{label}_{count}.wav" is the label, an underscore, str(count) and ".wav" |
| Collection.WavNameInjective | data_collection/src/udp_data_collector.py:201 | different numbers give different file names for one label |
| Collection.SuccessiveSavesDiffer | data_collection/src/udp_data_collector.py:167-201 | two stored saves for one label are numbered n and n+1, so their names differ |
| Collection.PathJoinInjective | data_collection/src/udp_data_collector.py:201 | joining one directory with two different such names gives different paths |
| Collection.SuccessivePathsDiffer | data_collection/src/udp_data_collector.py:195-201 | two saves of one label into one directory in a session write different paths |
| Collection.Duration | data_collection/src/udp_data_collector.py:170-172 | total_bytes / bytes_per_sec is non-negative and zero only for no bytes |
| Collection.LossRate | data_collection/src/udp_data_collector.py:174-177 | (1 - duration / actual) * 100 for a positive measured time, else 0; never above 100 |
| Collection.ClampedLossRate | data_collection/src/udp_data_collector.py:174-178 | the max(0, ...) loss lies in [0, 100] |
| Collection.LossAboveThreshold | data_collection/src/udp_data_collector.py:174-187 | with a positive measured time the loss exceeds t percent exactly when the audio covers less than (100 - t) percent of it |
| Collection.SurplusAudio | data_collection/src/ble_data_collector.py:218-227 | more audio than measured time makes the unclamped loss negative and the clamped loss 0 |
| QtSpectrogram.FrameCount | app-serial/visualization.py:454-458 | center=False framing of n >= 1024 samples gives 1 + (n - 1024) div 256 frames, the last ending inside the input |
| QtSpectrogram.MelFrames | app-serial/visualization.py:454-458 | frame t covers samples [256t, 256t + 1024) and its column is a function of that frame alone; input shorter than one frame is None (librosa raises) |
| QtSpectrogram.ScrollIn | app-serial/visualization.py:459-465 | the image keeps its width, only the last width columns are kept, old columns move left and new ones fill the end |
| QtSpectrogram.Update | app-serial/visualization.py:450-468 | the carry becomes the chunk's last 768 samples; the image scrolls in the frames of carry ++ chunk, or stays when those are too short |
| QtSpectrogram.UpdateKeepsShape | app-serial/visualization.py:459-465 | an update keeps the image (128, 100) when every frame has 128 bands |
| QtSpectrogram.FullCarryAlwaysFrames | app-serial/visualization.py:452-460 | with a 768-sample carry, a chunk of at least 256 samples always yields columns |
| QtSpectrogram.MelFramesSplit | app-serial/visualization.py:452-458 | framing is continuous across a split on the hop grid when the next call starts from the last 768 samples |
| QtSpectrogram.CarryLosesFrames | app-udp/visualization.py:331 | as written, two 512-sample chunks after a full carry give 3 frames where the stream holds 4 |
| QtSpectrogram.UpdateContinuous | app-udp/visualization.py:330-331 | the corrected carry is the last 768 samples of carry ++ chunk |
| QtSpectrogram.LongChunkNeedsNoFix | app-serial/visualization.py:452-453 | for chunks of at least 768 samples, such as the serial viewer's 1024, the update as written is the corrected one |
| QtSpectrogram.ContinuousCarryMatchesStream | app-udp/visualization.py:330-336 | with the corrected carry, two updates scroll in exactly the frames the uninterrupted stream is cut into |
| QtSpectrogram.SpectrogramWindow.constructor | app-serial/visualization.py:422-440 | a hidden window with a -60 dB image of 100 columns of 128 bands and a carry of 768 zeros |
| QtSpectrogram.SpectrogramWindow.SetVisible | app-serial/visualization.py:139-140 | show() and hide() set visibility and nothing else |
| QtSpectrogram.SpectrogramWindow.UpdatePlot | app-serial/visualization.py:450-468 | the window's image and carry become those of Update; the carry changes even when librosa rejects the buffer |
| SerialViewer.EmittedChunkSizes | app-serial/visualization.py:69-85 | every emitted chunk holds 1024 samples in [-1, 1) |
| SerialViewer.SerialWorker.constructor | app-serial/visualization.py:50-55 | running, not connected, nothing read |
| SerialViewer.SerialWorker.ReadWaiting | app-serial/visualization.py:73-85 | with at least 2048 bytes waiting, exactly the first 2048 are read and their normalised samples emitted; otherwise nothing |
| SerialViewer.SerialWorker.Stop | app-serial/visualization.py:98-99 | the running flag is cleared and nothing else changes |
| SerialViewer.PollFrames | app-serial/visualization.py:71-85 | defines the frames read and bytes waiting after each pass: arrived bytes join those waiting and one 2048-byte frame is read when available |
| SerialViewer.PollFramesFramed | app-serial/visualization.py:71-85 | frames read ++ bytes waiting == every byte that arrived; every frame is 2048 bytes; at most one frame per pass |
| SerialViewer.PollFramesAreGrid | app-serial/visualization.py:73-83 | frame i is bytes [2048 i, 2048 (i + 1)) of everything that arrived |
| SerialViewer.SerialWorker.Run | app-serial/visualization.py:57-96 | after a failed connect nothing is emitted; otherwise the loop runs until the first read error, which ends it, and the frames read, the bytes left waiting and the chunks emitted are those PollFrames gives for the passes made |
| SerialViewer.MainWindow.constructor | app-serial/visualization.py:104-140 | waveform mode, a zero plot of 10240 samples, a -80 dB image, a zero carry, two seconds of zero history, empty queue, hidden sub-window |
| SerialViewer.MainWindow.StartPlotting | app-serial/visualization.py:263-273 | the sub-window is shown and the queue emptied |
| SerialViewer.MainWindow.ToggleDisplayMode | app-serial/visualization.py:230-238 | the mode flips; no data changes |
| SerialViewer.MainWindow.QueueData | app-serial/visualization.py:313-315 | the chunk joins the back of the queue and the history keeps the last 48000 samples of old ++ chunk |
| SerialViewer.MainWindow.TriggeredUpdatePlot | app-serial/visualization.py:317-349 | empty queue: nothing; else only the oldest chunk is taken; the sub-window updates; the waveform or the main image scrolls it in, the other keeps its data |
| SerialViewer.FullAudioHistory | app-serial/visualization.py:128 | the history after any chunks is the last 48000 samples of 48000 zeros followed by every chunk, in order |
| UdpViewer.WorkerChunks | app-udp/visualization.py:53-66 | defines the chunks emitted for a run of datagrams, each cut to 4096 bytes and emitted when well formed, in order |
| UdpViewer.WorkerChunkSizes | app-udp/visualization.py:56-66 | every emitted chunk holds between 1 and 2048 samples |
| UdpViewer.WorkerDeliversWellFormed | app-udp/visualization.py:56-66 | an even, non-empty datagram of at most 4096 bytes is delivered whole as its normalised samples |
| UdpViewer.WorkerDropsMalformed | app-udp/visualization.py:58-63 | an empty datagram, or one odd once truncated, emits nothing |
| UdpViewer.UDPWorker.constructor | app-udp/visualization.py:33-36 | running, nothing received |
| UdpViewer.UDPWorker.Stop | app-udp/visualization.py:73-74 | the running flag is cleared |
| UdpViewer.UDPWorker.Run | app-udp/visualization.py:38-71 | a failed bind receives nothing; otherwise each datagram in turn emits its chunk, if any, in order |
| UdpViewer.Step | app-udp/visualization.py:245-280 | one chunk: the sub-window updates when visible; in waveform mode the plot shifts it in; in spectrogram mode the main view updates or raises |
| UdpViewer.Drain | app-udp/visualization.py:238-280 | chunks are taken oldest first until the queue is empty or one raises; at a raise the chunks after it are still queued |
| UdpViewer.DrainWaveform | app-udp/visualization.py:251-254 | in waveform mode the whole queue drains and the plot is the last 48000 samples of old plot ++ every chunk |
| UdpViewer.DrainHiddenSub | app-udp/visualization.py:248-249 | a hidden sub-window is left alone |
| UdpViewer.DrainLongChunks | app-udp/visualization.py:257-272 | chunks of at least 512 samples never raise once the carry holds 512, so the queue drains completely |
| UdpViewer.ShortChunksRaise | app-udp/visualization.py:257-268 | in spectrogram mode a chunk too short to complete a frame with the carry raises, with the chunks behind it still queued |
| UdpViewer.MainWindow.constructor | app-udp/visualization.py:79-105 | waveform mode, a zero plot of 48000 samples, a -80 dB image, a zero carry, empty queue, hidden sub-window |
| UdpViewer.MainWindow.StartReceiving | app-udp/visualization.py:192-197 | the sub-window is shown and the queue emptied |
| UdpViewer.MainWindow.ToggleDisplayMode | app-udp/visualization.py:159-167 | the mode flips; no data changes |
| UdpViewer.MainWindow.QueueData | app-udp/visualization.py:232-233 | the chunk joins the back of the queue |
| UdpViewer.MainWindow.TriggeredUpdatePlot | app-udp/visualization.py:238-280 | the new plot, views and queue are those Drain gives; raised says a librosa error escaped the slot |
| UdpViewer.MainWindow.PlotChunk | app-udp/visualization.py:245-280 | the state after one chunk is that of Step |
| UdpViewer.MainWindow.UpdateMain | app-udp/visualization.py:257-280 | the main view becomes Update of its old value; raised exactly when carry ++ chunk is shorter than one frame |
| TcpViewer.DataWorker.constructor | app-tcp/visualization/main.py:33-36 | running, nothing received |
| TcpViewer.DataWorker.Stop | app-tcp/visualization/main.py:83-84 | the running flag is cleared |
| TcpViewer.DataWorker.Run | app-tcp/visualization/main.py:38-81 | the emitted chunks are the normalised 2048-byte frames of the bytes received before the first close or error, and the leftover is shorter than a frame |
| TcpViewer.DataWorker.ReceiveData | app-tcp/visualization/main.py:55-67 | the received bytes join the buffer and every frame they complete is emitted in order |
| TcpViewer.EmittedChunkSizes | app-tcp/visualization/main.py:58-67 | every emitted chunk holds 1024 samples |
| TcpViewer.MainWindow.constructor | app-tcp/visualization/main.py:88-108 | waveform mode, a zero plot of 10240 samples, 513 zero powers over 0 to 12000 Hz in steps of 23.4375 Hz, empty queue |
| TcpViewer.MainWindow.ToggleDisplayMode | app-tcp/visualization/main.py:167-176 | the mode flips; no data changes |
| TcpViewer.MainWindow.QueueData | app-tcp/visualization/main.py:245-246 | the chunk joins the back of the queue |
| TcpViewer.MainWindow.TriggeredUpdatePlot | app-tcp/visualization/main.py:274-303 | empty queue: nothing; else the oldest chunk is shifted into the waveform or becomes the spectrum; the other display keeps its data |
| TcpViewer.MainWindow.UpdatePlot | app-tcp/visualization/main.py:248-272 | the np.roll path shows the same waveform as the timer path, and the same spectrum |
| BleViewer.NotificationChunks | app-ble/visualization/main.py:40-52 | defines the chunks emitted for a run of notifications: each even, non-empty one decoded alone, in order |
| BleViewer.WholeNotificationsKeepEverySample | app-ble/visualization/main.py:40-52 | with even notifications, the chunks joined are the normalised samples of all bytes received, in order |
| BleViewer.OddNotificationDropped | app-ble/visualization/main.py:49-52 | an odd-length notification is dropped alone; the next is decoded from its first byte |
| BleViewer.DataWorker.constructor | app-ble/visualization/main.py:33-38 | running, disconnect event clear |
| BleViewer.DataWorker.Stop | app-ble/visualization/main.py:94-97 | the running flag is cleared and the disconnect event set |
| BleViewer.WaveformAsWritten | app-ble/visualization/main.py:255-265 | update_plot raises (None) exactly when the block is longer than the plot; otherwise the plot is the last \|y\| of y ++ block |
| BleViewer.ElevenChunksAreLost | app-ble/visualization/main.py:243-265 | eleven 1024-byte notifications in one tick make 5632 samples, and the update raises after the queue was cleared |
| BleViewer.WaveformClamped | app-ble/visualization/main.py:263-264 | the corrected update: the plot is the last \|y\| of y ++ block for every block |
| BleViewer.ClampedAgrees | app-ble/visualization/main.py:263-264 | wherever the code as written succeeds, the corrected update agrees with it |
| BleViewer.MainWindow.constructor | app-ble/visualization/main.py:101-117 | waveform mode, a zero plot of 5120 samples, 257 zero powers over rfftfreq(512, 1/24000), empty queue |
| BleViewer.MainWindow.ToggleDisplayMode | app-ble/visualization/main.py:167-175 | the mode flips; no data changes |
| BleViewer.MainWindow.QueueData | app-ble/visualization/main.py:239-241 | the chunk joins the back of the queue |
| BleViewer.MainWindow.TriggeredUpdatePlot | app-ble/visualization/main.py:243-253 | empty queue: nothing; else the queue is joined in order, emptied, and the block plotted; ok is false when update_plot raised |
| BleViewer.MainWindow.UpdatePlot | app-ble/visualization/main.py:255-273 | empty block: nothing; waveform mode as WaveformAsWritten; FFT mode: fft_power becomes the spectrum of the block's last 512 samples, DC removed, and setData raises exactly when the block holds fewer than 512 samples |
| SimpleViewer.DataWorker.constructor | app/visualization/main.py:22-25 | running, nothing received |
| SimpleViewer.DataWorker.Stop | app/visualization/main.py:64-65 | the running flag is cleared |
| SimpleViewer.DataWorker.Run | app/visualization/main.py:27-62 | no byte is lost or duplicated: emitted frames ++ buffer equal the bytes received; each frame is 1024 bytes; the buffer stays below a frame |
| SimpleViewer.DataWorker.ReceiveLoop | app/visualization/main.py:37-58 | the loop stops at the first empty or failing receive, or when receives run out; the frames emitted and the buffer hold every byte received, in order; frames are 1024 bytes, at most one per receive, and the buffer stays below a frame |
| SimpleViewer.DataWorker.ReceiveOne | app/visualization/main.py:39-54 | one receive is appended and at most one frame cut from the front and emitted |
| SimpleViewer.MainWindow.constructor | app/visualization/main.py:70-96 | a zero plot of 5120 samples |
| SimpleViewer.MainWindow.UpdatePlot | app/visualization/main.py:110-117 | the plot keeps its length and ends with the chunk, the rest being the old tail |
| GestureController.SampleQueue.constructor | app-tcp/controller/app.py:106 | an empty queue |
| GestureController.SampleQueue.Put | app-tcp/controller/app.py:82 | put appends at the back |
| GestureController.SampleQueue.Get | app-tcp/controller/app.py:134 | get returns the oldest block and removes it |
| GestureController.TcpListener.constructor | app-tcp/controller/app.py:45-49 | bound to the given queue; running, not connected, not shut down |
| GestureController.TcpListener.Run | app-tcp/controller/app.py:51-93 | a failed connect queues nothing; otherwise the receive loop runs |
| GestureController.TcpListener.ReceiveLoop | app-tcp/controller/app.py:63-89 | timeouts are skipped; close or error ends it; every whole 2048-byte frame before that is queued as 1024 normalised samples in order; the leftover is below 2048 bytes |
| GestureController.TcpListener.ReceiveEvent | app-tcp/controller/app.py:64-85 | a timeout changes nothing; received bytes extend the framed stream and the queue gains exactly the frames they complete |
| GestureController.TcpListener.ReceiveData | app-tcp/controller/app.py:65-82 | received bytes join the buffer and the frames they complete are queued |
| GestureController.TcpListener.DrainAndPut | app-tcp/controller/app.py:73-82 | the inner loop queues every whole frame of the buffer and keeps the rest |
| GestureController.TcpListener.PutFrames | app-tcp/controller/app.py:77-82 | each frame's normalised samples are queued, in order |
| GestureController.TcpListener.Stop | app-tcp/controller/app.py:95-102 | the running flag is cleared and the connection shut down if there is one |
| GestureController.ArgMax | app-tcp/controller/app.py:162 | np.argmax: an index of a largest probability, and the first one |
| GestureController.KeyMapping | app-tcp/controller/app.py:37-42 | keys for labels 4, 3, 0, 1; a later entry for an equal label overrides an earlier one |
| GestureController.Decide | app-tcp/controller/app.py:162-171 | a key is pressed exactly when the top class is above 0.85, not label 0, and mapped; never 'j' |
| GestureController.NeverPressesJ | app-tcp/controller/app.py:37-42 | the 'j' entry is dead: its label is the background label, which never fires |
| GestureController.CheckGate | app-tcp/controller/app.py:140-149 | too soon exactly under 0.35 s since the last inference; inference exactly when 0.35 s and 1.5 s have both passed |
| GestureController.SpacedSnoc | app-tcp/controller/app.py:140-149 | appending a time at least gap after the last keeps a run of times spaced |
| GestureController.InferenceEngine.constructor | app-tcp/controller/app.py:118-125 | two seconds of zeros, both clocks at zero, no presses |
| GestureController.InferenceEngine.DrainQueue | app-tcp/controller/app.py:133-135 | the queue is emptied and the buffer keeps the last 48000 samples of old ++ every block, in order |
| GestureController.InferenceEngine.RecordInference | app-tcp/controller/app.py:144 | the inference time is recorded |
| GestureController.InferenceEngine.InferAndAct | app-tcp/controller/app.py:154-173 | the decided key, if any, is pressed and the action time recorded |
| GestureController.InferenceEngine.Tick | app-tcp/controller/app.py:131-173 | one pass drains the queue, then waits, cools down or infers per CheckGate; inferences stay 0.35 s apart and presses 1.5 s apart |
| Pcen.PadToLength | app-tcp/controller/utils.py:63-64 | fix_length pads with zeros at the end to n, keeping the signal as a prefix |
| Pcen.Spectrogram | app-tcp/controller/utils.py:67-83 | the centred STFT has 1 + \|y\| div 256 frames of 128 bands |
| Pcen.MinOf | app-tcp/controller/utils.py:90 | a value of the row no larger than any other |
| Pcen.MatrixMin | app-tcp/controller/utils.py:90 | pcen.min(): a value of the matrix no larger than any cell |
| Pcen.FixWidthKeepLast | app-tcp/controller/utils.py:85-94 | every row becomes 188 wide: narrower rows padded with the matrix minimum, wider ones keep their last 188 frames |
| Pcen.FixWidthKeepFirst | src/surface_recognition/models.py:33-42 | the same, except wider rows keep their first 188 frames |
| Pcen.PaddingIsBackground | app-tcp/controller/utils.py:87-91 | no padded cell exceeds any real one |
| Pcen.FixWidthExact | app-tcp/controller/utils.py:85-94 | a spectrogram already 188 wide is unchanged by either variant |
| Pcen.ExtractPcenController | app-tcp/controller/utils.py:59-99 | the result has 128 bands of 188 frames; short audio is zero-padded to one FFT frame first |
| Pcen.ControllerWindowNeedsNoFix | app-tcp/controller/app.py:154-155 | the 48000-sample window gives exactly 188 frames, so trimming first or last agree |
| Pcen.ExtractPcenSurface | src/surface_recognition/models.py:7-45 | DC removed, padded to one frame, fixed to 128 by 188 keeping the first frames |
| Pcen.SurfaceInputIsCentred | src/surface_recognition/models.py:10-13 | the signal the surface spectrogram is computed from sums to zero over its real samples |
| Mfcc.SamplesIn | src/mfcc.py:19-20 | int(seconds * 10) truncates the number of 100 ms lines |
| Mfcc.DefaultCounts | src/mfcc.py:15-29 | 10 lines per window, 1 per step, 50 displayed |
| Mfcc.ParseLine | src/mfcc.py:51-60 | a stripped line is accepted exactly when it is non-empty with one comma and two integer parts, and then gives those two integers |
| Mfcc.ParseFormatLine | src/mfcc.py:51-58 | every line the device prints parses back to the pair it was printed from |
| Mfcc.StripCrLf | src/mfcc.py:51 | strip removes exactly the line terminator of a line with clean ends |
| Mfcc.Parsed | src/mfcc.py:49-67 | the pairs queued for a run of reads are the accepted ones, in order, up to the first failure |
| Mfcc.ParsedFormatted | src/mfcc.py:49-67 | a device printing only well-formed lines gets every pair through, in order |
| Mfcc.ParsedAdvance | src/mfcc.py:49-67 | a read that is not a failure appends its accepted pair, if any, and the queue followed by Parsed of the remaining reads stays Parsed of all reads |
| Mfcc.ParsedAccepted | src/mfcc.py:52-58 | an accepted first line puts its pair at the front of the queue |
| Mfcc.ReadSerialData | src/mfcc.py:39-69 | a port that cannot be opened queues nothing; otherwise the queue gains Parsed of the reads |
| Mfcc.ParsedStep | src/mfcc.py:49-67 | a read that is not a failure adds its accepted pair, or nothing, and the reader goes on |
| Mfcc.LevelDisplay.constructor | src/mfcc.py:28-31 | both buffers empty |
| Mfcc.LevelDisplay.ProcessAudioLevelData | src/mfcc.py:73-82 | the level and the time in seconds join their bounded buffers, which stay equally long, and the plot is notified |
| Mfcc.LevelDisplay.MainProcessingLoop | src/mfcc.py:101-122 | every queued pair is processed in order; the buffers hold the newest 50 levels and times |
| Mfcc.DisplayStep | src/mfcc.py:105-106 | processing one more pair extends the buffers by its level and time |
| Mfcc.Seconds | src/mfcc.py:78 | milliseconds to seconds: t * 1000 equals the timestamp |
| SawDashboard.WaveformStep | src/main.py:96-100 | an empty block changes nothing; a block longer than the buffer raises after rolling; otherwise the buffer ends with the block |
| SawDashboard.ScrollRows | src/main.py:104-112 | per row: only the last width new values are kept, the old ones move left, the new fill the end |
| SawDashboard.RollColumnsIn | src/main.py:105-112 | the np.roll update as written gives the same image as ScrollRows |
| SawDashboard.Flipped | src/main.py:113 | rows in reverse mel order |
| SawDashboard.FlippedTwice | src/main.py:113 | flipping twice gives the image back |
| SawDashboard.Masked | src/main.py:122-127 | the (kHz, magnitude / 4) points of the bins with 0 < f <= MAX_FREQ_DISP, in order |
| SawDashboard.MaskedAll | src/main.py:124 | when every bin is in the band the mask keeps them all |
| SawDashboard.DisplayedBins | src/main.py:122-127 | on compute_fft's 513-bin axis the display drops exactly the 0 Hz bin |
| SawDashboard.StackRows | src/signal_process.py:41 | np.stack(axis=1) of at least one column has 80 (N_MELS) rows of equal positive width |
| SawDashboard.Dashboard.constructor | src/main.py:11-12 | a zero waveform and a zero image of 80 (N_MELS) rows of 200 columns |
| SawDashboard.Dashboard.UpdateLoop | src/main.py:86-137 | nothing queued: nothing changes; else the waveform step, and if it did not raise, the spectrogram and FFT steps |
| SawDashboard.Dashboard.UpdateSpectrogram | src/main.py:103-119 | the processor's new columns are scrolled into the image per RollColumnsIn |
| SawDashboard.Dashboard.UpdateFft | src/main.py:122-129 | the FFT plot becomes the masked points of compute_fft's spectrum |
| SignalProcess.Clip01 | src/signal_process.py:34 | np.clip(x, 0, 1) lies in [0, 1] and equals x inside it |
| SignalProcess.Column | src/signal_process.py:26-36 | one column per mel band, each value (db + 80) / 80 clipped to [0, 1] |
| SignalProcess.Hops | src/signal_process.py:19-36 | pending samples are consumed hop by hop; fewer than 256 remain; one column per hop |
| SignalProcess.HopsConsume | src/signal_process.py:19-21 | hops consumed ++ residual == pending, and the column count is \|pending\| div 256 |
| SignalProcess.ShiftThenLast | src/signal_process.py:23-24 | one hop shifted in, then k more, is the window after k + 1 hops |
| SignalProcess.HopsWindow | src/signal_process.py:23-24 | the final window is the last 1024 of old window ++ consumed samples |
| SignalProcess.HopsColumn | src/signal_process.py:23-36 | column t is computed from the window after t + 1 hops |
| SignalProcess.HopsAppend | src/signal_process.py:16-36 | feeding a stream in two pieces, carrying residual and window, gives the same columns, residual and window as feeding it at once |
| SignalProcess.Stack | src/signal_process.py:41 | np.stack(cols, axis=1): cell (b, t) is band b of column t |
| SignalProcess.DSPProcessor.constructor | src/signal_process.py:6-11 | a zero window of 1024, no residual |
| SignalProcess.DSPProcessor.ProcessSpectrogramColumn | src/signal_process.py:13-41 | None or empty: no change; else every whole hop of residual ++ chunk consumed and the k new columns returned, None when k = 0 |
| SignalProcess.ProcessCounts | src/signal_process.py:16-21 | the new residual is the unconsumed tail of old residual ++ chunk, one column per whole hop |
| SignalProcess.FftInput | src/signal_process.py:45-50 | shorter audio is zero-padded to 1024 keeping it as a prefix; longer keeps its last 1024 |
| SignalProcess.RfftFreqs | src/signal_process.py:54 | rfftfreq(n, 1/rate): n/2 + 1 bins k * rate / n, from 0 to at most rate / 2 |
| SignalProcess.Bin | src/signal_process.py:54 | bin k is k * rate / n |
| SignalProcess.RfftFreqsIncreasing | src/signal_process.py:54 | consecutive bins are rate / n apart, so the axis strictly increases |
| SignalProcess.ComputeFft | src/signal_process.py:43-56 | 513 frequencies and the magnitude spectrum of the padded or trimmed block |
| SignalProcess.Spectrum | app-tcp/visualization/main.py:299-302 | the magnitude spectrum of the chunk with its mean removed |
| SignalProcess.SpectrumIgnoresOffset | app-tcp/visualization/main.py:299-302 | a constant offset in the chunk does not change the spectrum |
| UdpListener.Queued | src/udp.py:28-36 | nothing for an error, an empty or odd datagram; otherwise its float32 samples divided by 32768 |
| UdpListener.ListenChunks | src/udp.py:24-36 | defines the blocks queued for a run of receives: Queued of each, when present, in arrival order |
| UdpListener.ListenChunksWellFormed | src/udp.py:28-36 | every queued block holds 1 to 2048 samples in [-1, 1) |
| UdpListener.EvenDatagramsKeepEverySample | src/udp.py:24-39 | with whole even datagrams, the queued blocks joined are the normalised samples of every byte received |
| UdpListener.UDPListener.constructor | src/udp.py:8-12 | not running, no socket, empty queue |
| UdpListener.UDPListener.Start | src/udp.py:14-21 | running with a socket created; raised exactly when the bind fails, with the flag already set |
| UdpListener.UDPListener.Stop | src/udp.py:54-57 | not running and the socket closed |
| UdpListener.UDPListener.ListenLoop | src/udp.py:24-39 | no receive ends the loop; each queues at most one block at the back |
| UdpListener.UDPListener.GetData | src/udp.py:41-52 | the queue is emptied; None when it was empty, otherwise its blocks joined oldest first |
| UdpFft.FftFreq | src/udp_fft.py:49 | fftfreq(n, 1/rate): i * rate / n for the first (n - 1) div 2 + 1 bins, (i - n) * rate / n after |
| UdpFft.BinFreq | src/udp_fft.py:49 | bin i is non-negative exactly when i is among the first (n - 1) div 2 + 1 |
| UdpFft.NonNegative | src/udp_fft.py:51-53 | the freq >= 0 mask applied alike to frequencies and amplitudes, in order |
| UdpFft.NonNegativePrefix | src/udp_fft.py:51-53 | when exactly the first m frequencies are non-negative the mask keeps exactly the first m bins |
| UdpFft.FirstHalf | src/udp_fft.py:49-53 | for even n the freq >= 0 bins are exactly the first half |
| UdpFft.AsReals | src/udp_fft.py:46 | int16 to float32 converts exactly |
| UdpFft.Amplitude | src/udp_fft.py:47-48 | np.abs(fft) / n, one value per sample |
| UdpFft.Analysis | src/udp_fft.py:45-56 | a frame publishes 256 frequencies and 256 amplitudes, the first half of the 512 bins |
| UdpFft.Analyses | src/udp_fft.py:45-56 | defines the published items for a list of frames: the Analysis of each, in order |
| UdpFft.Arrived | src/udp_fft.py:34-35 | defines the bytes buffer += recvfrom(BUFFER_SIZE) appends, each datagram cut to BUFFER_SIZE, errors adding nothing |
| UdpFft.AnalyzeSignal | src/udp_fft.py:28-59 | errors are skipped; the published items are the analyses of the whole 1024-byte frames of the bytes received, in order |
| UdpFft.AnalyzeData | src/udp_fft.py:34-56 | one datagram joins the buffer and every frame it completes is analysed and published |
| ProcessFft.FrequencyAxis | src/process_fft.py:36 | rfftfreq(buf, 1/fs): buf/2 + 1 bins k * fs / buf; zero buf or fs is None (division by zero) |
| ProcessFft.AxisEndsAtNyquist | src/process_fft.py:36-39 | for even buf the last bin is exactly fs / 2 |
| ProcessFft.FftPlot.constructor | src/process_fft.py:21-36 | buf zeros and the axis for buf and fs |
| ProcessFft.FftPlot.Update | src/process_fft.py:46-54 | the same read loop as the plain plotter; the axis does not change |
| Processing.HistoryWindow | src/processing.py:20 | capacity zeros followed by the samples, trimmed to capacity: the newest samples, zero-padded at the front |
| Processing.PcmPlot.constructor | src/processing.py:16-20 | capacity zeros, nothing waiting |
| Processing.PcmPlot.Arrive | src/processing.py:33 | arriving bytes join the back of the waiting bytes |
| Processing.PcmPlot.Update | src/processing.py:32-39 | whole pairs are decoded and appended in order; at most one byte stays waiting |
| Processing.ReadPairs | src/processing.py:33-37 | the decoded samples re-encode to the consumed bytes and at most one byte is left |
| Processing.DecodedPrefix | src/processing.py:33-37 | the samples read are the decoding of the bytes they were read from |
| Processing.UpdateKeepsConsistent | src/processing.py:33-37 | reading whole pairs keeps the deque equal to the history of every byte decoded |
| Processing.ReadOne | src/processing.py:35-37 | one pair decodes to the sample that encodes back to it; appends compose |
| Processing.History | src/processing.py:20-37 | appending decoded samples to the history keeps the deque its newest part |
| DataVisualization.WaveformPage.constructor | app/data_visualization.py:35-48 | 512 zero samples and an empty buffer |
| DataVisualization.WaveformPage.UpdateWaveform | app/data_visualization.py:49-78 | a failed or empty receive reports and keeps the buffer; else the bytes are appended and, when a frame is buffered, exactly one is cut and unpacked into the line |
| HarGesture.ClassName | app-tcp/har_gesture.py:22 | CLASS_NAMES[i] with Python indexing is defined exactly for -4 <= i < 4 and is then one of the class names; outside that it is None (IndexError) |
| HarGesture.Session.constructor | app-tcp/har_gesture.py:44-48 | not running, no connection, empty buffer, last prediction "非接触" |
| HarGesture.Session.Start | app-tcp/har_gesture.py:68-78 | while not running: connected and running, or not running when connect fails |
| HarGesture.Session.StopButton | app-tcp/har_gesture.py:80-87 | while running: stopped and disconnected |
| HarGesture.Session.Rerun | app-tcp/har_gesture.py:92-136 | timeout: nothing; error or empty receive: stopped; else bytes appended and at most one 48000-byte window classified and cut |
| GetAudio.MacHistoryLength | app-udp/get_audio.py:52 | int(44100 / 1024 * 2) is 86 |
| GetAudio.IsWavExt | app-udp/get_audio.py:193 | defines the re.IGNORECASE match of ".wav" |
| GetAudio.MatchFrom | app-udp/get_audio.py:193 | defines the match of _(\d+) at the end of the stem, read backwards; needs a digit, then an underscore |
| GetAudio.MatchIndex | app-udp/get_audio.py:193 | defines re.match(rf"{prefix}_(\d+)\.wav$", name, re.IGNORECASE) as the matched number or None, with $ also before one final newline |
| GetAudio.MatchFromDigits | app-udp/get_audio.py:193 | reading back over digits and the underscore before them yields their value |
| GetAudio.MatchIndexRoundTrip | app-udp/get_audio.py:193-202 | every name {prefix}_{n}.wav, extension in any case, matches with its own number n |
| GetAudio.MatchNeedsDigits | app-udp/get_audio.py:193 | a stem not ending in a digit never matches |
| GetAudio.MatchWavName | app-udp/get_audio.py:193-207 | a collector name {prefix}_{n}.wav matches with n |
| GetAudio.EntryIndex | app-udp/get_audio.py:195-202 | defines what one entry gives the scan: its number for a matching regular file, else 0 |
| GetAudio.MaxIndex | app-udp/get_audio.py:194-202 | defines max_idx after the loop over the listing, starting from 0 |
| GetAudio.MaxIndexBounds | app-udp/get_audio.py:194-204 | the scan's maximum bounds the number of every entry |
| GetAudio.MaxIndexAttained | app-udp/get_audio.py:194-204 | a non-zero maximum is the number of some entry |
| GetAudio.NextIndex | app-udp/get_audio.py:193-206 | the loop returns one more than the largest number of a matching regular file, or 1 |
| GetAudio.EntryIndexOfWavName | app-udp/get_audio.py:195-202 | a regular file {prefix}_{i}.wav counts i |
| GetAudio.NotWavNameAbove | app-udp/get_audio.py:195-202 | an entry counting less than i is not a regular file named {prefix}_{i}.wav |
| GetAudio.NewNamesAreFree | app-udp/get_audio.py:193-207 | saw_{i}.wav and mac_{i}.wav for the chosen i name no existing regular file, so nothing is overwritten |
| GetAudio.SaveAdvancesIndex | app-udp/get_audio.py:193-207 | once both files of a save exist the next scan picks the next index |
| GetAudio.MaxIndexSnoc | app-udp/get_audio.py:195-202 | scanning one more entry takes the larger of the scan so far and its number |
| GetAudio.Norm | app-udp/get_audio.py:289-292 | empty stays empty; else every sample divided by 32768, in [-1, 1) |
| GetAudio.SavedFile | app-udp/get_audio.py:206-220 | the file {prefix}_{i}.wav in the save directory holding the data at the rate |
| GetAudio.SaveOutcome | app-udp/get_audio.py:162-220 | both files always written with one index above the scan's largest; loss clamped; reported exactly when above 10 % |
| GetAudio.HighLossOnlyReported | app-udp/get_audio.py:173-187 | the loss is reported exactly when ring audio covers under 90 % of the hold, and both files are written either way |
| GetAudio.Recorder.constructor | app-udp/get_audio.py:40-55 | inactive, not recording, empty histories and recordings |
| GetAudio.Recorder.StartCollection | app-udp/get_audio.py:79-114 | active already: nothing; else active exactly when socket and microphone opened |
| GetAudio.Recorder.Receive | app-udp/get_audio.py:116-127 | while active a datagram cut to 2048 bytes joins the 200-deep history and, while recording, the recording; timeout skipped; error ends |
| GetAudio.Recorder.MacAudioCallback | app-udp/get_audio.py:129-135 | while active a microphone chunk joins the 86-deep history and, while recording, its recording |
| GetAudio.Recorder.KeyPress | app-udp/get_audio.py:137-145 | when active and idle: recording, clock set, both recordings start with the last five chunks of their history |
| GetAudio.Recorder.KeyRelease | app-udp/get_audio.py:149-157 | when recording: stopped, hold measured, saved per SaveOutcome, both recordings emptied |
| GetAudio.Recorder.SaveAudioFile | app-udp/get_audio.py:162-220 | the outcome is SaveOutcome of the recordings, the hold and the listing |
| GetAudio.Recorder.ResetApp | app-udp/get_audio.py:228-231 | inactive and not recording; histories and recordings untouched |
| UdpDataCollector.SaveDir | data_collection/src/udp_data_collector.py:195-198 | ../data/experiment/{texture}, with /person_{person} when a person is given |
| UdpDataCollector.SaveOutcome | data_collection/src/udp_data_collector.py:155-201 | aborted with counters unchanged when the loss is above 10 %; else the number stored and the joined packets written |
| UdpDataCollector.AbortsExactlyOnShortRecording | data_collection/src/udp_data_collector.py:170-190 | aborted exactly when the recording covers under 90 % of the hold at 48000 bytes per second |
| UdpDataCollector.SuccessiveSavesDoNotOverwrite | data_collection/src/udp_data_collector.py:167-201 | two written saves in a row from one form go to different files |
| UdpDataCollector.Collector.constructor | data_collection/src/udp_data_collector.py:34-49 | inactive, empty history and counters, form "test_tex", "swipe", "person_1", "1" |
| UdpDataCollector.Collector.StartCollection | data_collection/src/udp_data_collector.py:87-115 | active already: nothing; else active exactly when the bind succeeded |
| UdpDataCollector.Collector.Receive | data_collection/src/udp_data_collector.py:117-131 | while active a datagram cut to 2048 bytes joins the 200-deep history and, while recording, the recording; error ends |
| UdpDataCollector.Collector.KeyPress | data_collection/src/udp_data_collector.py:133-140 | when active and idle: recording from the last five packets, clock set |
| UdpDataCollector.Collector.KeyRelease | data_collection/src/udp_data_collector.py:142-153 | when recording: stopped, hold measured, saved per SaveOutcome |
| UdpDataCollector.Collector.SaveAudioFile | data_collection/src/udp_data_collector.py:155-215 | file and counters are those of SaveOutcome |
| UdpDataCollector.Collector.ResetApp | data_collection/src/udp_data_collector.py:217-239 | inactive, not recording, counters forgotten |
| TcpDataCollector.SaveDir | data_collection/src/tcp_data_collector.py:190-193 | ../data/{texture}, with /{person} when a person is given |
| TcpDataCollector.Accumulated | data_collection/src/tcp_data_collector.py:108-124 | defines the buffer a thread builds: received bytes appended until a timeout or other error ends it |
| TcpDataCollector.ReadsDone | data_collection/src/tcp_data_collector.py:108-124 | the reads performed: every one before the last delivered data, and the last ended the thread when reads remain |
| TcpDataCollector.AccumulatedIsReceivedPrefix | data_collection/src/tcp_data_collector.py:108-124 | read outcomes after the one that ends the thread change nothing in the buffer |
| TcpDataCollector.AccumulatedAppend | data_collection/src/tcp_data_collector.py:108-117 | reads that deliver data contribute their bytes one after another |
| TcpDataCollector.SaveOutcome | data_collection/src/tcp_data_collector.py:177-210 | the number is stored and the buffer written to {dir}/{label}_{n}.wav at 24000 Hz |
| TcpDataCollector.SuccessiveSavesDoNotOverwrite | data_collection/src/tcp_data_collector.py:177-196 | two saves in a row from one form write different files |
| TcpDataCollector.FirstFileIsOne | data_collection/src/tcp_data_collector.py:177-187 | the first file of a label in a session is numbered 1 |
| TcpDataCollector.Collector.constructor | data_collection/src/tcp_data_collector.py:27-45 | inactive with no keys bound, empty buffers and counters, form "skin", "swipe", "person_0" |
| TcpDataCollector.Collector.StartCollection | data_collection/src/tcp_data_collector.py:91-104 | active afterwards; an inactive collector also binds the keys |
| TcpDataCollector.Collector.KeyPress | data_collection/src/tcp_data_collector.py:143-153 | once start_collection has bound the keys (reset_app leaves them bound) and when idle: recording with empty frames and buffer; otherwise nothing |
| TcpDataCollector.Collector.ReceivePcmData | data_collection/src/tcp_data_collector.py:106-124 | while recording, the reads performed and the buffer are ReadsDone and Accumulated of the read outcomes |
| TcpDataCollector.Collector.KeyRelease | data_collection/src/tcp_data_collector.py:155-168 | with the keys bound and when recording: stopped and saved per SaveOutcome; otherwise nothing |
| TcpDataCollector.Collector.SaveAudioFile | data_collection/src/tcp_data_collector.py:177-210 | file and counters are those of SaveOutcome |
| TcpDataCollector.Collector.ResetApp | data_collection/src/tcp_data_collector.py:212-244 | empty texture and gesture become "skin" and "swipe"; person "person_0"; flags, frames and counters cleared; the key bindings are left in place |
| TcpDataCollector.PressAfterReset | data_collection/src/tcp_data_collector.py:100-103 | after start_collection and reset_app a key press still starts a recording, with collection inactive |
| BleDataCollector.SaveDir | data_collection/src/ble_data_collector.py:210-213 | ../data/experiment/{texture}, with /{person} when a person is given |
| BleDataCollector.SaveOutcome | data_collection/src/ble_data_collector.py:193-255 | the number is stored always; a file exactly when the buffer is non-empty; the loss is unclamped |
| BleDataCollector.EmptyRecordingSkipsNumber | data_collection/src/ble_data_collector.py:194-207 | an empty recording writes nothing but uses up its number |
| BleDataCollector.SuccessiveSavesDoNotOverwrite | data_collection/src/ble_data_collector.py:194-216 | two written saves in a row from one form go to different files |
| BleDataCollector.LossCanBeNegative | data_collection/src/ble_data_collector.py:218-227 | more audio than the measured hold makes the reported loss negative |
| BleDataCollector.Collector.constructor | data_collection/src/ble_data_collector.py:23-43 | inactive, disconnected, empty form, index "1" |
| BleDataCollector.Collector.StartCollection | data_collection/src/ble_data_collector.py:89-104 | active afterwards |
| BleDataCollector.Collector.Connected | data_collection/src/ble_data_collector.py:111-139 | connected afterwards |
| BleDataCollector.Collector.Disconnected | data_collection/src/ble_data_collector.py:130-133 | disconnected afterwards |
| BleDataCollector.Collector.Notification | data_collection/src/ble_data_collector.py:157-161 | the bytes join the buffer exactly while recording |
| BleDataCollector.Collector.KeyPress | data_collection/src/ble_data_collector.py:165-175 | when connected and idle: recording, empty buffer, clock set; otherwise nothing |
| BleDataCollector.Collector.KeyRelease | data_collection/src/ble_data_collector.py:177-191 | when connected and recording: stopped, hold measured, saved per SaveOutcome; otherwise nothing |
| BleDataCollector.Collector.SaveAudioFile | data_collection/src/ble_data_collector.py:193-255 | the outcome and counters are those of SaveOutcome |
| BleDataCollector.Collector.ResetApp | data_collection/src/ble_data_collector.py:257-273 | empty texture and gesture become "skin" and "swipe"; counters cleared |
| SawCollector.SaveOutcome | data_collection/src/saw_collector.py:99-118 | the number is stored and the chunks joined in order are written to {label}_{n}.wav at 44100 Hz |
| SawCollector.SuccessiveSavesDoNotOverwrite | data_collection/src/saw_collector.py:99-106 | two saves in a row write different files |
| SawCollector.ChunksInOrder | data_collection/src/saw_collector.py:115 | chunk i's bytes come right after those of the chunks before it and before those after it |
| SawCollector.Collector.constructor | data_collection/src/saw_collector.py:15-49 | inactive, no frames or counters, gesture "default_gesture" |
| SawCollector.Collector.StartCollection | data_collection/src/saw_collector.py:62-73 | active afterwards |
| SawCollector.Collector.KeyPress | data_collection/src/saw_collector.py:75-83 | when idle: recording into an empty list; otherwise nothing |
| SawCollector.Collector.KeyRelease | data_collection/src/saw_collector.py:85-90 | not recording afterwards |
| SawCollector.Collector.RecordAudio | data_collection/src/saw_collector.py:92-97 | while recording every chunk read is appended in order |
| SawCollector.Collector.SaveAudioFile | data_collection/src/saw_collector.py:99-118 | file and counters are those of SaveOutcome |

## Left out

- Sockets, the serial port, BLE, PyAudio streams and threads. Each receive, read, notification or callback is a method call or an element of an input sequence of outcomes. Concurrency between the receiving thread and the GUI thread is not modelled.
- Qt, Tk, Streamlit and dearpygui drawing: labels, colours, axes, timers and button enabling are not modelled. Streamlit reruns are method calls.
- DSP kernels (Hann and Hamming windows, FFT, mel filter bank, power_to_db, PCEN, MFCC) are uninterpreted function parameters. Only the shape and bookkeeping around them are modelled.
- Neural-network and SVM inference: class probabilities and predicted indices are inputs.
- LABELS is not part of this model: the label list used by the controller's key map is a parameter of at least five names.
- Floating-point arithmetic: float32 and float64 values are reals. NaN and infinity handling (nan_to_num) is not modelled.
- Python int(), str.strip() and the regex \d are modelled over ASCII only: no Unicode digits, spaces or underscores in numbers.
- Wall-clock readings are parameters of the methods that read the clock.
- Directory listings are inputs. os.makedirs, WAV write errors and the files' headers are not modelled; a saved file is its path, rate and data.
- Reconnect loops (tcp_data_collector.reconnect, BLE scanning and reconnecting) are not modelled.
- TcpDataCollector.Collector.ReceivePcmData: an empty read and any ConnectionError from recv (reset, aborted, broken pipe) are one event, Received([]): the thread reconnects and adds nothing. Only a socket timeout or another exception ends the thread. The bound recv(1024) puts on the read size is not enforced.
- record_audio in tcp_data_collector.py is never started and is not modelled.
- quit_app, closeEvent, the serial viewer's port refresh and the mfcc plot's animate are teardown or drawing only and are not modelled.
- visualize_audio_data in get_audio.py is drawing only; only its _norm helper is modelled (GetAudio.Norm).
- melspectrogram(center=False) on input shorter than one frame raises in librosa; the model returns None and the callers keep their image.
- QtSpectrogram.MelFrames: each column is a function of its own frame only. power_to_db's default top_db = 80 floors every value at 80 dB below the maximum of the whole chunk's matrix, so the source's columns also depend on the other frames of the same chunk; that floor is not modelled, and the frame equalities (MelFramesSplit, ContinuousCarryMatchesStream) hold for frames before that floor.
- UdpViewer.Drain: a raise in the timer slot is reported with the state at the raise. Under PyQt6 with no sys.excepthook an exception that escapes a slot aborts the viewer; that abort is not modelled, here or in the four members below.
- UdpViewer.ShortChunksRaise: the raise it proves aborts the viewer under PyQt6; the chunks left queued are never drawn.
- UdpViewer.MainWindow.TriggeredUpdatePlot: raised = true means the viewer aborts; the state after it is the state at the raise.
- BleViewer.MainWindow.TriggeredUpdatePlot: ok = false means the viewer aborts; the state after it is the state at the raise.
- BleViewer.MainWindow.UpdatePlot: ok = false means the viewer aborts; the state after it is the state at the raise.
- Seqs.ShiftIn: an empty chunk returns the window unchanged, where numpy's y[:-0] = y[0:] raises; the viewers that scroll with it either skip empty blocks first or never receive one from their decoders.
- Pcen.Spectrogram: states only the frame count and band count of the centred STFT, not its values.

## Findings

| source | as written | input that shows it | evidently intended | confidence | as-written member | corrected member |
|---|---|---|---|---|---|---|
| app-udp/visualization.py:258, 331 | the overlap carry is the chunk's last 768 samples, not the last 768 of carry ++ chunk | two 512-sample chunks (one 1024-byte datagram each) after a full carry: 3 mel frames where the stream holds 4; serial chunks of 1024 samples are unaffected (QtSpectrogram.LongChunkNeedsNoFix) | successive frames overlap across chunk boundaries, as a continuous STFT does | not executed | QtSpectrogram.CarryLosesFrames | QtSpectrogram.ContinuousCarryMatchesStream |
| app-ble/visualization/main.py:263-264 | the joined queue is assigned to the last len(block) cells of a 5120-sample plot | eleven 1024-byte notifications between two ticks: 5632 samples; the ValueError escapes the timer slot, which under PyQt6 aborts the viewer | show the newest 5120 samples | not executed | BleViewer.ElevenChunksAreLost | BleViewer.WaveformClamped |

The window classes keep the behaviour as written, so that they model what the programs do. The corrected functions (`QtSpectrogram.UpdateContinuous`, `BleViewer.WaveformClamped`) stand beside them with their properties proved.

=== FILE: ble_data_collector.dfy ===
/**
 * The BLE data collector: notifications from the ring are appended to the
 * audio buffer only while the Option key is held; the key is ignored
 * until the ring is connected; releasing it numbers the file, stores the
 * number, reports an unclamped loss estimate and writes the buffer as a
 * WAV file when there is something to write.
 */
module BleDataCollector {
  import opened Text
  import opened Collection
  import Pcm

  const SAMPLE_RATE: nat := 16000

  /** ../data/experiment/{texture}, or .../{texture}/{person} (no "person_" prefix) when a person is given. */
  function SaveDir(texture: string, person: string): (dir: string)
    ensures person == [] ==> dir == "../data/experiment/" + texture
    ensures person != [] ==> dir == "../data/experiment/" + texture + "/" + person
  {
    "../data/experiment/" + texture + (if person == [] then "" else "/" + person)
  }

  /** What one save produces: the file written (none for an empty buffer), the new counters and the reported loss. */
  datatype Saved = Saved(file: Option<Wav>, counts: map<string, int>, loss: real)

  /**
   * save_audio_file on the counters, the form and the buffer: the number is
   * stored whether or not anything is written, and the loss is reported
   * without a clamp.
   */
  function SaveOutcome(counts: map<string, int>, texture: string, gesture: string, person: string, index: string,
                       buffer: seq<Pcm.Byte>, actual: real): (r: Saved)
    ensures var g := OrDefault(gesture, "unknown");
      && r.counts == counts[g := NextCount(counts, g, InitialCount(index))]
      && (r.file.Some? <==> |buffer| > 0)
      && (r.file.Some? ==> r.file.value.data == buffer && r.file.value.rate == SAMPLE_RATE)
      && (r.file.Some? ==> r.file.value.path == PathJoin(SaveDir(Strip(texture), Strip(person)),
                                                         WavName(g, NextCount(counts, g, InitialCount(index)))))
      && r.loss == LossRate(Duration(|buffer|, SAMPLE_RATE), actual)
  {
    var g := OrDefault(gesture, "unknown");
    var count := NextCount(counts, g, InitialCount(index));
    var path := PathJoin(SaveDir(Strip(texture), Strip(person)), WavName(g, count));
    var loss := LossRate(Duration(|buffer|, SAMPLE_RATE), actual);
    Saved(if |buffer| > 0 then Some(Wav(path, SAMPLE_RATE, buffer)) else None, counts[g := count], loss)
  }

  /**
   * An empty recording writes nothing but still uses up its number: the
   * next save for the same gesture is numbered one higher again.
   */
  lemma EmptyRecordingSkipsNumber(counts: map<string, int>, texture: string, gesture: string, person: string, index: string,
                                  laterIndex: string, actual: real)
    ensures var s := SaveOutcome(counts, texture, gesture, person, index, [], actual);
      var g := OrDefault(gesture, "unknown");
      && s.file.None?
      && NextCount(s.counts, g, InitialCount(laterIndex)) == NextCount(counts, g, InitialCount(index)) + 1
  {
    var g := OrDefault(gesture, "unknown");
    CountsAdvance(counts, g, InitialCount(index), InitialCount(laterIndex));
  }

  /** Two written saves in a row from the same form go to different files. */
  lemma SuccessiveSavesDoNotOverwrite(counts: map<string, int>, texture: string, gesture: string, person: string,
                                      index: string, laterIndex: string,
                                      first: seq<Pcm.Byte>, second: seq<Pcm.Byte>, actual1: real, actual2: real)
    requires first != [] && second != []
    ensures var s1 := SaveOutcome(counts, texture, gesture, person, index, first, actual1);
      var s2 := SaveOutcome(s1.counts, texture, gesture, person, laterIndex, second, actual2);
      s1.file.value.path != s2.file.value.path
  {
    var g := OrDefault(gesture, "unknown");
    assert g != [];
    SuccessivePathsDiffer(SaveDir(Strip(texture), Strip(person)), counts, g, InitialCount(index), InitialCount(laterIndex));
  }

  /**
   * More audio than the key was held for (notifications queued before the
   * press, say) makes the reported loss negative.
   */
  lemma LossCanBeNegative(counts: map<string, int>, texture: string, gesture: string, person: string, index: string,
                          buffer: seq<Pcm.Byte>, actual: real)
    requires actual > 0.0 && Duration(|buffer|, SAMPLE_RATE) > actual
    ensures SaveOutcome(counts, texture, gesture, person, index, buffer, actual).loss < 0.0
  {
    SurplusAudio(Duration(|buffer|, SAMPLE_RATE), actual);
  }

  class Collector {
    var active: bool
    var connected: bool
    var recording: bool
    /** audio_buffer */
    var buffer: seq<Pcm.Byte>
    var counts: map<string, int>
    var startTime: real
    var actualDuration: real
    var texture: string
    var gesture: string
    var person: string
    var index: string

    constructor ()
      ensures !active && !connected && !recording && buffer == [] && counts == map[]
      ensures texture == "" && gesture == "" && person == "" && index == "1"
    {
      active, connected, recording, buffer, counts := false, false, false, [], map[];
      startTime, actualDuration := 0.0, 0.0;
      texture, gesture, person, index := "", "", "", "1";
    }

    /** start_collection: becomes active and starts looking for the ring. */
    method StartCollection()
      modifies this`active
      ensures active
    {
      if !active {
        active := true;
      }
    }

    /** The BLE thread: the client connected. */
    method Connected()
      modifies this`connected
      ensures connected
    {
      connected := true;
    }

    /** The BLE thread: the disconnect callback ran. */
    method Disconnected()
      modifies this`connected
      ensures !connected
    {
      connected := false;
    }

    /** notification_handler: the bytes are kept only while recording. */
    method Notification(data: seq<Pcm.Byte>)
      modifies this`buffer
      ensures buffer == (if recording then old(buffer) + data else old(buffer))
    {
      if recording {
        buffer := buffer + data;
      }
    }

    /** on_key_press: ignored unless connected; otherwise start recording into an empty buffer. */
    method KeyPress(now: real)
      modifies this`recording, this`buffer, this`startTime
      ensures old(connected && !recording) ==> recording && buffer == [] && startTime == now
      ensures !old(connected && !recording) ==> recording == old(recording) && buffer == old(buffer) && startTime == old(startTime)
    {
      if !connected {
        return;
      }
      if !recording {
        recording := true;
        buffer := [];
        startTime := now;
      }
    }

    /** on_key_release: ignored unless connected and recording; otherwise stop, measure the hold and save. */
    method KeyRelease(now: real) returns (saved: Option<Saved>)
      modifies this`recording, this`actualDuration, this`counts
      ensures !old(connected && recording) ==> saved.None? && recording == old(recording) && counts == old(counts)
      ensures old(connected && recording) ==> !recording && actualDuration == now - startTime
      ensures old(connected && recording) ==>
        saved == Some(SaveOutcome(old(counts), texture, gesture, person, index, buffer, actualDuration))
        && counts == saved.value.counts
    {
      saved := None;
      if !connected {
        return;
      }
      if recording {
        recording := false;
        actualDuration := now - startTime;
        var s := SaveAudioFile();
        saved := Some(s);
      }
    }

    /** save_audio_file, as SaveOutcome describes it. */
    method SaveAudioFile() returns (s: Saved)
      modifies this`counts
      ensures s == SaveOutcome(old(counts), texture, gesture, person, index, buffer, actualDuration)
      ensures counts == s.counts
    {
      s := SaveOutcome(counts, texture, gesture, person, index, buffer, actualDuration);
      counts := s.counts;
    }

    /** reset_app: empty texture and gesture entries get "skin" and "swipe"; the counters are forgotten; the connection stays. */
    method ResetApp()
      modifies this`texture, this`gesture, this`counts
      ensures texture == (if old(texture) == "" then "skin" else old(texture))
      ensures gesture == (if old(gesture) == "" then "swipe" else old(gesture))
      ensures counts == map[]
    {
      if texture == "" {
        texture := "skin";
      }
      if gesture == "" {
        gesture := "swipe";
      }
      counts := map[];
    }
  }
}

=== FILE: ble_viewer.dfy ===
/**
 * The BLE Qt viewer: every notification is decoded on its own into one
 * chunk; the main window queues the chunks and on every timer tick joins
 * all of them into one block, empties the queue and plots the block as a
 * scrolling waveform or as the spectrum of its last 512 samples.
 */
module BleViewer {
  import opened Pcm
  import opened Seqs
  import opened SignalProcess

  /** BUFFER_SIZE // itemsize of int16 with BUFFER_SIZE = 1024. */
  const NUM_SAMPLES: nat := 512
  /** NUM_SAMPLES * 10 */
  const PLOT_DATA_SIZE: nat := 5120

  /**
   * The chunks emitted for a run of notifications: each is decoded whole
   * (the cross-notification buffer is disabled), so an odd-length or empty
   * notification produces nothing and affects no other.
   */
  function NotificationChunks(notes: seq<seq<Byte>>): seq<seq<real>>
  {
    if notes == [] then []
    else
      var last := Emitted(notes[|notes| - 1]);
      NotificationChunks(notes[..|notes| - 1]) + (if last.Some? then [last.value] else [])
  }

  /**
   * When every notification carries whole samples, the chunks joined are
   * the normalised samples of all bytes received, in order.
   */
  lemma {:induction false} WholeNotificationsKeepEverySample(notes: seq<seq<Byte>>)
    requires forall i :: 0 <= i < |notes| ==> |notes[i]| % 2 == 0
    ensures |Flatten(notes)| % 2 == 0
    ensures Flatten(NotificationChunks(notes)) == NormalisedBlock(Flatten(notes))
    decreases |notes|
  {
    if notes == [] {
      assert NormalisedBlock([]) == [];
    } else {
      var init := notes[..|notes| - 1];
      var d := notes[|notes| - 1];
      assert notes == init + [d];
      WholeNotificationsKeepEverySample(init);
      FlattenSnoc(init, d);
      NormalisedBlockAppend(Flatten(init), d);
      if d == [] {
        assert NotificationChunks(notes) == NotificationChunks(init);
        assert Flatten(init) + d == Flatten(init);
      } else {
        FlattenSnoc(NotificationChunks(init), NormalisedBlock(d));
      }
    }
  }

  /** An odd-length notification is dropped on its own: the next one is decoded from its first byte. */
  lemma OddNotificationDropped(notes: seq<seq<Byte>>, d: seq<Byte>, e: seq<Byte>)
    requires |d| % 2 == 1 && |e| % 2 == 0 && |e| > 0
    ensures NotificationChunks(notes + [d] + [e]) == NotificationChunks(notes) + [NormalisedBlock(e)]
  {
    assert (notes + [d] + [e])[..|notes| + 1] == notes + [d];
    assert (notes + [d])[..|notes|] == notes;
  }

  /** The receiving side (DataWorker): only its stop flags are modelled. */
  class DataWorker {
    var isRunning: bool
    var disconnected: bool

    constructor ()
      ensures isRunning && !disconnected
    {
      isRunning, disconnected := true, false;
    }

    /** stop(): clear the running flag and set the disconnect event. */
    method Stop()
      modifies this
      ensures !isRunning && disconnected
    {
      isRunning := false;
      disconnected := true;
    }
  }

  /**
   * The waveform after update_plot as written: an empty block changes
   * nothing, a block longer than the plot makes the tail assignment raise
   * (None), any other scrolls in at the end.
   */
  function WaveformAsWritten(y: seq<real>, block: seq<real>): (r: Option<seq<real>>)
    ensures r.None? <==> |block| > |y|
    ensures r.Some? ==> r.value == Last(y + block, |y|)
  {
    if |block| == 0 then
      assert y + block == y;
      Some(y)
    else if |block| > |y| then None
    else Some(ShiftIn(y, block))
  }

  /**
   * Finding, as written: a tick whose queue holds more than 5120 samples
   * (more than 213 ms of audio at 24 kHz) raises, and those samples were
   * already taken off the queue, so they are never shown. For instance
   * eleven notifications of 1024 bytes queued between two ticks.
   */
  lemma ElevenChunksAreLost(y: seq<real>)
    requires |y| == PLOT_DATA_SIZE
    ensures var chunks := Repeat(Zeros(NUM_SAMPLES), 11);
      |Flatten(chunks)| == 5632 && WaveformAsWritten(y, Flatten(chunks)).None?
  {
    var chunks := Repeat(Zeros(NUM_SAMPLES), 11);
    FlattenLength(chunks, NUM_SAMPLES);
  }

  /**
   * Finding, corrected: scroll in only the last len(y) samples of the
   * block, so a long block shows its newest samples instead of raising.
   */
  function WaveformClamped(y: seq<real>, block: seq<real>): (r: seq<real>)
    ensures r == Last(y + block, |y|)
  {
    ShiftInNewest(y, block);
    ShiftIn(y, Last(block, |y|))
  }

  /** Where the code as written succeeds, the corrected update agrees with it. */
  lemma ClampedAgrees(y: seq<real>, block: seq<real>)
    requires |block| <= |y|
    ensures WaveformAsWritten(y, block) == Some(WaveformClamped(y, block))
  {
  }

  /** The main window (MainWindow). */
  class MainWindow {
    /** data_buffer: a deque of chunks, oldest first. */
    var dataBuffer: seq<seq<real>>
    /** y_data, updated in place. */
    var yData: array<real>
    var waveformMode: bool
    var fftPower: seq<real>
    const fftFreqs: seq<real>
    const magnitude: Magnitude

    predicate Valid()
      reads this, yData
    {
      yData.Length == PLOT_DATA_SIZE && |fftFreqs| == NUM_SAMPLES / 2 + 1
    }

    /** The waveform starts as zeros, the spectrum as zeros over rfftfreq(512, 1 / 24000). */
    constructor (magnitude: Magnitude)
      ensures Valid() && fresh(yData) && dataBuffer == [] && waveformMode
      ensures yData[..] == Zeros(PLOT_DATA_SIZE) && fftPower == Zeros(NUM_SAMPLES / 2 + 1)
      ensures fftFreqs[0] == 0.0 && fftFreqs[NUM_SAMPLES / 2] == 12000.0
      ensures this.magnitude == magnitude
    {
      dataBuffer := [];
      yData := new real[PLOT_DATA_SIZE](_ => 0.0);
      waveformMode := true;
      fftFreqs := RfftFreqs(NUM_SAMPLES, SAMPLE_RATE);
      fftPower := Zeros(NUM_SAMPLES / 2 + 1);
      this.magnitude := magnitude;
      new;
      assert yData[..] == Zeros(PLOT_DATA_SIZE);
      assert fftFreqs[256] * 512.0 == 256.0 * 24000.0;
    }

    /** toggle_display_mode */
    method ToggleDisplayMode()
      modifies this`waveformMode
      ensures waveformMode == !old(waveformMode)
    {
      waveformMode := !waveformMode;
    }

    /** queue_data */
    method QueueData(chunk: seq<real>)
      modifies this`dataBuffer
      ensures dataBuffer == old(dataBuffer) + [chunk]
    {
      dataBuffer := dataBuffer + [chunk];
    }

    /**
     * triggered_update_plot: with an empty queue nothing happens; otherwise
     * every queued chunk is joined in order, the queue is emptied and the
     * joined block plotted. ok is false when update_plot raised; the raise
     * escapes the timer slot, which under PyQt6 aborts the viewer.
     */
    method TriggeredUpdatePlot() returns (ok: bool)
      requires Valid()
      modifies this`dataBuffer, this`fftPower, yData
      ensures Valid() && dataBuffer == []
      ensures old(dataBuffer) == [] ==> ok && yData[..] == old(yData[..]) && fftPower == old(fftPower)
      ensures old(dataBuffer) != [] ==> Plotted(old(yData[..]), old(fftPower), Flatten(old(dataBuffer)), ok)
    {
      ok := true;
      if dataBuffer == [] {
        return;
      }
      var all := Flatten(dataBuffer);
      dataBuffer := [];
      ok := UpdatePlot(all);
    }

    /** The state update_plot leaves for a block, in the current mode. */
    ghost predicate Plotted(y0: seq<real>, power0: seq<real>, block: seq<real>, ok: bool)
      reads this, yData
    {
      && (waveformMode ==>
            && fftPower == power0 && ok == WaveformAsWritten(y0, block).Some?
            && yData[..] == (if ok then WaveformAsWritten(y0, block).value else y0))
      && (!waveformMode ==>
            && ok == (|block| == 0 || |block| >= NUM_SAMPLES) && yData[..] == y0
            && fftPower == (if |block| == 0 then power0 else Spectrum(Last(block, NUM_SAMPLES), magnitude)))
    }

    /**
     * update_plot: an empty block changes nothing. In waveform mode the
     * block scrolls in at the end of y_data; a block longer than y_data
     * raises before anything changes. In FFT mode the spectrum is that of
     * the block's last 512 samples, mean-removed; a block of fewer than 512
     * samples gives fewer than the 257 bins of fft_freqs, so setData raises
     * on the mismatched shapes after fft_power was already replaced.
     */
    method UpdatePlot(block: seq<real>) returns (ok: bool)
      requires Valid()
      modifies this`fftPower, yData
      ensures Valid()
      ensures Plotted(old(yData[..]), old(fftPower), block, ok)
    {
      ok := true;
      var n := |block|;
      if n == 0 {
        return;
      }
      if waveformMode {
        if n > yData.Length {
          ok := false;
          return;
        }
        ShiftInPlace(yData, block);
      } else {
        fftPower := Spectrum(Last(block, NUM_SAMPLES), magnitude);
        ok := n >= NUM_SAMPLES;
      }
    }
  }
}

=== FILE: collection.dfy ===
/**
 * Bookkeeping shared by the data collectors: reading the form's entries,
 * the per-gesture file counter, the "{gesture}_{count}.wav" file name, the
 * seconds of audio a byte count stands for, and the packet-loss estimate
 * that compares it with the time the key was held down.
 */
module Collection {
  import opened Text
  import Pcm

  /** A WAV file a collector writes: its path, its sample rate and the PCM bytes it holds. */
  datatype Wav = Wav(path: string, rate: nat, data: seq<Pcm.Byte>)

  /** entry.get().strip() or default: the stripped entry, or the default when that is empty. */
  function OrDefault(entry: string, default: string): string
  {
    if Strip(entry) == [] then default else Strip(entry)
  }

  /** int(index.strip()) - 1, or 0 when the index entry is not an integer. */
  function InitialCount(index: string): int
  {
    var i := ParseInt(index);
    if i.Some? then i.value - 1 else 0
  }

  /** label_counts.get(gesture, initial) + 1: one more than the last number used for this gesture. */
  function NextCount(counts: map<string, int>, gesture: string, initial: int): int
  {
    (if gesture in counts then counts[gesture] else initial) + 1
  }

  /**
   * Once a file was numbered for a gesture and the number stored, the next
   * file for that gesture gets the next number, whatever the index entry says.
   */
  lemma CountsAdvance(counts: map<string, int>, gesture: string, initial: int, laterInitial: int)
    ensures var c := NextCount(counts, gesture, initial);
      NextCount(counts[gesture := c], gesture, laterInitial) == c + 1
  {
  }

  /** For a gesture with no file yet, the index entry is the number of its first file. */
  lemma IndexSetsFirstCount(counts: map<string, int>, gesture: string, index: int)
    requires gesture !in counts
    ensures NextCount(counts, gesture, InitialCount(IntToString(index))) == index
  {
    IntToStringRoundTrip(index);
  }

  /** f"{gesture}_{count}.wav" */
  function WavName(gesture: string, count: int): (name: string)
    ensures |name| == |gesture| + 1 + |IntToString(count)| + 4
    ensures name[..|gesture|] == gesture && name[|gesture|] == '_' && name[|name| - 4..] == ".wav"
    ensures name[|gesture| + 1..|name| - 4] == IntToString(count)
  {
    gesture + "_" + IntToString(count) + ".wav"
  }

  /** Different numbers give different file names for the same gesture. */
  lemma WavNameInjective(gesture: string, a: int, b: int)
    requires WavName(gesture, a) == WavName(gesture, b)
    ensures a == b
  {
    var n := WavName(gesture, a);
    assert IntToString(a) == n[|gesture| + 1..|n| - 4] == IntToString(b);
    IntToStringRoundTrip(a);
    IntToStringRoundTrip(b);
  }

  /**
   * Two saves for the same gesture in one session never get the same file
   * name: the second is numbered one above the first.
   */
  lemma SuccessiveSavesDiffer(counts: map<string, int>, gesture: string, initial: int, laterInitial: int)
    ensures var c := NextCount(counts, gesture, initial);
      WavName(gesture, NextCount(counts[gesture := c], gesture, laterInitial)) != WavName(gesture, c)
  {
    var c := NextCount(counts, gesture, initial);
    CountsAdvance(counts, gesture, initial, laterInitial);
    if WavName(gesture, c + 1) == WavName(gesture, c) {
      WavNameInjective(gesture, c + 1, c);
    }
  }

  /** Joining one directory with two names that start alike gives different paths for different names. */
  lemma PathJoinInjective(dir: string, a: string, b: string)
    requires a != [] && b != [] && a[0] == b[0] && a != b
    ensures PathJoin(dir, a) != PathJoin(dir, b)
  {
  }

  /**
   * Two saves of the same gesture into the same directory in one session
   * write different paths, so the second never overwrites the first.
   */
  lemma SuccessivePathsDiffer(dir: string, counts: map<string, int>, gesture: string, initial: int, laterInitial: int)
    requires gesture != []
    ensures var c := NextCount(counts, gesture, initial);
      PathJoin(dir, WavName(gesture, c)) != PathJoin(dir, WavName(gesture, NextCount(counts[gesture := c], gesture, laterInitial)))
  {
    var c := NextCount(counts, gesture, initial);
    var c' := NextCount(counts[gesture := c], gesture, laterInitial);
    SuccessiveSavesDiffer(counts, gesture, initial, laterInitial);
    PathJoinInjective(dir, WavName(gesture, c), WavName(gesture, c'));
  }

  /** total_bytes / bytes_per_sec for 16-bit mono audio at `rate` samples per second. */
  function Duration(totalBytes: nat, rate: nat): (d: real)
    requires rate > 0
    ensures d >= 0.0 && d * (2 * rate) as real == totalBytes as real
  {
    totalBytes as real / (2 * rate) as real
  }

  /** (1 - duration / actual) * 100 when the measured time is positive, otherwise 0. */
  function LossRate(duration: real, actual: real): (loss: real)
    ensures actual <= 0.0 ==> loss == 0.0
    ensures actual > 0.0 ==> loss * actual == (actual - duration) * 100.0
  {
    if actual > 0.0 then (1.0 - duration / actual) * 100.0 else 0.0
  }

  /** The loss rate with max(0, ...) applied: never negative. */
  function ClampedLossRate(duration: real, actual: real): (loss: real)
    ensures loss >= 0.0
    ensures loss == (if LossRate(duration, actual) >= 0.0 then LossRate(duration, actual) else 0.0)
  {
    var l := LossRate(duration, actual);
    if l >= 0.0 then l else 0.0
  }

  /**
   * With a positive measured time, the loss exceeds `threshold` percent
   * exactly when the audio received covers less than (100 - threshold)
   * percent of that time; received audio never makes it exceed 100.
   */
  lemma LossAboveThreshold(duration: real, actual: real, threshold: real)
    requires actual > 0.0 && threshold >= 0.0
    ensures LossRate(duration, actual) > threshold <==> duration * 100.0 < (100.0 - threshold) * actual
    ensures ClampedLossRate(duration, actual) > threshold <==> duration * 100.0 < (100.0 - threshold) * actual
    ensures duration >= 0.0 ==> LossRate(duration, actual) <= 100.0
  {
    var l := LossRate(duration, actual);
    assert l * actual == (actual - duration) * 100.0;
    CompareByPositive(l, threshold, actual);
    CompareByPositive(l, 100.0, actual);
  }

  /** Multiplying by a positive factor keeps the order of two reals. */
  lemma CompareByPositive(x: real, y: real, c: real)
    requires c > 0.0
    ensures x > y <==> x * c > y * c
    ensures x <= y <==> x * c <= y * c
  {
    if x > y {
      assert (x - y) * c > 0.0;
    } else {
      assert (y - x) * c >= 0.0;
    }
  }

  /**
   * Without the clamp, more audio than measured time gives a negative loss;
   * with it, the loss is then 0.
   */
  lemma SurplusAudio(duration: real, actual: real)
    requires actual > 0.0 && duration > actual
    ensures LossRate(duration, actual) < 0.0
    ensures ClampedLossRate(duration, actual) == 0.0
  {
    var l := LossRate(duration, actual);
    assert l * actual == (actual - duration) * 100.0 < 0.0;
    CompareByPositive(l, 0.0, actual);
  }
}

=== FILE: data_visualization.dfy ===
/**
 * The Streamlit waveform page: every call of update_waveform receives once
 * into the module-level byte buffer and, when a whole 1024-byte frame is
 * buffered, plots that frame's 512 raw int16 samples.
 */
module DataVisualization {
  import opened Pcm
  import opened Seqs
  import opened Framing

  const BUFFER_SIZE: nat := 1024
  /** BUFFER_SIZE // 2, unpacked with '<512h'. */
  const NUM_SAMPLES: nat := 512

  /** What one call of update_waveform reports. */
  datatype Outcome = Disconnected | ReceiveError | Buffered | Plotted

  /** The page's module-level state: the byte buffer and the plotted line. */
  class WaveformPage {
    var buffer: seq<Byte>
    var line: seq<Int16>

    /** Between calls fewer than BUFFER_SIZE bytes wait in the buffer. */
    predicate Valid()
      reads this
    {
      |buffer| < BUFFER_SIZE
    }

    constructor ()
      ensures Valid() && buffer == [] && line == Repeat(0, NUM_SAMPLES)
    {
      buffer := [];
      line := Repeat(0, NUM_SAMPLES);
    }

    /**
     * update_waveform: a failed or empty receive reports an error and
     * leaves the buffer alone; otherwise the bytes are appended and, if a
     * whole frame is buffered, exactly one frame is cut from the front and
     * unpacked into the line. Buffered bytes are never lost: the frame
     * taken and the new buffer together are the old buffer and the data.
     */
    method UpdateWaveform(e: RecvEvent) returns (outcome: Outcome)
      requires Valid() && |DataOf(e)| <= BUFFER_SIZE
      modifies this
      ensures Valid()
      ensures !e.Received? ==> outcome == ReceiveError && buffer == old(buffer) && line == old(line)
      ensures e.Received? && e.data == [] ==> outcome == Disconnected && buffer == old(buffer) && line == old(line)
      ensures e.Received? && e.data != [] ==>
        var all := old(buffer) + e.data;
        && (|all| < BUFFER_SIZE ==> outcome == Buffered && buffer == all && line == old(line))
        && (|all| >= BUFFER_SIZE ==> outcome == Plotted && all == EncodeSamples(line) + buffer && |line| == NUM_SAMPLES)
    {
      if !e.Received? {
        return ReceiveError;
      }
      if e.data == [] {
        return Disconnected;
      }
      buffer := buffer + e.data;
      if |buffer| >= BUFFER_SIZE {
        var frame := buffer[..BUFFER_SIZE];
        var all := buffer;
        buffer := buffer[BUFFER_SIZE..];
        var samples := Unpack(NUM_SAMPLES, frame);
        line := samples.value;
        EncodeDecodeSamples(frame);
        assert all == frame + buffer;
        outcome := Plotted;
      } else {
        outcome := Buffered;
      }
    }
  }
}

=== FILE: framing.dfy ===
/**
 * Cutting a TCP byte stream into fixed-size PCM frames. The receivers keep
 * a byte buffer, append whatever recv returns and cut whole frames off its
 * front; what is left waits for the next receive.
 */
module Framing {
  import opened Pcm
  import opened Seqs

  /** What one recv call can produce: bytes (an empty string means the peer closed), a timeout, or another socket error. */
  datatype RecvEvent = Received(data: seq<Byte>) | TimedOut | Failed

  function DataOf(e: RecvEvent): seq<Byte>
  {
    if e.Received? then e.data else []
  }

  /** All bytes delivered by a run of receive events, in arrival order. */
  function ReceivedBytes(events: seq<RecvEvent>): seq<Byte>
  {
    if events == [] then [] else ReceivedBytes(events[..|events| - 1]) + DataOf(events[|events| - 1])
  }

  lemma ReceivedBytesStep(events: seq<RecvEvent>, i: nat)
    requires i < |events|
    ensures ReceivedBytes(events[..i + 1]) == ReceivedBytes(events[..i]) + DataOf(events[i])
  {
    assert events[..i + 1][..i] == events[..i];
  }

  /** recvfrom(size) on a datagram socket: a longer datagram is cut to its first size bytes. */
  function RecvFrom(datagram: seq<Byte>, size: nat): (r: seq<Byte>)
    ensures |r| <= size && |r| <= |datagram| && r == datagram[..|r|]
    ensures |datagram| <= size ==> r == datagram
  {
    if |datagram| <= size then datagram else datagram[..size]
  }

  /**
   * frames and rest split stream into whole frames of size bytes, front
   * first, with fewer than size bytes left over.
   */
  predicate IsFraming(frames: seq<seq<Byte>>, rest: seq<Byte>, stream: seq<Byte>, size: nat)
  {
    && Flatten(frames) + rest == stream
    && (forall i :: 0 <= i < |frames| ==> |frames[i]| == size)
    && |rest| < size
  }

  /** Dropping the first frame of a framing leaves a framing of the rest of the stream. */
  lemma FramingTail(frames: seq<seq<Byte>>, rest: seq<Byte>, stream: seq<Byte>, size: nat)
    requires IsFraming(frames, rest, stream, size) && frames != []
    ensures size <= |stream| && frames[0] == stream[..size]
    ensures IsFraming(frames[1..], rest, stream[size..], size)
  {
    assert stream == frames[0] + (Flatten(frames[1..]) + rest);
  }

  /**
   * A framing is the fixed grid of the stream: frame i is bytes
   * [i*size, (i+1)*size), and there are as many as fit whole. So how the
   * bytes were split across receives does not matter.
   */
  lemma FramingIsGrid(frames: seq<seq<Byte>>, rest: seq<Byte>, stream: seq<Byte>, size: nat)
    requires IsFraming(frames, rest, stream, size)
    ensures |frames| * size <= |stream| < |frames| * size + size
    ensures forall i :: 0 <= i < |frames| ==> i * size + size <= |stream| && frames[i] == stream[i * size .. i * size + size]
  {
    var f := Flatten(frames);
    FlattenLength(frames, size);
    forall i | 0 <= i < |frames|
      ensures i * size + size <= |stream| && frames[i] == stream[i * size .. i * size + size]
    {
      FlattenSlice(frames, size, i);
      assert stream[i * size .. i * size + size] == f[i * size .. i * size + size];
    }
  }

  /** Two framings of the same stream are the same framing. */
  lemma {:induction false} FramingUnique(f1: seq<seq<Byte>>, r1: seq<Byte>, f2: seq<seq<Byte>>, r2: seq<Byte>, stream: seq<Byte>, size: nat)
    requires IsFraming(f1, r1, stream, size) && IsFraming(f2, r2, stream, size)
    ensures f1 == f2 && r1 == r2
  {
    if f1 == [] && f2 == [] {
      assert Flatten(f1) == [] == Flatten(f2);
      assert r1 == Flatten(f1) + r1 == stream == Flatten(f2) + r2 == r2;
    } else if f1 == [] {
      FramingTail(f2, r2, stream, size);
    } else if f2 == [] {
      FramingTail(f1, r1, stream, size);
    } else {
      FramingTail(f1, r1, stream, size);
      FramingTail(f2, r2, stream, size);
      FramingUnique(f1[1..], r1, f2[1..], r2, stream[size..], size);
      assert f1 == [f1[0]] + f1[1..] && f2 == [f2[0]] + f2[1..];
    }
  }

  /**
   * The inner `while len(buffer) >= size` loop: cut frames off the front
   * of the buffer until fewer than size bytes remain.
   */
  method DrainFrames(buffer: seq<Byte>, size: nat) returns (frames: seq<seq<Byte>>, rest: seq<Byte>)
    requires size > 0
    ensures IsFraming(frames, rest, buffer, size)
  {
    frames, rest := [], buffer;
    while |rest| >= size
      invariant Flatten(frames) + rest == buffer
      invariant forall i :: 0 <= i < |frames| ==> |frames[i]| == size
      decreases |rest|
    {
      var frame := rest[..size];
      FlattenSnoc(frames, frame);
      assert rest == frame + rest[size..];
      frames, rest := frames + [frame], rest[size..];
    }
  }

  /**
   * Framing a stream in two pieces: drain what the first piece completes,
   * then prepend its leftover to the second piece. The frames are those of
   * the whole stream.
   */
  lemma FramingAppend(f1: seq<seq<Byte>>, r1: seq<Byte>, a: seq<Byte>,
                      f2: seq<seq<Byte>>, r2: seq<Byte>, b: seq<Byte>, size: nat)
    requires IsFraming(f1, r1, a, size)
    requires IsFraming(f2, r2, r1 + b, size)
    ensures IsFraming(f1 + f2, r2, a + b, size)
  {
    FlattenAppend(f1, f2);
    assert Flatten(f1) + Flatten(f2) + r2 == Flatten(f1) + (r1 + b) == a + b;
  }

  /**
   * The single-`if` form of the loop: at most one frame is cut per receive.
   * Returns the frame, if the buffer held one, and the remaining buffer.
   */
  function TakeFrame(buffer: seq<Byte>, size: nat): (r: (Option<seq<Byte>>, seq<Byte>))
    ensures r.0.Some? <==> |buffer| >= size
    ensures r.0.Some? ==> |r.0.value| == size && r.0.value + r.1 == buffer
    ensures r.0.None? ==> r.1 == buffer
  {
    if |buffer| >= size then (Some(buffer[..size]), buffer[size..]) else (None, buffer)
  }

  /**
   * The single-`if` receivers cut at most one frame per receive. When a
   * receive returns at most `size` bytes (recv(size)), the leftover still
   * stays below one frame.
   */
  lemma OneFramePerReceiveBounded(buffer: seq<Byte>, data: seq<Byte>, size: nat)
    requires |buffer| < size && |data| <= size
    ensures |TakeFrame(buffer + data, size).1| < size
  {
  }

  /** The blocks emitted for a list of frames: each frame's normalised samples, in order. */
  function NormalisedFrames(frames: seq<seq<Byte>>): seq<seq<real>>
    requires forall i :: 0 <= i < |frames| ==> |frames[i]| % 2 == 0
  {
    if frames == [] then [] else [NormalisedBlock(frames[0])] + NormalisedFrames(frames[1..])
  }

  /** A sequence of blocks that is `before` followed by the blocks emitted for `frames`. */
  predicate EmittedAfter(items: seq<seq<real>>, before: seq<seq<real>>, frames: seq<seq<Byte>>)
  {
    && (forall i :: 0 <= i < |frames| ==> |frames[i]| % 2 == 0)
    && items == before + NormalisedFrames(frames)
  }

  /** Emitted block i holds the normalised samples of frame i. */
  lemma {:induction false} NormalisedFrameAt(frames: seq<seq<Byte>>, i: nat)
    requires forall j :: 0 <= j < |frames| ==> |frames[j]| % 2 == 0
    requires i < |frames|
    ensures |NormalisedFrames(frames)| == |frames|
    ensures |NormalisedFrames(frames)[i]| == |frames[i]| / 2 && NormalisedFrames(frames)[i] == NormalisedBlock(frames[i])
  {
    if i > 0 {
      NormalisedFrameAt(frames[1..], i - 1);
    } else if |frames| > 1 {
      NormalisedFrameAt(frames[1..], 0);
    }
  }

  /**
   * The emitted samples, concatenated, are the normalised samples of the
   * concatenated frames: framing neither drops nor reorders samples.
   */
  lemma {:induction false} NormalisedFramesFlatten(frames: seq<seq<Byte>>)
    requires forall i :: 0 <= i < |frames| ==> |frames[i]| % 2 == 0
    ensures |Flatten(frames)| % 2 == 0
    ensures Flatten(NormalisedFrames(frames)) == NormalisedBlock(Flatten(frames))
  {
    if frames == [] {
      assert NormalisedBlock([]) == [];
    } else {
      NormalisedFramesFlatten(frames[1..]);
      NormalisedBlockAppend(frames[0], Flatten(frames[1..]));
    }
  }

  lemma {:induction false} NormalisedFramesAppend(a: seq<seq<Byte>>, b: seq<seq<Byte>>)
    requires forall i :: 0 <= i < |a| ==> |a[i]| % 2 == 0
    requires forall i :: 0 <= i < |b| ==> |b[i]| % 2 == 0
    ensures NormalisedFrames(a + b) == NormalisedFrames(a) + NormalisedFrames(b)
  {
    if a == [] {
      assert a + b == b;
    } else {
      assert (a + b)[1..] == a[1..] + b;
      NormalisedFramesAppend(a[1..], b);
    }
  }

  /** One more frame emitted after a frame list. */
  lemma NormalisedFramesSnoc(frames: seq<seq<Byte>>, frame: seq<Byte>)
    requires forall i :: 0 <= i < |frames| ==> |frames[i]| % 2 == 0
    requires |frame| % 2 == 0
    ensures NormalisedFrames(frames + [frame]) == NormalisedFrames(frames) + [NormalisedBlock(frame)]
  {
    NormalisedFramesAppend(frames, [frame]);
    assert NormalisedFrames([frame]) == [NormalisedBlock(frame)] + NormalisedFrames([frame][1..]);
  }

  /** Cutting one frame off the buffer plus newly received bytes extends a framing of the stream by those bytes. */
  lemma FramingSnoc(frames: seq<seq<Byte>>, buffer: seq<Byte>, before: seq<Byte>, data: seq<Byte>,
                    frame: seq<Byte>, rest: seq<Byte>, size: nat)
    requires IsFraming(frames, buffer, before, size)
    requires |frame| == size && frame + rest == buffer + data && |rest| < size
    ensures IsFraming(frames + [frame], rest, before + data, size)
  {
    FlattenSnoc(frames, frame);
    AppendAssoc(Flatten(frames), frame, rest);
    AppendAssoc(Flatten(frames), buffer, data);
  }

  /** Newly received bytes that complete no frame stay in the buffer. */
  lemma FramingKeep(frames: seq<seq<Byte>>, buffer: seq<Byte>, before: seq<Byte>, data: seq<Byte>, size: nat)
    requires IsFraming(frames, buffer, before, size) && |buffer + data| < size
    ensures IsFraming(frames, buffer + data, before + data, size)
  {
    AppendAssoc(Flatten(frames), buffer, data);
  }

  /** Why a receive loop returned. */
  datatype LoopExit = ConnectFailed | PeerClosed | SocketError | NoMoreEvents

  /** Does a receive event end a receive loop (an empty receive, or an error other than a timeout)? */
  predicate EndsLoop(e: RecvEvent)
  {
    (e.Received? && |e.data| == 0) || e.Failed?
  }

  /**
   * A receive loop stopped after `consumed` events for the reason `exit`:
   * at the first closing or failing receive, or after all events.
   */
  predicate ReceiveLoopDone(events: seq<RecvEvent>, exit: LoopExit, consumed: nat)
  {
    && consumed <= |events|
    && (forall i :: 0 <= i < consumed - 1 ==> !EndsLoop(events[i]))
    && (exit == PeerClosed ==> consumed > 0 && events[consumed - 1].Received? && |events[consumed - 1].data| == 0)
    && (exit == SocketError ==> consumed > 0 && events[consumed - 1].Failed?)
    && (exit == NoMoreEvents ==> consumed == |events| && forall i :: 0 <= i < |events| ==> !EndsLoop(events[i]))
  }

  /** One more receive that does not end the loop: the stream grows by its bytes. */
  lemma LoopContinues(events: seq<RecvEvent>, consumed: nat)
    requires consumed < |events| && !EndsLoop(events[consumed])
    requires forall i :: 0 <= i < consumed ==> !EndsLoop(events[i])
    ensures forall i :: 0 <= i < consumed + 1 ==> !EndsLoop(events[i])
    ensures ReceivedBytes(events[..consumed + 1]) == ReceivedBytes(events[..consumed]) + DataOf(events[consumed])
  {
    ReceivedBytesStep(events, consumed);
  }

  /** The first receive that ends the loop adds nothing to the stream and fixes the exit. */
  lemma LoopEndsAt(events: seq<RecvEvent>, consumed: nat, exit: LoopExit)
    requires consumed < |events| && EndsLoop(events[consumed])
    requires forall i :: 0 <= i < consumed ==> !EndsLoop(events[i])
    requires exit == (if events[consumed].Failed? then SocketError else PeerClosed)
    ensures ReceiveLoopDone(events, exit, consumed + 1)
    ensures ReceivedBytes(events[..consumed + 1]) == ReceivedBytes(events[..consumed])
  {
    ReceivedBytesStep(events, consumed);
  }
}

=== FILE: gesture_controller.dfy ===
/**
 * The TCP gesture controller: a listener thread cuts the ring's TCP stream
 * into 2048-byte frames and queues them normalised; the inference loop
 * keeps the last two seconds of audio, classifies them at most every
 * 0.35 s, and presses a media key for a confident non-background gesture,
 * then waits out a 1.5 s cooldown.
 */
module GestureController {
  import opened Pcm
  import opened Seqs
  import opened Framing
  import Pcen

  const BUFFER_SIZE: nat := 2048
  const SAMPLE_SIZE_FOR_INFERENCE: nat := 48000
  const INFERENCE_INTERVAL: real := 0.35
  const CONFIDENCE_THRESHOLD: real := 0.85
  const COOLDOWN_TIME: real := 1.5

  /** The queue.Queue shared by the listener thread and the inference loop. */
  class SampleQueue {
    var items: seq<seq<real>>

    constructor ()
      ensures items == []
    {
      items := [];
    }

    method Put(x: seq<real>)
      modifies this
      ensures items == old(items) + [x]
    {
      items := items + [x];
    }

    /** get() on a non-empty queue: the oldest block. */
    method Get() returns (x: seq<real>)
      requires items != []
      modifies this
      ensures [x] + items == old(items)
    {
      x := items[0];
      items := items[1..];
    }
  }

  /**
   * The listener thread (TCPListener). stop() clears the running flag and
   * shuts the socket down, which makes the blocked recv return or fail.
   */
  class TcpListener {
    var dataQueue: SampleQueue
    var isRunning: bool
    var connected: bool
    var shutDown: bool

    constructor (q: SampleQueue)
      ensures dataQueue == q && isRunning && !connected && !shutDown
    {
      dataQueue := q;
      isRunning := true;
      connected := false;
      shutDown := false;
    }

    /**
     * run(): connect (giving up if that fails), then receive until the
     * peer closes or a socket error occurs (ReceiveLoop).
     */
    method Run(connectOk: bool, events: seq<RecvEvent>) returns (exit: LoopExit, consumed: nat, leftover: seq<Byte>, ghost frames: seq<seq<Byte>>)
      requires isRunning
      modifies this, dataQueue
      ensures dataQueue == old(dataQueue) && connected == connectOk && isRunning
      ensures !connectOk ==> exit == ConnectFailed && consumed == 0 && dataQueue.items == old(dataQueue.items)
      ensures connectOk ==> exit != ConnectFailed && ReceiveLoopDone(events, exit, consumed)
      ensures IsFraming(frames, leftover, ReceivedBytes(events[..consumed]), BUFFER_SIZE)
      ensures dataQueue.items == old(dataQueue.items) + NormalisedFrames(frames)
    {
      connected := connectOk;
      if !connectOk {
        assert events[..0] == [];
        assert Flatten<Byte>([]) == [];
        return ConnectFailed, 0, [], [];
      }
      exit, consumed, leftover, frames := ReceiveLoop(events);
    }

    /**
     * The receive loop: timeouts are skipped, an empty receive (peer
     * closed) or a socket error ends it. Every whole 2048-byte frame of
     * the stream is queued as 1024 normalised samples, in stream order;
     * fewer than 2048 bytes are left unqueued.
     */
    method ReceiveLoop(events: seq<RecvEvent>) returns (exit: LoopExit, consumed: nat, leftover: seq<Byte>, ghost frames: seq<seq<Byte>>)
      modifies dataQueue
      ensures exit != ConnectFailed && ReceiveLoopDone(events, exit, consumed)
      ensures IsFraming(frames, leftover, ReceivedBytes(events[..consumed]), BUFFER_SIZE)
      ensures dataQueue.items == old(dataQueue.items) + NormalisedFrames(frames)
    {
      var buffer: seq<Byte> := [];
      frames := [];
      consumed := 0;
      ghost var stream: seq<Byte> := [];
      ghost var q0 := dataQueue.items;
      assert events[..0] == [];
      assert Flatten<Byte>([]) == [];
      while consumed < |events|
        invariant consumed <= |events|
        invariant forall i :: 0 <= i < consumed ==> !EndsLoop(events[i])
        invariant stream == ReceivedBytes(events[..consumed])
        invariant IsFraming(frames, buffer, stream, BUFFER_SIZE)
        invariant EmittedAfter(dataQueue.items, q0, frames)
      {
        var e := events[consumed];
        if EndsLoop(e) {
          exit := if e.Failed? then SocketError else PeerClosed;
          LoopEndsAt(events, consumed, exit);
          consumed := consumed + 1;
          leftover := buffer;
          return;
        }
        LoopContinues(events, consumed);
        frames, buffer := ReceiveEvent(e, buffer, frames, stream, q0);
        stream := stream + DataOf(e);
        consumed := consumed + 1;
      }
      exit, leftover := NoMoreEvents, buffer;
    }

    /** One receive that does not end the loop: a timeout is skipped, received bytes are buffered and framed. */
    method ReceiveEvent(e: RecvEvent, buffer: seq<Byte>, ghost frames: seq<seq<Byte>>, ghost before: seq<Byte>, ghost queued: seq<seq<real>>)
      returns (ghost frames': seq<seq<Byte>>, rest: seq<Byte>)
      requires !EndsLoop(e)
      requires IsFraming(frames, buffer, before, BUFFER_SIZE)
      requires EmittedAfter(dataQueue.items, queued, frames)
      modifies dataQueue
      ensures IsFraming(frames', rest, before + DataOf(e), BUFFER_SIZE)
      ensures EmittedAfter(dataQueue.items, queued, frames')
    {
      if e.Received? {
        frames', rest := ReceiveData(buffer, e.data, frames, before, queued);
      } else {
        assert before + DataOf(e) == before;
        frames', rest := frames, buffer;
      }
    }

    /** Append received bytes to the buffer and queue the frames they complete. */
    method ReceiveData(buffer: seq<Byte>, data: seq<Byte>, ghost frames: seq<seq<Byte>>, ghost before: seq<Byte>, ghost queued: seq<seq<real>>)
      returns (ghost frames': seq<seq<Byte>>, rest: seq<Byte>)
      requires IsFraming(frames, buffer, before, BUFFER_SIZE)
      requires EmittedAfter(dataQueue.items, queued, frames)
      modifies dataQueue
      ensures IsFraming(frames', rest, before + data, BUFFER_SIZE)
      ensures EmittedAfter(dataQueue.items, queued, frames')
    {
      var newFrames;
      newFrames, rest := DrainAndPut(buffer + data);
      FramingAppend(frames, buffer, before, newFrames, rest, data, BUFFER_SIZE);
      NormalisedFramesAppend(frames, newFrames);
      frames' := frames + newFrames;
    }

    /** The inner frame loop: cut the whole frames off the buffer and queue them. */
    method DrainAndPut(buffer: seq<Byte>) returns (newFrames: seq<seq<Byte>>, rest: seq<Byte>)
      modifies dataQueue
      ensures IsFraming(newFrames, rest, buffer, BUFFER_SIZE)
      ensures dataQueue.items == old(dataQueue.items) + NormalisedFrames(newFrames)
    {
      newFrames, rest := DrainFrames(buffer, BUFFER_SIZE);
      PutFrames(newFrames);
    }

    /** Queue each frame's normalised samples, in order. */
    method PutFrames(newFrames: seq<seq<Byte>>)
      requires forall i :: 0 <= i < |newFrames| ==> |newFrames[i]| == BUFFER_SIZE
      modifies dataQueue
      ensures dataQueue.items == old(dataQueue.items) + NormalisedFrames(newFrames)
    {
      var k := 0;
      ghost var q0 := dataQueue.items;
      while k < |newFrames|
        invariant k <= |newFrames|
        invariant dataQueue.items == q0 + NormalisedFrames(newFrames[..k])
      {
        assert newFrames[..k + 1] == newFrames[..k] + [newFrames[k]];
        NormalisedFramesAppend(newFrames[..k], [newFrames[k]]);
        dataQueue.Put(NormalisedBlock(newFrames[k]));
        k := k + 1;
      }
      assert newFrames[..k] == newFrames;
    }

    /** stop(): clear the running flag and shut the connection down if there is one. */
    method Stop()
      modifies this
      ensures !isRunning && shutDown == (old(shutDown) || connected)
      ensures dataQueue == old(dataQueue) && connected == old(connected)
    {
      isRunning := false;
      if connected {
        shutDown := true;
      }
    }
  }

  /** np.argmax: the first index of a largest probability. */
  function ArgMax(p: seq<real>): (i: nat)
    requires |p| > 0
    ensures i < |p|
    ensures forall j :: 0 <= j < |p| ==> p[j] <= p[i]
    ensures forall j :: 0 <= j < i ==> p[j] < p[i]
  {
    if |p| == 1 then 0
    else
      var k := ArgMax(p[..|p| - 1]);
      if p[|p| - 1] > p[k] then |p| - 1 else k
  }

  /**
   * KEY_MAPPING: labels 4, 3, 0 and 1 map to 'k', 'l', 'j' and 'f'; as in
   * a dict literal, a later entry for an equal label overrides an earlier one.
   */
  function KeyMapping(labels: seq<string>): (m: map<string, char>)
    requires |labels| >= 5
    ensures m.Keys == {labels[4], labels[3], labels[0], labels[1]}
    ensures m[labels[1]] == 'f' && m[labels[0]] == (if labels[0] == labels[1] then 'f' else 'j')
  {
    map[labels[4] := 'k'][labels[3] := 'l'][labels[0] := 'j'][labels[1] := 'f']
  }

  /** What an inference decides. */
  datatype Decision = Press(key: char) | NoAction

  /**
   * Action decision for a probability vector: press the mapped key when the
   * top class is confident (strictly above 0.85), is not the background
   * label 0, and has a key.
   */
  function Decide(labels: seq<string>, probs: seq<real>): (d: Decision)
    requires |labels| >= 5 && |probs| == |labels|
    ensures d.Press? <==>
      var i := ArgMax(probs);
      probs[i] > CONFIDENCE_THRESHOLD && labels[i] != labels[0] && labels[i] in KeyMapping(labels)
    ensures d.Press? ==> d.key == KeyMapping(labels)[labels[ArgMax(probs)]] && d.key != 'j'
  {
    var i := ArgMax(probs);
    var name := labels[i];
    var m := KeyMapping(labels);
    if probs[i] > CONFIDENCE_THRESHOLD && name != labels[0] && name in m then Press(m[name]) else NoAction
  }

  /** The 'j' entry of the key map is dead: it belongs to the background label, which never fires. */
  lemma NeverPressesJ(labels: seq<string>, probs: seq<real>)
    requires |labels| >= 5 && |probs| == |labels|
    ensures Decide(labels, probs) != Press('j')
  {
  }

  /** The two timing checks of the inference loop. */
  datatype Gate = TooSoon | CoolingDown | Infer

  function CheckGate(lastInference: real, lastAction: real, now: real): (g: Gate)
    ensures g == TooSoon <==> now - lastInference < INFERENCE_INTERVAL
    ensures g == Infer <==> now - lastInference >= INFERENCE_INTERVAL && now - lastAction >= COOLDOWN_TIME
  {
    if now - lastInference < INFERENCE_INTERVAL then TooSoon
    else if now - lastAction < COOLDOWN_TIME then CoolingDown
    else Infer
  }

  /** Consecutive times, starting after `start`, each at least `gap` after the previous one. */
  ghost predicate Spaced(times: seq<real>, start: real, gap: real)
  {
    && (|times| > 0 ==> times[0] - start >= gap)
    && forall i :: 0 < i < |times| ==> times[i] - times[i - 1] >= gap
  }

  lemma SpacedSnoc(times: seq<real>, start: real, gap: real, t: real)
    requires Spaced(times, start, gap)
    requires t - (if times == [] then start else times[|times| - 1]) >= gap
    ensures Spaced(times + [t], start, gap)
  {
    var ts := times + [t];
    forall i | 0 < i < |ts| ensures ts[i] - ts[i - 1] >= gap {
      if i < |times| {
        assert ts[i] == times[i] && ts[i - 1] == times[i - 1];
      } else {
        assert ts[i] == t && ts[i - 1] == times[|times| - 1];
      }
    }
  }

  /** Result of one pass of the inference loop. */
  datatype TickOutcome = Waited | Cooled | Inferred(labelName: string, confidence: real, decision: Decision)

  /** The inference loop's state (main_inference_engine). */
  class InferenceEngine {
    const labels: seq<string>
    var globalBuffer: seq<real>
    var lastInferenceTime: real
    var lastActionTime: real
    /** Keys pressed so far, with the time of each press. */
    var presses: seq<(char, real)>
    ghost var inferenceTimes: seq<real>

    ghost predicate Valid()
      reads this
    {
      && |labels| >= 5
      && |globalBuffer| == SAMPLE_SIZE_FOR_INFERENCE
      && Spaced(inferenceTimes, 0.0, INFERENCE_INTERVAL)
      && lastInferenceTime == (if inferenceTimes == [] then 0.0 else inferenceTimes[|inferenceTimes| - 1])
      && Spaced(PressTimes(presses), 0.0, COOLDOWN_TIME)
      && lastActionTime == (if presses == [] then 0.0 else presses[|presses| - 1].1)
    }

    static ghost function PressTimes(ps: seq<(char, real)>): seq<real>
    {
      seq(|ps|, i requires 0 <= i < |ps| => ps[i].1)
    }

    /** Two seconds of silence, and both clocks at zero. */
    constructor (labels: seq<string>)
      requires |labels| >= 5
      ensures Valid() && this.labels == labels
      ensures globalBuffer == Zeros(SAMPLE_SIZE_FOR_INFERENCE) && presses == [] && inferenceTimes == []
    {
      this.labels := labels;
      globalBuffer := Zeros(SAMPLE_SIZE_FOR_INFERENCE);
      lastInferenceTime := 0.0;
      lastActionTime := 0.0;
      presses := [];
      inferenceTimes := [];
    }

    /** `while not data_queue.empty(): global_buffer.extend(data_queue.get())` */
    method DrainQueue(q: SampleQueue)
      requires |globalBuffer| <= SAMPLE_SIZE_FOR_INFERENCE
      modifies this`globalBuffer, q
      ensures q.items == []
      ensures globalBuffer == Extend(old(globalBuffer), Flatten(old(q.items)), SAMPLE_SIZE_FOR_INFERENCE)
    {
      ghost var taken: seq<seq<real>> := [];
      ghost var q0 := q.items;
      ghost var b0 := globalBuffer;
      assert b0 + Flatten(taken) == b0;
      while q.items != []
        invariant taken + q.items == q0
        invariant globalBuffer == Extend(b0, Flatten(taken), SAMPLE_SIZE_FOR_INFERENCE)
        decreases |q.items|
      {
        var chunk := q.Get();
        assert (taken + [chunk]) + q.items == q0;
        ExtendAll(b0, Flatten(taken), chunk, SAMPLE_SIZE_FOR_INFERENCE);
        FlattenSnoc(taken, chunk);
        globalBuffer := Extend(globalBuffer, chunk, SAMPLE_SIZE_FOR_INFERENCE);
        taken := taken + [chunk];
      }
      assert taken == q0;
    }

    /** `last_inference_time = current_time` */
    method RecordInference(now: real)
      requires Valid() && now - lastInferenceTime >= INFERENCE_INTERVAL
      modifies this`lastInferenceTime, this`inferenceTimes
      ensures Valid() && inferenceTimes == old(inferenceTimes) + [now]
    {
      SpacedSnoc(inferenceTimes, 0.0, INFERENCE_INTERVAL, now);
      lastInferenceTime := now;
      inferenceTimes := inferenceTimes + [now];
    }

    /** Classify the buffer and press the decided key, if any. */
    method InferAndAct(now: real, cell: Pcen.Cell, network: seq<seq<real>> -> seq<real>) returns (outcome: TickOutcome)
      requires Valid() && now - lastActionTime >= COOLDOWN_TIME
      requires forall x :: |network(x)| == |labels|
      modifies this`presses, this`lastActionTime
      ensures Valid()
      ensures var probs := network(Pcen.ExtractPcenController(globalBuffer, cell));
        && outcome == Inferred(labels[ArgMax(probs)], probs[ArgMax(probs)], Decide(labels, probs))
      ensures presses == old(presses) + (if outcome.decision.Press? then [(outcome.decision.key, now)] else [])
    {
      var probs := network(Pcen.ExtractPcenController(globalBuffer, cell));
      var i := ArgMax(probs);
      var decision := Decide(labels, probs);
      outcome := Inferred(labels[i], probs[i], decision);
      if decision.Press? {
        SpacedSnoc(PressTimes(presses), 0.0, COOLDOWN_TIME, now);
        presses := presses + [(decision.key, now)];
        lastActionTime := now;
        assert PressTimes(presses) == PressTimes(old(presses)) + [now];
      }
    }

    /**
     * One pass of the loop: move every queued block into the two-second
     * ring buffer, then, if 0.35 s have passed since the last inference
     * and 1.5 s since the last key press, classify the buffer and press the
     * decided key. Across passes, inferences stay at least 0.35 s apart
     * and key presses at least 1.5 s apart (Valid).
     */
    method Tick(q: SampleQueue, now: real, cell: Pcen.Cell, network: seq<seq<real>> -> seq<real>) returns (outcome: TickOutcome)
      requires Valid()
      requires forall x :: |network(x)| == |labels|
      modifies this, q
      ensures Valid() && q.items == []
      ensures globalBuffer == Extend(old(globalBuffer), Flatten(old(q.items)), SAMPLE_SIZE_FOR_INFERENCE)
      ensures var g := CheckGate(old(lastInferenceTime), old(lastActionTime), now);
        && (g == TooSoon <==> outcome == Waited)
        && (g == CoolingDown <==> outcome == Cooled)
        && (g == TooSoon ==> inferenceTimes == old(inferenceTimes))
        && (g != TooSoon ==> inferenceTimes == old(inferenceTimes) + [now])
      ensures outcome.Inferred? ==>
        var probs := network(Pcen.ExtractPcenController(globalBuffer, cell));
        && outcome.labelName == labels[ArgMax(probs)] && outcome.confidence == probs[ArgMax(probs)]
        && outcome.decision == Decide(labels, probs)
      ensures presses == old(presses) + (if outcome.Inferred? && outcome.decision.Press? then [(outcome.decision.key, now)] else [])
    {
      DrainQueue(q);
      var g := CheckGate(lastInferenceTime, lastActionTime, now);
      if g == TooSoon {
        return Waited;
      }
      RecordInference(now);
      if g == CoolingDown {
        return Cooled;
      }
      outcome := InferAndAct(now, cell, network);
    }
  }
}

=== FILE: get_audio.dfy ===
/**
 * The two-source recorder: while collecting, ring datagrams and laptop
 * microphone chunks each go into a short history; holding the Option key
 * records both, starting with up to five chunks of pre-roll from each
 * history; releasing it writes saw_{i}.wav and mac_{i}.wav with one fresh
 * index i found by scanning the save directory, and reports (without
 * aborting) a packet loss above 10 %.
 */
module GetAudio {
  import opened Text
  import opened Seqs
  import opened Collection
  import Framing
  import Pcm

  const SAMPLE_RATE: nat := 24000
  const BUFFER_SIZE: nat := 1024
  /** recvfrom(BUFFER_SIZE * 2) */
  const RECV_SIZE: nat := 2048
  /** LESS_THRESHOLD, in percent. */
  const LOSS_THRESHOLD: real := 10.0
  const MAC_SAMPLE_RATE: nat := 44100
  const MAC_CHUNK_SIZE: nat := 1024
  /** stream_buffer = deque(maxlen=200) */
  const STREAM_PACKETS: nat := 200
  /** mac_stream_buffer = deque(maxlen=int(MAC_SAMPLE_RATE / MAC_CHUNK_SIZE * 2)): two seconds of chunks. */
  const MAC_STREAM_PACKETS: nat := 86
  /** list(...)[-5:] */
  const PRE_ROLL_PACKETS: nat := 5
  const SAVE_DIR: string := "../data_collection/data/audio"

  /** int(44100 / 1024 * 2) truncates 86.13... to 86. */
  lemma MacHistoryLength()
    ensures (MAC_SAMPLE_RATE as real / MAC_CHUNK_SIZE as real * 2.0).Floor == MAC_STREAM_PACKETS
  {
    var x := MAC_SAMPLE_RATE as real / MAC_CHUNK_SIZE as real * 2.0;
    assert x * 1024.0 == 88200.0;
    assert 86.0 <= x < 87.0;
  }

  /** One entry of os.scandir: its name and whether it is a regular file. */
  datatype DirEntry = DirEntry(name: string, isFile: bool)

  /** ".wav" in any mix of upper and lower case. */
  predicate IsWavExt(ext: string)
  {
    |ext| == 4 && ext[0] == '.' && ToLowerChar(ext[1]) == 'w' && ToLowerChar(ext[2]) == 'a' && ToLowerChar(ext[3]) == 'v'
  }

  /**
   * Matching _(\d+) at the end of `stem`, reading backwards: `digits`
   * holds the digits already passed. The match needs at least one digit,
   * then an underscore, and no newline before it (where '.*' has to match).
   */
  function MatchFrom(stem: string, digits: string): (r: Option<nat>)
    requires AllDigits(digits)
    decreases |stem|
  {
    if stem == [] then None
    else
      var c := stem[|stem| - 1];
      if c == '_' then
        if digits != [] && '\n' !in stem[..|stem| - 1] then Some(DigitsValue(digits)) else None
      else if IsDigit(c) then MatchFrom(stem[..|stem| - 1], [c] + digits)
      else None
  }

  /**
   * The number the pattern .*_(\d+)\.wav$ (ignoring case) extracts from a
   * file name: the digits between the last '_' and a final ".wav" in any
   * case. '$' also matches before one final newline.
   */
  function MatchIndex(name: string): (r: Option<nat>)
  {
    var body := if |name| > 0 && name[|name| - 1] == '\n' then name[..|name| - 1] else name;
    if |body| >= 4 && IsWavExt(body[|body| - 4..]) then MatchFrom(body[..|body| - 4], []) else None
  }

  /** Reading back over the digits d and an underscore before them yields the value of all digits passed. */
  lemma {:induction false} MatchFromDigits(prefix: string, d: string, digits: string)
    requires '\n' !in prefix && AllDigits(d) && AllDigits(digits) && d + digits != []
    ensures AllDigits(d + digits)
    ensures MatchFrom(prefix + "_" + d, digits) == Some(DigitsValue(d + digits))
  {
    var stem := prefix + "_" + d;
    if d == [] {
      assert stem[..|stem| - 1] == prefix;
      assert d + digits == digits;
    } else {
      var c := d[|d| - 1];
      var d' := d[..|d| - 1];
      assert stem[|stem| - 1] == c && stem[..|stem| - 1] == prefix + "_" + d';
      assert d' + ([c] + digits) == d + digits;
      MatchFromDigits(prefix, d', [c] + digits);
    }
  }

  /**
   * Every name of the form {prefix}_{n}.wav, with the extension in any
   * case and no newline in the prefix, matches with its own number n.
   */
  lemma MatchIndexRoundTrip(prefix: string, n: nat, ext: string)
    requires '\n' !in prefix && IsWavExt(ext)
    ensures MatchIndex(prefix + "_" + NatToString(n) + ext) == Some(n)
  {
    var d := NatToString(n);
    var name := prefix + "_" + d + ext;
    assert name[|name| - 1] == ext[3];
    assert name[|name| - 4..] == ext && name[..|name| - 4] == prefix + "_" + d;
    MatchFromDigits(prefix, d, []);
    assert d + [] == d;
    NatToStringRoundTrip(n);
  }

  /** A name whose stem does not end in a digit right before the extension never matches. */
  lemma MatchNeedsDigits(stem: string, ext: string)
    requires IsWavExt(ext) && (stem == [] || !IsDigit(stem[|stem| - 1]))
    ensures MatchIndex(stem + ext) == None
  {
    var name := stem + ext;
    assert name[|name| - 1] == ext[3];
    assert name[|name| - 4..] == ext && name[..|name| - 4] == stem;
  }

  /** A collector's file name {prefix}_{n}.wav, such as saw_{n}.wav, matches with the number n. */
  lemma MatchWavName(prefix: string, n: nat)
    requires '\n' !in prefix
    ensures MatchIndex(WavName(prefix, n)) == Some(n)
  {
    assert IntToString(n) == NatToString(n);
    assert WavName(prefix, n) == prefix + "_" + NatToString(n) + ".wav";
    MatchIndexRoundTrip(prefix, n, ".wav");
  }

  /** What one entry contributes to the scan: its number if it is a regular file that matches, else 0. */
  function EntryIndex(e: DirEntry): nat
  {
    if e.isFile && MatchIndex(e.name).Some? then MatchIndex(e.name).value else 0
  }

  /** max_idx after the scan: the largest number among the matching regular files, 0 when there is none. */
  function MaxIndex(entries: seq<DirEntry>): nat
  {
    if entries == [] then 0
    else
      var m := MaxIndex(entries[..|entries| - 1]);
      var e := EntryIndex(entries[|entries| - 1]);
      if e > m then e else m
  }

  /** MaxIndex bounds the number of every entry. */
  lemma {:induction false} MaxIndexBounds(entries: seq<DirEntry>)
    ensures forall i :: 0 <= i < |entries| ==> EntryIndex(entries[i]) <= MaxIndex(entries)
  {
    if entries != [] {
      var init := entries[..|entries| - 1];
      MaxIndexBounds(init);
      assert forall i :: 0 <= i < |init| ==> init[i] == entries[i];
    }
  }

  /** MaxIndex is the number of some entry, unless it is 0: it is the maximum, not just a bound. */
  lemma {:induction false} MaxIndexAttained(entries: seq<DirEntry>)
    ensures MaxIndex(entries) == 0 || exists i :: 0 <= i < |entries| && EntryIndex(entries[i]) == MaxIndex(entries)
  {
    if entries != [] {
      var init := entries[..|entries| - 1];
      MaxIndexAttained(init);
      if MaxIndex(init) != 0 && MaxIndex(entries) == MaxIndex(init) {
        var i :| 0 <= i < |init| && EntryIndex(init[i]) == MaxIndex(init);
        assert init[i] == entries[i];
      }
    }
  }

  /**
   * The directory scan: one more than the largest number among the
   * regular files whose names match, or 1 when none does.
   */
  method NextIndex(entries: seq<DirEntry>) returns (next: nat)
    ensures next == MaxIndex(entries) + 1
  {
    var maxIdx := 0;
    for k := 0 to |entries|
      invariant maxIdx == MaxIndex(entries[..k])
    {
      assert entries[..k + 1][..k] == entries[..k];
      if !entries[k].isFile {
        continue;
      }
      var m := MatchIndex(entries[k].name);
      if m.None? {
        continue;
      }
      maxIdx := if m.value > maxIdx then m.value else maxIdx;
    }
    assert entries[..|entries|] == entries;
    next := maxIdx + 1;
  }

  /** A regular file named {prefix}_{i}.wav counts i in the scan. */
  lemma EntryIndexOfWavName(prefix: string, i: nat)
    requires '\n' !in prefix
    ensures EntryIndex(DirEntry(WavName(prefix, i), true)) == i
  {
    MatchWavName(prefix, i);
  }

  /** An entry that counts less than i in the scan is not a regular file named {prefix}_{i}.wav. */
  lemma NotWavNameAbove(e: DirEntry, prefix: string, i: nat)
    requires '\n' !in prefix
    requires EntryIndex(e) < i
    ensures e.isFile ==> e.name != WavName(prefix, i)
  {
    MatchWavName(prefix, i);
  }

  /**
   * For the index the scan chooses, {prefix}_{i}.wav (saw_{i}.wav and
   * mac_{i}.wav in particular) is not the name of an existing regular file.
   */
  lemma NewNamesAreFree(entries: seq<DirEntry>, prefix: string)
    requires '\n' !in prefix
    ensures forall k :: 0 <= k < |entries| && entries[k].isFile ==> entries[k].name != WavName(prefix, MaxIndex(entries) + 1)
  {
    var i := MaxIndex(entries) + 1;
    forall k | 0 <= k < |entries| && entries[k].isFile
      ensures entries[k].name != WavName(prefix, i)
    {
      MaxIndexBounds(entries);
      NotWavNameAbove(entries[k], prefix, i);
    }
  }

  /** Once both files of a save are in the directory, the next scan chooses the next index. */
  lemma SaveAdvancesIndex(entries: seq<DirEntry>)
    ensures var i := MaxIndex(entries) + 1;
      MaxIndex(entries + [DirEntry(WavName("saw", i), true), DirEntry(WavName("mac", i), true)]) + 1 == i + 1
  {
    var i := MaxIndex(entries) + 1;
    var a := DirEntry(WavName("saw", i), true);
    var b := DirEntry(WavName("mac", i), true);
    EntryIndexOfWavName("saw", i);
    EntryIndexOfWavName("mac", i);
    MaxIndexSnoc(entries, a);
    MaxIndexSnoc(entries + [a], b);
    assert entries + [a] + [b] == entries + [a, b];
  }

  /** Scanning one more entry takes the larger of the scan so far and that entry's number. */
  lemma MaxIndexSnoc(entries: seq<DirEntry>, e: DirEntry)
    ensures MaxIndex(entries + [e]) == if EntryIndex(e) > MaxIndex(entries) then EntryIndex(e) else MaxIndex(entries)
  {
    assert (entries + [e])[..|entries|] == entries;
  }

  /** _norm: an empty array stays empty; otherwise every sample is divided by 32768. */
  function Norm(x: seq<Pcm.Int16>): (r: seq<real>)
    ensures |r| == |x|
    ensures forall i :: 0 <= i < |r| ==> -1.0 <= r[i] < 1.0 && r[i] * Pcm.FULL_SCALE == x[i] as real
  {
    if |x| == 0 then [] else Pcm.NormaliseAll(x)
  }

  /** Both files one save writes, the loss estimate and whether it is reported as too high. */
  datatype Saved = Saved(saw: Wav, mac: Wav, loss: real, reported: bool)

  /** The file {prefix}_{i}.wav in the save directory, holding `data` at `rate` samples per second. */
  function SavedFile(prefix: string, i: nat, rate: nat, data: seq<Pcm.Byte>): (w: Wav)
    ensures w.path == PathJoin(SAVE_DIR, WavName(prefix, i)) && w.rate == rate && w.data == data
  {
    Wav(PathJoin(SAVE_DIR, WavName(prefix, i)), rate, data)
  }

  /**
   * save_audio_file on the two recordings, the measured time and the
   * directory listing: both files always get written, with the same index
   * one above the largest the scan found; a loss above 10 % is only
   * reported.
   */
  function SaveOutcome(recorded: seq<seq<Pcm.Byte>>, macRecorded: seq<seq<Pcm.Byte>>, actual: real,
                       entries: seq<DirEntry>): (r: Saved)
    ensures r.saw == SavedFile("saw", MaxIndex(entries) + 1, SAMPLE_RATE, Flatten(recorded))
    ensures r.mac == SavedFile("mac", MaxIndex(entries) + 1, MAC_SAMPLE_RATE, Flatten(macRecorded))
    ensures r.loss == ClampedLossRate(Duration(|Flatten(recorded)|, SAMPLE_RATE), actual)
    ensures r.reported <==> r.loss > LOSS_THRESHOLD
  {
    var i := MaxIndex(entries) + 1;
    var loss := ClampedLossRate(Duration(|Flatten(recorded)|, SAMPLE_RATE), actual);
    Saved(SavedFile("saw", i, SAMPLE_RATE, Flatten(recorded)), SavedFile("mac", i, MAC_SAMPLE_RATE, Flatten(macRecorded)),
          loss, loss > LOSS_THRESHOLD)
  }

  /**
   * A high loss is reported exactly when the ring audio covers less than
   * 90 % of the time the key was held; both files are written either way.
   */
  lemma HighLossOnlyReported(recorded: seq<seq<Pcm.Byte>>, macRecorded: seq<seq<Pcm.Byte>>, actual: real, entries: seq<DirEntry>)
    requires actual > 0.0
    ensures var s := SaveOutcome(recorded, macRecorded, actual, entries);
      && (s.reported <==> Duration(|Flatten(recorded)|, SAMPLE_RATE) * 100.0 < 90.0 * actual)
      && s.saw.data == Flatten(recorded) && s.mac.data == Flatten(macRecorded)
  {
    LossAboveThreshold(Duration(|Flatten(recorded)|, SAMPLE_RATE), actual, LOSS_THRESHOLD);
  }

  class Recorder {
    var active: bool
    var recording: bool
    /** stream_buffer and mac_stream_buffer: the recent ring datagrams and microphone chunks. */
    var stream: seq<seq<Pcm.Byte>>
    var macStream: seq<seq<Pcm.Byte>>
    /** recorded_chunks and mac_recorded_chunks */
    var recorded: seq<seq<Pcm.Byte>>
    var macRecorded: seq<seq<Pcm.Byte>>
    var startTime: real
    var actualDuration: real

    /** Both histories keep to their deque bounds. */
    predicate Valid()
      reads this
    {
      |stream| <= STREAM_PACKETS && |macStream| <= MAC_STREAM_PACKETS
    }

    constructor ()
      ensures Valid() && !active && !recording
      ensures stream == [] && macStream == [] && recorded == [] && macRecorded == []
    {
      active, recording := false, false;
      stream, macStream, recorded, macRecorded := [], [], [], [];
      startTime, actualDuration := 0.0, 0.0;
    }

    /** start_collection: nothing when already active; otherwise active once socket and microphone are open. */
    method StartCollection(openOk: bool)
      modifies this`active
      ensures active == (old(active) || openOk)
    {
      if active {
        return;
      }
      if openOk {
        active := true;
      }
    }

    /**
     * One pass of receive_pcm_data: while active, a datagram (cut to 2048
     * bytes) joins the history and, while recording, the recording; a
     * timeout is skipped; any other error ends the thread.
     */
    method Receive(e: Framing.RecvEvent) returns (goOn: bool)
      requires Valid()
      modifies this`stream, this`recorded
      ensures Valid()
      ensures goOn <==> active && !e.Failed?
      ensures active && e.Received? ==>
        var data := Framing.RecvFrom(e.data, RECV_SIZE);
        && stream == Extend(old(stream), [data], STREAM_PACKETS)
        && recorded == (if recording then old(recorded) + [data] else old(recorded))
      ensures !(active && e.Received?) ==> stream == old(stream) && recorded == old(recorded)
    {
      if !active {
        return false;
      }
      match e {
        case Received(d) =>
          var data := Framing.RecvFrom(d, RECV_SIZE);
          stream := Extend(stream, [data], STREAM_PACKETS);
          if recording {
            recorded := recorded + [data];
          }
          goOn := true;
        case TimedOut =>
          goOn := true;
        case Failed =>
          goOn := false;
      }
    }

    /** mac_audio_callback: while active, a microphone chunk joins its history and, while recording, its recording. */
    method MacAudioCallback(data: seq<Pcm.Byte>)
      requires Valid()
      modifies this`macStream, this`macRecorded
      ensures Valid()
      ensures macStream == if active then Extend(old(macStream), [data], MAC_STREAM_PACKETS) else old(macStream)
      ensures macRecorded == if active && recording then old(macRecorded) + [data] else old(macRecorded)
    {
      if active {
        macStream := Extend(macStream, [data], MAC_STREAM_PACKETS);
        if recording {
          macRecorded := macRecorded + [data];
        }
      }
    }

    /** on_key_press: when active and not recording, start both recordings with the last five chunks of each history. */
    method KeyPress(now: real)
      modifies this`recording, this`startTime, this`recorded, this`macRecorded
      ensures old(!recording && active) ==> recording && startTime == now
      ensures old(!recording && active) ==> recorded == Last(stream, PRE_ROLL_PACKETS) && macRecorded == Last(macStream, PRE_ROLL_PACKETS)
      ensures !old(!recording && active) ==> recording == old(recording) && startTime == old(startTime)
      ensures !old(!recording && active) ==> recorded == old(recorded) && macRecorded == old(macRecorded)
    {
      if !recording && active {
        recording := true;
        startTime := now;
        recorded := Last(stream, PRE_ROLL_PACKETS);
        macRecorded := Last(macStream, PRE_ROLL_PACKETS);
      }
    }

    /**
     * on_key_release: when recording, stop, measure the hold, save both
     * files against the given listing of the save directory, then empty
     * both recordings.
     */
    method KeyRelease(now: real, entries: seq<DirEntry>) returns (saved: Option<Saved>)
      modifies this`recording, this`actualDuration, this`recorded, this`macRecorded
      ensures !old(recording) ==> saved.None? && actualDuration == old(actualDuration)
      ensures !old(recording) ==> recorded == old(recorded) && macRecorded == old(macRecorded)
      ensures old(recording) ==> !recording && actualDuration == now - startTime && recorded == [] && macRecorded == []
      ensures old(recording) ==> saved == Some(SaveOutcome(old(recorded), old(macRecorded), actualDuration, entries))
    {
      saved := None;
      if recording {
        recording := false;
        actualDuration := now - startTime;
        var s := SaveAudioFile(entries);
        saved := Some(s);
        recorded, macRecorded := [], [];
      }
    }

    /** save_audio_file, against a listing of the save directory. */
    method SaveAudioFile(entries: seq<DirEntry>) returns (s: Saved)
      ensures s == SaveOutcome(recorded, macRecorded, actualDuration, entries)
    {
      var full := Flatten(recorded);
      var fullMac := Flatten(macRecorded);
      var loss := ClampedLossRate(Duration(|full|, SAMPLE_RATE), actualDuration);
      var i := NextIndex(entries);
      s := Saved(SavedFile("saw", i, SAMPLE_RATE, full), SavedFile("mac", i, MAC_SAMPLE_RATE, fullMac),
                 loss, loss > LOSS_THRESHOLD);
    }

    /** reset_app: inactive and not recording; the histories and recordings are left as they are. */
    method ResetApp()
      modifies this`active, this`recording
      ensures !active && !recording
    {
      active, recording := false, false;
    }
  }
}

=== FILE: har_gesture.dfy ===
/**
 * The Streamlit texture-recognition page: each rerun receives once into
 * the session's byte buffer and, once a whole second of audio is buffered,
 * classifies exactly that second and shows the predicted class name.
 */
module HarGesture {
  import opened Pcm
  import opened Framing

  const BUFFER_SIZE: nat := 2048
  /** int(SAMPLE_RATE * DURATION) with SAMPLE_RATE = 24000 and DURATION = 1.0 */
  const SAMPLES_PER_PREDICTION: nat := 24000
  /** SAMPLES_PER_PREDICTION * itemsize of int16 */
  const BYTES_PER_PREDICTION: nat := 48000

  /** CLASS_NAMES: desk, no contact, skin, wood. */
  const CLASS_NAMES: seq<string> := ["\U{673A}", "\U{975E}\U{63A5}\U{89E6}", "\U{76AE}\U{819A}", "\U{6728}\U{6750}"]
  const NO_CONTACT: string := "\U{975E}\U{63A5}\U{89E6}"
  /** "waiting for data..." */
  const WAITING: string := "\U{53D7}\U{4FE1}\U{5F85}\U{6A5F}\U{4E2D}..."

  /** The feature extractor and the SVM together: an index for one second of samples. */
  type Classifier = seq<real> -> int

  /**
   * CLASS_NAMES[i] with Python's indexing: a negative index counts from
   * the end; anything outside -4 .. 3 raises IndexError (None).
   */
  function ClassName(i: int): (r: Option<string>)
    ensures r.Some? <==> -|CLASS_NAMES| <= i < |CLASS_NAMES|
    ensures r.Some? ==> r.value in CLASS_NAMES
  {
    if 0 <= i < |CLASS_NAMES| then Some(CLASS_NAMES[i])
    else if -|CLASS_NAMES| <= i < 0 then Some(CLASS_NAMES[|CLASS_NAMES| + i])
    else None
  }

  /** The session state kept across reruns. */
  class Session {
    var isRunning: bool
    var connected: bool
    var dataBuffer: seq<Byte>
    var lastPrediction: string

    /** Fewer than one window of bytes waits between reruns. */
    predicate Valid()
      reads this
    {
      |dataBuffer| < BYTES_PER_PREDICTION
    }

    constructor ()
      ensures Valid() && !isRunning && !connected && dataBuffer == [] && lastPrediction == NO_CONTACT
    {
      isRunning, connected, dataBuffer, lastPrediction := false, false, [], NO_CONTACT;
    }

    /** The start button while not running: connect, or fall back to not running. */
    method Start(connectOk: bool)
      requires !isRunning
      modifies this`isRunning, this`connected, this`lastPrediction
      ensures isRunning == connectOk && lastPrediction == WAITING
      ensures connectOk ==> connected
      ensures !connectOk ==> connected == old(connected)
    {
      isRunning := true;
      lastPrediction := WAITING;
      if connectOk {
        connected := true;
      } else {
        isRunning := false;
      }
    }

    /** The stop button while running: stop and drop the connection. */
    method StopButton()
      requires isRunning
      modifies this`isRunning, this`connected
      ensures !isRunning && !connected
    {
      isRunning, connected := false, false;
    }

    /**
     * One rerun of the main loop while running and connected. A timeout
     * changes nothing; another error stops the session; an empty receive
     * stops it too. The received bytes are appended and, if a whole window
     * is buffered, exactly one window is cut from the front and classified;
     * an index CLASS_NAMES does not have stops the session after the cut.
     */
    method Rerun(e: RecvEvent, classify: Classifier) returns (window: Option<seq<Byte>>)
      requires Valid() && isRunning && connected && |DataOf(e)| <= BUFFER_SIZE
      modifies this`isRunning, this`dataBuffer, this`lastPrediction
      ensures Valid()
      ensures e.TimedOut? ==> isRunning && dataBuffer == old(dataBuffer) && lastPrediction == old(lastPrediction) && window.None?
      ensures e.Failed? ==> !isRunning && dataBuffer == old(dataBuffer) && lastPrediction == old(lastPrediction) && window.None?
      ensures e.Received? ==>
        && (window.None? ==> dataBuffer == old(dataBuffer) + e.data)
        && (window.Some? ==> |window.value| == BYTES_PER_PREDICTION && window.value + dataBuffer == old(dataBuffer) + e.data)
        && (window.Some? <==> |old(dataBuffer) + e.data| >= BYTES_PER_PREDICTION)
      ensures e.Received? && window.None? ==> lastPrediction == old(lastPrediction) && isRunning == (e.data != [])
      ensures e.Received? && window.Some? ==>
        var name := ClassName(classify(NormalisedBlock(window.value)));
        && lastPrediction == (if name.Some? then name.value else old(lastPrediction))
        && isRunning == (e.data != [] && name.Some?)
    {
      window := None;
      if e.TimedOut? {
        return;
      }
      if e.Failed? {
        isRunning := false;
        return;
      }
      if e.data == [] {
        isRunning := false;
      }
      OneFramePerReceiveBounded(dataBuffer, e.data, BYTES_PER_PREDICTION);
      var (taken, rest) := TakeFrame(dataBuffer + e.data, BYTES_PER_PREDICTION);
      dataBuffer := rest;
      window := taken;
      if taken.Some? {
        var name := ClassName(classify(NormalisedBlock(taken.value)));
        if name.None? {
          isRunning := false;
          return;
        }
        lastPrediction := name.value;
      }
    }
  }
}

=== FILE: mfcc.dfy ===
/**
 * The serial audio-level monitor: a reader turns "timestamp,level" text
 * lines from the serial port into (timestamp, level) pairs on a queue, and
 * the processing loop appends each pair to two bounded display buffers,
 * the level and the timestamp in seconds.
 */
module Mfcc {
  import opened Text
  import opened Seqs

  /** The device is assumed to send one line every SAMPLING_INTERVAL_MS milliseconds. */
  const SAMPLING_INTERVAL_MS: nat := 100
  const WINDOW_DURATION_SEC: real := 1.0
  const STEP_SIZE_SEC: real := 0.1
  const DISPLAY_DURATION_SEC: real := 5.0

  /** int(seconds * (1000 / SAMPLING_INTERVAL_MS)): the number of lines in that many seconds, truncated. */
  function SamplesIn(seconds: real): (n: int)
    requires seconds >= 0.0
    ensures n >= 0
    ensures n as real <= seconds * 10.0 < n as real + 1.0
  {
    (seconds * (1000.0 / SAMPLING_INTERVAL_MS as real)).Floor
  }

  const SAMPLES_IN_WINDOW: nat := SamplesIn(WINDOW_DURATION_SEC)
  const SAMPLES_IN_STEP: nat := SamplesIn(STEP_SIZE_SEC)
  const DISPLAY_SAMPLES: nat := SamplesIn(DISPLAY_DURATION_SEC)

  /** With one line every 100 ms: 10 lines per one-second window, 1 per 0.1 s step, 50 displayed over 5 s. */
  lemma DefaultCounts()
    ensures SAMPLES_IN_WINDOW == 10 && SAMPLES_IN_STEP == 1 && DISPLAY_SAMPLES == 50
  {
    assert WINDOW_DURATION_SEC * 10.0 == 10.0;
    assert STEP_SIZE_SEC * 10.0 == 1.0;
    assert DISPLAY_DURATION_SEC * 10.0 == 50.0;
  }

  /**
   * One line of the reader: the stripped line is ignored when empty, and is
   * accepted only when it has exactly one comma and both parts parse as
   * integers (a part that does not parse raises ValueError and the line is
   * skipped).
   */
  function ParseLine(raw: string): (r: Option<(int, int)>)
    ensures r.Some? ==> Strip(raw) != [] && Count(Strip(raw), ',') == 1
    ensures r.Some? ==>
      var parts := Split(Strip(raw), ',');
      ParseInt(parts[0]) == Some(r.value.0) && ParseInt(parts[1]) == Some(r.value.1)
    ensures (&& Strip(raw) != [] && Count(Strip(raw), ',') == 1
             && ParseInt(Split(Strip(raw), ',')[0]).Some? && ParseInt(Split(Strip(raw), ',')[1]).Some?)
            ==> r.Some?
  {
    var line := Strip(raw);
    if line == [] then None
    else
      var parts := Split(line, ',');
      if |parts| != 2 then None
      else
        var timestamp := ParseInt(parts[0]);
        var level := ParseInt(parts[1]);
        if timestamp.Some? && level.Some? then Some((timestamp.value, level.value)) else None
  }

  /** The line the device prints for a pair. */
  function FormatLine(timestamp: int, level: int): string
  {
    IntToString(timestamp) + "," + IntToString(level) + "\r\n"
  }

  /** Every line the device prints is parsed back to the pair it was printed from. */
  lemma ParseFormatLine(timestamp: int, level: int)
    ensures ParseLine(FormatLine(timestamp, level)) == Some((timestamp, level))
  {
    var a, b := IntToString(timestamp), IntToString(level);
    var body := a + "," + b;
    IntToStringDigits(timestamp);
    IntToStringDigits(level);
    assert FormatLine(timestamp, level) == body + "\r\n";
    StripCrLf(body);
    SplitAround(a, b, ',');
    IntToStringRoundTrip(timestamp);
    IntToStringRoundTrip(level);
  }

  /** str(i) holds no comma, and its ends are not whitespace. */
  lemma IntToStringDigits(i: int)
    ensures ',' !in IntToString(i)
    ensures !IsSpace(IntToString(i)[0]) && !IsSpace(IntToString(i)[|IntToString(i)| - 1])
  {
    var n: nat := if i < 0 then -i else i;
    var d := NatToString(n);
    assert forall k :: 0 <= k < |d| ==> IsDigit(d[k]);
    if i < 0 {
      assert IntToString(i) == "-" + d;
    }
  }

  /** Stripping a line whose text has clean ends removes exactly its line terminator. */
  lemma StripCrLf(body: string)
    requires body != [] && !IsSpace(body[0]) && !IsSpace(body[|body| - 1])
    ensures Strip(body + "\r\n") == body
  {
    var s := body + "\r\n";
    assert s[0] == body[0];
    assert StripLeft(s) == s;
    var cr := body + "\r";
    assert s[..|s| - 1] == cr && cr[..|cr| - 1] == body;
    assert StripRight(body) == body;
    assert StripRight(cr) == body;
  }

  /** What the reader gets from one readline: a line, bytes that are not UTF-8, or a serial failure. */
  datatype SerialRead = Line(text: string) | Undecodable | SerialFailure

  /** The pairs the reader queues for a run of inputs, in order, up to the first failure. */
  function Parsed(inputs: seq<SerialRead>): (q: seq<(int, int)>)
    ensures |q| <= |inputs|
  {
    if inputs == [] || inputs[0].SerialFailure? then []
    else
      var r := if inputs[0].Line? then ParseLine(inputs[0].text) else None;
      (if r.Some? then [r.value] else []) + Parsed(inputs[1..])
  }

  /** A device that only prints well-formed lines gets every pair through, in order. */
  lemma {:induction false} ParsedFormatted(pairs: seq<(int, int)>, inputs: seq<SerialRead>)
    requires |inputs| == |pairs|
    requires forall i :: 0 <= i < |pairs| ==> inputs[i] == Line(FormatLine(pairs[i].0, pairs[i].1))
    ensures Parsed(inputs) == pairs
  {
    if pairs != [] {
      FormattedTail(pairs, inputs);
      ParsedFormatted(pairs[1..], inputs[1..]);
      assert inputs[0] == Line(FormatLine(pairs[0].0, pairs[0].1));
      ParseFormatLine(pairs[0].0, pairs[0].1);
      ParsedAccepted(inputs, pairs[0]);
      assert pairs == [pairs[0]] + pairs[1..];
    }
  }

  /** The lines after the first are the printed forms of the pairs after the first. */
  lemma FormattedTail(pairs: seq<(int, int)>, inputs: seq<SerialRead>)
    requires |inputs| == |pairs| > 0
    requires forall i :: 0 <= i < |pairs| ==> inputs[i] == Line(FormatLine(pairs[i].0, pairs[i].1))
    ensures forall i :: 0 <= i < |pairs[1..]| ==> inputs[1..][i] == Line(FormatLine(pairs[1..][i].0, pairs[1..][i].1))
  {
    forall i | 0 <= i < |pairs[1..]|
      ensures inputs[1..][i] == Line(FormatLine(pairs[1..][i].0, pairs[1..][i].1))
    {
      assert inputs[1..][i] == inputs[i + 1] && pairs[1..][i] == pairs[i + 1];
    }
  }

  /** A first line that is accepted puts its pair at the front of the queue. */
  lemma ParsedAccepted(inputs: seq<SerialRead>, pair: (int, int))
    requires inputs != [] && inputs[0].Line? && ParseLine(inputs[0].text) == Some(pair)
    ensures Parsed(inputs) == [pair] + Parsed(inputs[1..])
  {
  }

  /**
   * read_serial_data: nothing when the port cannot be opened; otherwise
   * read lines until a failure (or until the reads run out), queueing the
   * pair of every accepted line. Undecodable bytes and rejected lines are
   * reported and skipped.
   */
  method ReadSerialData(portOpens: bool, inputs: seq<SerialRead>) returns (queue: seq<(int, int)>, consumed: nat)
    ensures queue == (if portOpens then Parsed(inputs) else [])
    ensures consumed <= |inputs|
    ensures portOpens && consumed < |inputs| ==> inputs[consumed].SerialFailure?
    ensures forall i :: 0 <= i < consumed ==> !inputs[i].SerialFailure?
  {
    queue, consumed := [], 0;
    if !portOpens {
      return;
    }
    while consumed < |inputs| && !inputs[consumed].SerialFailure?
      invariant consumed <= |inputs|
      invariant forall i :: 0 <= i < consumed ==> !inputs[i].SerialFailure?
      invariant queue + Parsed(inputs[consumed..]) == Parsed(inputs)
    {
      var read := inputs[consumed];
      var pair := if read.Line? then ParseLine(read.text) else None;
      var added := if pair.Some? then [pair.value] else [];
      ParsedAdvance(inputs, consumed, queue);
      queue := queue + added;
      consumed := consumed + 1;
    }
    assert Parsed(inputs[consumed..]) == [];
    assert queue + [] == queue;
  }

  /** The reader's loop invariant survives one more read that is not a failure. */
  lemma ParsedAdvance(inputs: seq<SerialRead>, consumed: nat, queue: seq<(int, int)>)
    requires consumed < |inputs| && !inputs[consumed].SerialFailure?
    requires queue + Parsed(inputs[consumed..]) == Parsed(inputs)
    ensures var r := if inputs[consumed].Line? then ParseLine(inputs[consumed].text) else None;
      (queue + (if r.Some? then [r.value] else [])) + Parsed(inputs[consumed + 1..]) == Parsed(inputs)
  {
    var r := if inputs[consumed].Line? then ParseLine(inputs[consumed].text) else None;
    var rest := inputs[consumed..];
    assert rest[1..] == inputs[consumed + 1..];
    ParsedStep(rest);
    AppendAssoc(queue, if r.Some? then [r.value] else [], Parsed(rest[1..]));
  }

  /** A read other than a failure adds the pair of an accepted line, or nothing, and the reader goes on. */
  lemma ParsedStep(inputs: seq<SerialRead>)
    requires inputs != [] && !inputs[0].SerialFailure?
    ensures var r := if inputs[0].Line? then ParseLine(inputs[0].text) else None;
      Parsed(inputs) == (if r.Some? then [r.value] else []) + Parsed(inputs[1..])
  {
  }

  /** The two display buffers: the newest levels and their timestamps in seconds. */
  class LevelDisplay {
    var levels: seq<int>
    var timestamps: seq<real>
    /** How many times plot_update_queue was notified. */
    var notifications: nat

    /** The buffers are appended together, so they always have the same length, at most DISPLAY_SAMPLES. */
    predicate Valid()
      reads this
    {
      |levels| == |timestamps| <= DISPLAY_SAMPLES
    }

    constructor ()
      ensures Valid() && levels == [] && timestamps == [] && notifications == 0
    {
      levels, timestamps, notifications := [], [], 0;
    }

    /** process_audio_level_data: append the level and the timestamp in seconds, and notify the plot. */
    method ProcessAudioLevelData(timestamp: int, level: int)
      requires Valid()
      modifies this
      ensures Valid()
      ensures levels == Extend(old(levels), [level], DISPLAY_SAMPLES)
      ensures timestamps == Extend(old(timestamps), [Seconds(timestamp)], DISPLAY_SAMPLES)
      ensures notifications == old(notifications) + 1
    {
      levels := Extend(levels, [level], DISPLAY_SAMPLES);
      timestamps := Extend(timestamps, [Seconds(timestamp)], DISPLAY_SAMPLES);
      notifications := notifications + 1;
    }

    /**
     * main_processing_loop over the queued pairs: every pair is processed
     * in order, so the buffers hold the newest levels and timestamps.
     */
    method MainProcessingLoop(queue: seq<(int, int)>)
      requires Valid()
      modifies this
      ensures Valid()
      ensures levels == Extend(old(levels), LevelsOf(queue), DISPLAY_SAMPLES)
      ensures timestamps == Extend(old(timestamps), SecondsOf(queue), DISPLAY_SAMPLES)
      ensures notifications == old(notifications) + |queue|
    {
      var k := 0;
      ghost var l0, t0 := levels, timestamps;
      assert Extend(l0, [], DISPLAY_SAMPLES) == l0 && Extend(t0, [], DISPLAY_SAMPLES) == t0;
      while k < |queue|
        invariant k <= |queue| && Valid()
        invariant levels == Extend(l0, LevelsOf(queue[..k]), DISPLAY_SAMPLES)
        invariant timestamps == Extend(t0, SecondsOf(queue[..k]), DISPLAY_SAMPLES)
        invariant notifications == old(notifications) + k
      {
        var (timestamp, level) := queue[k];
        ProcessAudioLevelData(timestamp, level);
        DisplayStep(l0, t0, queue, k);
        k := k + 1;
      }
      assert queue[..k] == queue;
    }
  }

  /** Processing one more pair extends the buffers by its level and its time in seconds. */
  lemma DisplayStep(l0: seq<int>, t0: seq<real>, q: seq<(int, int)>, k: nat)
    requires k < |q| && |l0| <= DISPLAY_SAMPLES && |t0| <= DISPLAY_SAMPLES
    ensures Extend(Extend(l0, LevelsOf(q[..k]), DISPLAY_SAMPLES), [q[k].1], DISPLAY_SAMPLES) == Extend(l0, LevelsOf(q[..k + 1]), DISPLAY_SAMPLES)
    ensures Extend(Extend(t0, SecondsOf(q[..k]), DISPLAY_SAMPLES), [Seconds(q[k].0)], DISPLAY_SAMPLES)
      == Extend(t0, SecondsOf(q[..k + 1]), DISPLAY_SAMPLES)
  {
    assert LevelsOf(q[..k + 1]) == LevelsOf(q[..k]) + [q[k].1];
    assert SecondsOf(q[..k + 1]) == SecondsOf(q[..k]) + [Seconds(q[k].0)];
    ExtendAll(l0, LevelsOf(q[..k]), [q[k].1], DISPLAY_SAMPLES);
    ExtendAll(t0, SecondsOf(q[..k]), [Seconds(q[k].0)], DISPLAY_SAMPLES);
  }

  /** The levels of the pairs, in order. */
  function LevelsOf(q: seq<(int, int)>): (r: seq<int>)
    ensures |r| == |q| && forall i :: 0 <= i < |q| ==> r[i] == q[i].1
  {
    seq(|q|, i requires 0 <= i < |q| => q[i].1)
  }

  /** The timestamps of the pairs converted from milliseconds to seconds, in order. */
  function SecondsOf(q: seq<(int, int)>): (r: seq<real>)
    ensures |r| == |q| && forall i :: 0 <= i < |q| ==> r[i] == Seconds(q[i].0)
  {
    seq(|q|, i requires 0 <= i < |q| => Seconds(q[i].0))
  }

  /** timestamp / 1000.0: milliseconds to seconds. */
  function Seconds(ms: int): (t: real)
    ensures t * 1000.0 == ms as real
  {
    ms as real / 1000.0
  }
}

=== FILE: pcen.dfy ===
/**
 * Feature extraction for the classifiers: per-channel energy normalised
 * (PCEN) mel spectrograms brought to a fixed number of time frames.
 *
 * The mel filterbank and the PCEN filter are not modelled; a `Cell`
 * function gives the PCEN value of each (frame, mel band) for an audio
 * block. What is modelled is the shape handling around them: padding short
 * audio to one FFT frame, the number of frames a centred STFT produces,
 * and padding or trimming to the fixed width.
 */
module Pcen {
  import opened Seqs

  /** PCEN value of an audio block at (frame, mel band). */
  type Cell = (seq<real>, nat, nat) -> real

  /** A spectrogram as `rows` mel bands of `width` frames each (pcen.shape == (rows, width)). */
  predicate IsMatrix(m: seq<seq<real>>, rows: nat, width: nat)
  {
    |m| == rows && forall k :: 0 <= k < |m| ==> |m[k]| == width
  }

  /** librosa.util.fix_length as the extractors use it: zero-pad at the end up to n samples. */
  function PadToLength(y: seq<real>, n: nat): (r: seq<real>)
    ensures |r| == if |y| < n then n else |y|
    ensures r[..|y|] == y
    ensures forall i :: |y| <= i < |r| ==> r[i] == 0.0
  {
    if |y| < n then y + Zeros(n - |y|) else y
  }

  /**
   * The PCEN spectrogram of y: a centred STFT with hop `hop` yields
   * 1 + |y| / hop frames, each with nMels bands.
   */
  function Spectrogram(y: seq<real>, nMels: nat, hop: nat, cell: Cell): (m: seq<seq<real>>)
    requires hop > 0
    ensures IsMatrix(m, nMels, 1 + |y| / hop)
  {
    seq(nMels, k requires 0 <= k < nMels => seq(1 + |y| / hop, t requires 0 <= t < 1 + |y| / hop => cell(y, t, k)))
  }

  /** The smallest value of a non-empty row (ndarray.min). */
  function MinOf(s: seq<real>): (r: real)
    requires |s| > 0
    ensures r in s
    ensures forall i :: 0 <= i < |s| ==> r <= s[i]
  {
    if |s| == 1 then s[0]
    else
      var rest := MinOf(s[1..]);
      if s[0] <= rest then s[0] else rest
  }

  /** The smallest value of a matrix with at least one row and one column. */
  function MatrixMin(m: seq<seq<real>>, width: nat): (r: real)
    requires |m| > 0 && width > 0 && IsMatrix(m, |m|, width)
    ensures exists k, t :: 0 <= k < |m| && 0 <= t < width && r == m[k][t]
    ensures forall k, t :: 0 <= k < |m| && 0 <= t < width ==> r <= m[k][t]
  {
    var mins := seq(|m|, k requires 0 <= k < |m| => MinOf(m[k]));
    var r := MinOf(mins);
    assert exists k :: 0 <= k < |m| && r == mins[k];
    var k0 :| 0 <= k0 < |m| && r == mins[k0];
    assert r in m[k0];
    assert forall k :: 0 <= k < |m| ==> r <= mins[k] && mins[k] == MinOf(m[k]);
    r
  }

  /**
   * Bring every row to `w` frames: a narrower spectrogram is padded on the
   * right with the smallest value it holds, a wider one keeps its LAST w
   * frames (pcen[:, -fixed_width:]).
   */
  function FixWidthKeepLast(m: seq<seq<real>>, width: nat, w: nat): (r: seq<seq<real>>)
    requires |m| > 0 && width > 0 && IsMatrix(m, |m|, width)
    ensures IsMatrix(r, |m|, w)
    ensures width < w ==> forall k, t :: 0 <= k < |m| && 0 <= t < w ==>
      r[k][t] == (if t < width then m[k][t] else MatrixMin(m, width))
    ensures width >= w ==> forall k, t :: 0 <= k < |m| && 0 <= t < w ==> r[k][t] == m[k][width - w + t]
  {
    if width < w then
      var v := MatrixMin(m, width);
      var r := seq(|m|, k requires 0 <= k < |m| => m[k] + Repeat(v, w - width));
      assert forall k :: 0 <= k < |m| ==> r[k] == m[k] + Repeat(v, w - width);
      r
    else
      seq(|m|, k requires 0 <= k < |m| => m[k][width - w..])
  }

  /**
   * The same width fix, except that a wider spectrogram keeps its FIRST w
   * frames (pcen[:, :fixed_width]).
   */
  function FixWidthKeepFirst(m: seq<seq<real>>, width: nat, w: nat): (r: seq<seq<real>>)
    requires |m| > 0 && width > 0 && IsMatrix(m, |m|, width)
    ensures IsMatrix(r, |m|, w)
    ensures width < w ==> forall k, t :: 0 <= k < |m| && 0 <= t < w ==>
      r[k][t] == (if t < width then m[k][t] else MatrixMin(m, width))
    ensures width >= w ==> forall k, t :: 0 <= k < |m| && 0 <= t < w ==> r[k][t] == m[k][t]
  {
    if width < w then
      var v := MatrixMin(m, width);
      var r := seq(|m|, k requires 0 <= k < |m| => m[k] + Repeat(v, w - width));
      assert forall k :: 0 <= k < |m| ==> r[k] == m[k] + Repeat(v, w - width);
      r
    else
      seq(|m|, k requires 0 <= k < |m| => m[k][..w])
  }

  /** Padding uses the background level: no padded cell is above any real one. */
  lemma PaddingIsBackground(m: seq<seq<real>>, width: nat, w: nat, k: nat, t: nat, k2: nat, t2: nat)
    requires |m| > 0 && width > 0 && IsMatrix(m, |m|, width)
    requires width <= t < w && k < |m| && k2 < |m| && t2 < width
    ensures FixWidthKeepLast(m, width, w)[k][t] <= m[k2][t2]
    ensures FixWidthKeepFirst(m, width, w)[k][t] <= m[k2][t2]
  {
  }

  /** When the spectrogram already has the fixed width, neither variant changes it. */
  lemma FixWidthExact(m: seq<seq<real>>, width: nat)
    requires |m| > 0 && width > 0 && IsMatrix(m, |m|, width)
    ensures FixWidthKeepLast(m, width, width) == m
    ensures FixWidthKeepFirst(m, width, width) == m
  {
    var a := FixWidthKeepLast(m, width, width);
    var b := FixWidthKeepFirst(m, width, width);
    forall k | 0 <= k < |m| ensures a[k] == m[k] && b[k] == m[k] {
      assert m[k][0..] == m[k];
    }
  }

  /** Defaults of the gesture controller's extractor. */
  const CONTROLLER_N_MELS: nat := 128
  const N_FFT: nat := 1024
  const HOP_LENGTH: nat := 256
  const FIXED_WIDTH: nat := 188

  /**
   * extract_pcen of the gesture controller: audio shorter than one FFT
   * frame is zero-padded, the PCEN spectrogram is fixed to 188 frames
   * keeping the last ones, and the result has 128 bands by 188 frames (the
   * (1, 1, 128, 188) tensor once two unit axes are added).
   */
  function ExtractPcenController(audio: seq<real>, cell: Cell): (r: seq<seq<real>>)
    ensures IsMatrix(r, CONTROLLER_N_MELS, FIXED_WIDTH)
  {
    var y := PadToLength(audio, N_FFT);
    var m := Spectrogram(y, CONTROLLER_N_MELS, HOP_LENGTH, cell);
    FixWidthKeepLast(m, 1 + |y| / HOP_LENGTH, FIXED_WIDTH)
  }

  /**
   * The controller always passes two seconds (48000 samples) of audio; the
   * centred STFT then has exactly 188 frames, so the width fix changes
   * nothing and keeping the first or the last frames would agree.
   */
  lemma ControllerWindowNeedsNoFix(audio: seq<real>, cell: Cell)
    requires |audio| == 48000
    ensures ExtractPcenController(audio, cell) == Spectrogram(audio, CONTROLLER_N_MELS, HOP_LENGTH, cell)
  {
    var m := Spectrogram(audio, CONTROLLER_N_MELS, HOP_LENGTH, cell);
    assert 1 + |audio| / HOP_LENGTH == FIXED_WIDTH;
    FixWidthExact(m, FIXED_WIDTH);
  }

  /** Defaults of the surface classifier's extractor. */
  const SURFACE_N_MELS: nat := 128

  /**
   * extract_pcen of the surface classifier: the DC offset is removed first,
   * short audio is zero-padded to one FFT frame, and the spectrogram is
   * fixed to 188 frames keeping the first ones.
   */
  function ExtractPcenSurface(audio: seq<real>, cell: Cell): (r: seq<seq<real>>)
    ensures IsMatrix(r, SURFACE_N_MELS, FIXED_WIDTH)
  {
    var y := PadToLength(MeanRemoved(audio), N_FFT);
    var m := Spectrogram(y, SURFACE_N_MELS, HOP_LENGTH, cell);
    FixWidthKeepFirst(m, 1 + |y| / HOP_LENGTH, FIXED_WIDTH)
  }

  /** The signal the surface spectrogram is computed from has zero mean over its real samples. */
  lemma SurfaceInputIsCentred(audio: seq<real>)
    ensures Sum(PadToLength(MeanRemoved(audio), N_FFT)) == 0.0
  {
    var c := MeanRemoved(audio);
    MeanRemovedSumsToZero(audio);
    if |c| < N_FFT {
      SumAppendZeros(c, N_FFT - |c|);
    }
  }

  lemma {:induction false} SumAppendZeros(s: seq<real>, n: nat)
    ensures Sum(s + Zeros(n)) == Sum(s)
  {
    if s == [] {
      ZerosSum(n);
      assert s + Zeros(n) == Zeros(n);
    } else {
      SumAppendZeros(s[1..], n);
      assert (s + Zeros(n))[1..] == s[1..] + Zeros(n);
    }
  }

  lemma {:induction false} ZerosSum(n: nat)
    ensures Sum(Zeros(n)) == 0.0
  {
    if n > 0 {
      ZerosSum(n - 1);
      assert Zeros(n)[1..] == Zeros(n - 1);
    }
  }
}

=== FILE: pcm.dfy ===
/**
 * 16-bit little-endian PCM as it arrives from the SAW ring: two bytes per
 * sample, two's complement, low byte first, and the normalisation to the
 * [-1, 1) range that every receiver applies (division by 32768).
 */
module Pcm {
  /** One byte of the incoming stream. */
  type Byte = b: int | 0 <= b < 256

  /** A signed 16-bit sample. */
  type Int16 = v: int | -32768 <= v < 32768

  datatype Option<T> = None | Some(value: T)

  /** Normalisation divisor shared by every receiver. */
  const FULL_SCALE: real := 32768.0

  /** The sample whose two's-complement encoding is lo + 256 * hi. */
  function DecodeSample(lo: Byte, hi: Byte): (v: Int16)
    ensures v >= 0 <==> hi < 128
    ensures v == lo + 256 * hi || v == lo + 256 * hi - 65536
  {
    var u := lo + 256 * hi;
    if u >= 32768 then u - 65536 else u
  }

  /** The two bytes (low, high) that encode a sample. */
  function EncodeSample(v: Int16): (r: (Byte, Byte))
  {
    var u := if v < 0 then v + 65536 else v;
    (u % 256, u / 256)
  }

  /** Decoding undoes encoding, sample by sample. */
  lemma DecodeEncodeSample(v: Int16)
    ensures DecodeSample(EncodeSample(v).0, EncodeSample(v).1) == v
  {
  }

  /** Encoding undoes decoding: every byte pair is the encoding of exactly one sample. */
  lemma EncodeDecodeSample(lo: Byte, hi: Byte)
    ensures EncodeSample(DecodeSample(lo, hi)) == (lo, hi)
  {
  }

  /**
   * The samples of an even-length byte string (numpy frombuffer with dtype
   * int16 on a little-endian host): sample i comes from bytes 2i and 2i+1.
   */
  function DecodeSamples(b: seq<Byte>): (s: seq<Int16>)
    requires |b| % 2 == 0
    ensures |s| == |b| / 2
    ensures forall i :: 0 <= i < |s| ==> s[i] == DecodeSample(b[2 * i], b[2 * i + 1])
    decreases |b|
  {
    if b == [] then [] else [DecodeSample(b[0], b[1])] + DecodeSamples(b[2..])
  }

  /** The byte string a sender transmits for a run of samples. */
  function EncodeSamples(s: seq<Int16>): (b: seq<Byte>)
    ensures |b| == 2 * |s|
  {
    if s == [] then [] else [EncodeSample(s[0]).0, EncodeSample(s[0]).1] + EncodeSamples(s[1..])
  }

  /** What a sender transmits is what a receiver decodes. */
  lemma {:induction false} DecodeEncodeSamples(s: seq<Int16>)
    ensures DecodeSamples(EncodeSamples(s)) == s
  {
    if s != [] {
      DecodeEncodeSamples(s[1..]);
      DecodeEncodeSample(s[0]);
      var b := EncodeSamples(s);
      assert b[2..] == EncodeSamples(s[1..]);
    }
  }

  /** Encoding is done sample by sample, so it distributes over concatenation. */
  lemma {:induction false} EncodeSamplesAppend(a: seq<Int16>, b: seq<Int16>)
    ensures EncodeSamples(a + b) == EncodeSamples(a) + EncodeSamples(b)
  {
    if a != [] {
      EncodeSamplesAppend(a[1..], b);
      assert (a + b)[0] == a[0] && (a + b)[1..] == a[1..] + b;
      var e := EncodeSample(a[0]);
      assert EncodeSamples(a + b) == [e.0, e.1] + EncodeSamples(a[1..] + b);
      assert EncodeSamples(a) == [e.0, e.1] + EncodeSamples(a[1..]);
      assert [e.0, e.1] + (EncodeSamples(a[1..]) + EncodeSamples(b)) == ([e.0, e.1] + EncodeSamples(a[1..])) + EncodeSamples(b);
    } else {
      assert a + b == b;
    }
  }

  /** Decoding loses nothing: re-encoding the samples gives back the bytes. */
  lemma {:induction false} EncodeDecodeSamples(b: seq<Byte>)
    requires |b| % 2 == 0
    ensures EncodeSamples(DecodeSamples(b)) == b
    decreases |b|
  {
    if b != [] {
      EncodeDecodeSamples(b[2..]);
      EncodeDecodeSample(b[0], b[1]);
      assert DecodeSamples(b)[1..] == DecodeSamples(b[2..]);
      assert b == [b[0], b[1]] + b[2..];
    }
  }

  /**
   * numpy frombuffer(dtype=int16): a byte string of odd length is refused
   * (numpy raises), any other decodes sample by sample.
   */
  function FromBuffer(b: seq<Byte>): (r: Option<seq<Int16>>)
    ensures r.Some? <==> |b| % 2 == 0
    ensures r.Some? ==> |r.value| == |b| / 2
  {
    if |b| % 2 == 0 then Some(DecodeSamples(b)) else None
  }

  /**
   * struct.unpack('<Nh', data): exactly 2 * count bytes are required, and
   * they decode as little-endian signed 16-bit samples.
   */
  function Unpack(count: nat, data: seq<Byte>): (r: Option<seq<Int16>>)
    ensures r.Some? <==> |data| == 2 * count
    ensures r.Some? ==> |r.value| == count
  {
    if |data| == 2 * count then Some(DecodeSamples(data)) else None
  }

  /** One sample scaled by 1/32768. */
  function Normalise(v: Int16): (x: real)
    ensures -1.0 <= x < 1.0
    ensures x * FULL_SCALE == v as real
  {
    v as real / FULL_SCALE
  }

  /** Element-wise normalisation of a decoded block (`pcm / 32768`). */
  function NormaliseAll(s: seq<Int16>): (x: seq<real>)
    ensures |x| == |s|
    ensures forall i :: 0 <= i < |x| ==> -1.0 <= x[i] < 1.0 && x[i] * FULL_SCALE == s[i] as real
  {
    seq(|s|, i requires 0 <= i < |s| => Normalise(s[i]))
  }

  /**
   * The normalised samples of an even-length byte block: what every
   * receiver hands on after frombuffer and the division by 32768.
   */
  function NormalisedBlock(b: seq<Byte>): (x: seq<real>)
    requires |b| % 2 == 0
    ensures |x| == |b| / 2
    ensures forall i :: 0 <= i < |x| ==> x[i] * FULL_SCALE == DecodeSample(b[2 * i], b[2 * i + 1]) as real
  {
    NormaliseAll(DecodeSamples(b))
  }

  /**
   * Decoding is positional: splitting an even-length block at an even
   * offset and decoding the parts gives the same samples.
   */
  lemma NormalisedBlockAppend(a: seq<Byte>, b: seq<Byte>)
    requires |a| % 2 == 0 && |b| % 2 == 0
    ensures NormalisedBlock(a + b) == NormalisedBlock(a) + NormalisedBlock(b)
  {
    var x := NormalisedBlock(a + b);
    var y := NormalisedBlock(a) + NormalisedBlock(b);
    var h := |a| / 2;
    forall i | 0 <= i < |x|
      ensures x[i] == y[i]
    {
      if i < h {
        assert (a + b)[2 * i] == a[2 * i] && (a + b)[2 * i + 1] == a[2 * i + 1];
        assert x[i] * FULL_SCALE == y[i] * FULL_SCALE;
      } else {
        var j := i - h;
        assert (a + b)[2 * i] == b[2 * j] && (a + b)[2 * i + 1] == b[2 * j + 1];
        assert x[i] * FULL_SCALE == y[i] * FULL_SCALE;
      }
    }
  }

  /**
   * The block a receiver emits for a payload: nothing for an odd-length
   * payload (frombuffer raises) or an empty one (the size > 0 guard),
   * otherwise its normalised samples.
   */
  function Emitted(b: seq<Byte>): (r: Option<seq<real>>)
    ensures r.Some? <==> |b| % 2 == 0 && |b| > 0
    ensures r.Some? ==> |r.value| == |b| / 2 && r.value == NormalisedBlock(b)
  {
    if |b| % 2 == 0 && |b| > 0 then Some(NormalisedBlock(b)) else None
  }
}

=== FILE: process_fft.dfy ===
/**
 * The serial PCM plotter with a spectrum: the same two-bytes-at-a-time
 * read into a bounded deque as the plain plotter, plus a frequency axis
 * from rfftfreq(buf, 1/fs) against which the spectrum of the deque is
 * drawn.
 */
module ProcessFft {
  import opened Pcm
  import opened Seqs
  import opened SignalProcess
  import opened Processing

  /** --buf and --fs when the options are not given. */
  const DEFAULT_BUF: nat := 2048
  const DEFAULT_FS: nat := 24000

  /**
   * freqs = rfftfreq(buf, d=1/fs): the buf/2 + 1 bin frequencies k * fs /
   * buf. A zero fs or buf divides by zero and the script stops (None).
   */
  function FrequencyAxis(buf: nat, fs: nat): (r: Option<seq<real>>)
    ensures r.Some? <==> buf > 0 && fs > 0
    ensures r.Some? ==> |r.value| == buf / 2 + 1
    ensures r.Some? ==> forall k :: 0 <= k < |r.value| ==> r.value[k] * buf as real == k as real * fs as real
    ensures r.Some? ==> forall k :: 0 <= k < |r.value| ==> 0.0 <= r.value[k] && 2.0 * r.value[k] <= fs as real
  {
    if buf > 0 && fs > 0 then Some(RfftFreqs(buf, fs)) else None
  }

  /** For an even buffer length the last bin is exactly the Nyquist frequency fs / 2, the right end of the axis. */
  lemma AxisEndsAtNyquist(buf: nat, fs: nat)
    requires buf > 0 && fs > 0 && buf % 2 == 0
    ensures FrequencyAxis(buf, fs).Some?
    ensures 2.0 * FrequencyAxis(buf, fs).value[buf / 2] == fs as real
  {
    var f := FrequencyAxis(buf, fs).value;
    var h := buf / 2;
    assert f[h] * buf as real == h as real * fs as real;
    assert buf as real == 2.0 * h as real;
    assert (2.0 * f[h]) * h as real == fs as real * h as real;
    CancelPositive(2.0 * f[h], fs as real, h as real);
  }

  lemma CancelPositive(x: real, y: real, c: real)
    requires c > 0.0 && x * c == y * c
    ensures x == y
  {
  }

  /** The plot: the sample deque with its port, and the fixed frequency axis. */
  class FftPlot {
    const pcm: PcmPlot
    const freqs: seq<real>

    /** Set up with --buf and --fs: a deque of buf zeros and the axis for buf and fs. */
    constructor (buf: nat, fs: nat)
      requires buf > 0 && fs > 0
      ensures fresh(pcm) && pcm.Valid() && pcm.capacity == buf && pcm.buf == Repeat(0, buf) && pcm.waiting == []
      ensures Some(freqs) == FrequencyAxis(buf, fs)
    {
      pcm := new PcmPlot(buf);
      freqs := FrequencyAxis(buf, fs).value;
    }

    /**
     * update: the same read loop as the plain plotter, on this plot's
     * deque; the axis does not change.
     */
    method Update() returns (decoded: seq<Int16>)
      requires pcm.Valid()
      modifies pcm`waiting, pcm`buf, pcm`samples
      ensures pcm.Valid() && |pcm.waiting| < 2
      ensures EncodeSamples(decoded) + pcm.waiting == old(pcm.waiting)
      ensures pcm.buf == Extend(old(pcm.buf), decoded, pcm.capacity)
    {
      decoded := pcm.Update();
    }
  }
}

=== FILE: processing.dfy ===
/**
 * The serial PCM plotter: bytes arrive at the serial port, and every
 * animation frame reads them two at a time, while at least two are
 * waiting, as little-endian int16 samples appended to a bounded deque that
 * starts as zeros.
 */
module Processing {
  import opened Pcm
  import opened Seqs

  /** --buf: the deque length in samples when the option is not given. */
  const DEFAULT_BUF: nat := 4096

  /**
   * What the deque holds once `samples` have been appended to `capacity`
   * zeros: the newest `capacity` samples, preceded by as many zeros as are
   * still needed to fill it.
   */
  lemma HistoryWindow(capacity: nat, samples: seq<Int16>)
    ensures |samples| >= capacity ==> Last(Repeat(0, capacity) + samples, capacity) == samples[|samples| - capacity..]
    ensures |samples| < capacity ==> Last(Repeat(0, capacity) + samples, capacity) == Repeat(0, capacity - |samples|) + samples
  {
    var all := Repeat(0, capacity) + samples;
    if |samples| < capacity {
      assert all[|samples|..] == Repeat(0, capacity - |samples|) + samples;
    } else {
      assert all[|all| - capacity..] == samples[|samples| - capacity..];
    }
  }

  /** The port's receive buffer and the plotted deque. */
  class PcmPlot {
    /** The bytes waiting at the port (ser.in_waiting of them). */
    var waiting: seq<Byte>
    /** buf: deque([0] * capacity, maxlen=capacity). */
    var buf: seq<Int16>
    const capacity: nat
    /** Every byte that has arrived at the port. */
    ghost var received: seq<Byte>
    /** Every sample appended to the deque. */
    ghost var samples: seq<Int16>

    /**
     * The deque keeps its length and holds the newest samples after the
     * initial zeros; the bytes that arrived are exactly the encoded samples
     * followed by the bytes still waiting, so no byte is lost, duplicated or
     * decoded out of step.
     */
    ghost predicate Valid()
      reads this
    {
      Consistent(capacity, buf, samples, received, waiting)
    }

    constructor (capacity: nat)
      ensures Valid() && this.capacity == capacity
      ensures buf == Repeat(0, capacity) && waiting == [] && received == [] && samples == []
    {
      this.capacity := capacity;
      buf := Repeat(0, capacity);
      waiting := [];
      received := [];
      samples := [];
      new;
      assert Repeat(0, capacity) + [] == Repeat(0, capacity);
    }

    /** Bytes arriving at the serial port. */
    method Arrive(bytes: seq<Byte>)
      requires Valid()
      modifies this`waiting, this`received
      ensures Valid()
      ensures waiting == old(waiting) + bytes && received == old(received) + bytes
    {
      waiting := waiting + bytes;
      received := received + bytes;
    }

    /**
     * update: read two bytes at a time while at least two are waiting,
     * decode each pair as one little-endian int16 and append it to the
     * deque. At most one byte is left waiting; the samples decoded are the
     * whole pairs of what was waiting, in order.
     */
    method Update() returns (decoded: seq<Int16>)
      requires Valid()
      modifies this`waiting, this`buf, this`samples
      ensures Valid()
      ensures |waiting| < 2
      ensures EncodeSamples(decoded) + waiting == old(waiting)
      ensures decoded == DecodeSamples(old(waiting)[..2 * |decoded|])
      ensures buf == Extend(old(buf), decoded, capacity)
      ensures samples == old(samples) + decoded
    {
      var w, b;
      decoded, w, b := ReadPairs(waiting, buf, capacity);
      UpdateKeepsConsistent(capacity, buf, samples, received, waiting, decoded, w);
      waiting, buf, samples := w, b, samples + decoded;
    }
  }

  /**
   * The read loop of update on the waiting bytes and the deque: whole pairs
   * are decoded in order and appended, and at most one byte is left.
   */
  method ReadPairs(waiting: seq<Byte>, buf: seq<Int16>, capacity: nat) returns (decoded: seq<Int16>, rest: seq<Byte>, buf': seq<Int16>)
    requires |buf| <= capacity
    ensures |rest| < 2
    ensures EncodeSamples(decoded) + rest == waiting
    ensures decoded == DecodeSamples(waiting[..2 * |decoded|])
    ensures buf' == Extend(buf, decoded, capacity)
  {
    decoded, rest, buf' := [], waiting, buf;
    assert Extend(buf, [], capacity) == buf;
    while |rest| >= 2
      invariant EncodeSamples(decoded) + rest == waiting
      invariant buf' == Extend(buf, decoded, capacity)
      decreases |rest|
    {
      var raw := rest[..2];
      assert rest == raw + rest[2..];
      rest := rest[2..];
      var sample := DecodeSample(raw[0], raw[1]);
      ReadOne(buf, decoded, raw, rest, waiting, capacity);
      buf' := Extend(buf', [sample], capacity);
      decoded := decoded + [sample];
    }
    DecodedPrefix(decoded, rest, waiting);
  }

  /** The samples read are the decoding of the bytes they were read from. */
  lemma DecodedPrefix(decoded: seq<Int16>, rest: seq<Byte>, waiting: seq<Byte>)
    requires EncodeSamples(decoded) + rest == waiting
    ensures decoded == DecodeSamples(waiting[..2 * |decoded|])
  {
    DecodeEncodeSamples(decoded);
    assert waiting[..2 * |decoded|] == EncodeSamples(decoded);
  }

  /** The deque and the port state agree with the history of arrived bytes and appended samples. */
  ghost predicate Consistent(capacity: nat, buf: seq<Int16>, samples: seq<Int16>, received: seq<Byte>, waiting: seq<Byte>)
  {
    && |buf| == capacity
    && buf == Last(Repeat(0, capacity) + samples, capacity)
    && received == EncodeSamples(samples) + waiting
  }

  /** Reading whole pairs off the front of the waiting bytes keeps the state consistent. */
  lemma UpdateKeepsConsistent(capacity: nat, buf: seq<Int16>, samples: seq<Int16>, received: seq<Byte>, waiting: seq<Byte>,
                              decoded: seq<Int16>, rest: seq<Byte>)
    requires Consistent(capacity, buf, samples, received, waiting)
    requires EncodeSamples(decoded) + rest == waiting
    ensures Consistent(capacity, Extend(buf, decoded, capacity), samples + decoded, received, rest)
  {
    History(samples, decoded, capacity);
    assert received == EncodeSamples(samples) + (EncodeSamples(decoded) + rest);
  }

  /** One pass of the read loop: the pair read is encoded back as it was, and the deque append composes. */
  lemma ReadOne(b0: seq<Int16>, decoded: seq<Int16>, raw: seq<Byte>, rest: seq<Byte>, w0: seq<Byte>, capacity: nat)
    requires |raw| == 2 && EncodeSamples(decoded) + (raw + rest) == w0
    ensures var s := DecodeSample(raw[0], raw[1]);
      && EncodeSamples(decoded + [s]) + rest == w0
      && Extend(Extend(b0, decoded, capacity), [s], capacity) == Extend(b0, decoded + [s], capacity)
  {
    var s := DecodeSample(raw[0], raw[1]);
    EncodeOne(decoded, raw, rest, w0);
    LastOfLastAppend(b0 + decoded, [s], capacity);
    assert b0 + decoded + [s] == b0 + (decoded + [s]);
  }

  lemma EncodeOne(decoded: seq<Int16>, raw: seq<Byte>, rest: seq<Byte>, w0: seq<Byte>)
    requires |raw| == 2 && EncodeSamples(decoded) + (raw + rest) == w0
    ensures EncodeSamples(decoded + [DecodeSample(raw[0], raw[1])]) + rest == w0
  {
    var s := DecodeSample(raw[0], raw[1]);
    EncodeDecodeSample(raw[0], raw[1]);
    EncodeSamplesAppend(decoded, [s]);
    assert EncodeSamples([s]) == [raw[0], raw[1]] + EncodeSamples([]);
    assert raw == [raw[0], raw[1]];
  }

  /** Appending a run of decoded samples to the history keeps the deque its newest part. */
  lemma History(s0: seq<Int16>, decoded: seq<Int16>, capacity: nat)
    ensures Extend(Last(Repeat(0, capacity) + s0, capacity), decoded, capacity) == Last(Repeat(0, capacity) + (s0 + decoded), capacity)
    ensures EncodeSamples(s0 + decoded) == EncodeSamples(s0) + EncodeSamples(decoded)
  {
    LastOfLastAppend(Repeat(0, capacity) + s0, decoded, capacity);
    assert Repeat(0, capacity) + s0 + decoded == Repeat(0, capacity) + (s0 + decoded);
    EncodeSamplesAppend(s0, decoded);
  }
}

=== FILE: qt_spectrogram.dfy ===
/**
 * The scrolling mel spectrogram of the Qt viewers (serial and UDP): each
 * chunk is prefixed with the 768 samples carried over from the previous
 * chunk, framed without centring (frames of N_FFT samples every
 * HOP_LENGTH samples), and the new columns are scrolled into a fixed-width
 * image.
 *
 * The image is held column by column, which is the transposed array the
 * viewers display (spectro_data.T); rolling spectro_data along its time
 * axis is rolling this list of columns. The mel projection and
 * power_to_db are one opaque function of a frame.
 */
module QtSpectrogram {
  import opened Seqs

  const N_FFT: nat := 1024
  const HOP_LENGTH: nat := 256
  const OVERLAP: nat := 768
  const N_MELS: nat := 128
  const SPECTRO_TIME_STEPS: nat := 100

  /** power_to_db of the mel power spectrum of one frame of N_FFT samples. */
  type FrameDb = seq<real> -> seq<real>

  /**
   * Number of frames melspectrogram(center=False) cuts from n >= N_FFT
   * samples: as many hops as leave a whole frame.
   */
  function FrameCount(n: nat): (k: nat)
    requires n >= N_FFT
    ensures k >= 1
    ensures (k - 1) * HOP_LENGTH + N_FFT <= n < k * HOP_LENGTH + N_FFT
  {
    (n - N_FFT) / HOP_LENGTH + 1
  }

  /**
   * librosa.feature.melspectrogram(center=False) followed by power_to_db:
   * column t is the dB spectrum of samples [t * 256, t * 256 + 1024).
   * Input shorter than one frame is rejected (librosa raises), modelled as
   * None.
   */
  function MelFrames(y: seq<real>, frameDb: FrameDb): (r: Option<seq<seq<real>>>)
    ensures r.Some? <==> |y| >= N_FFT
    ensures r.Some? ==> |r.value| == FrameCount(|y|)
    ensures r.Some? ==> forall t :: 0 <= t < |r.value| ==>
      t * HOP_LENGTH + N_FFT <= |y| && r.value[t] == frameDb(y[t * HOP_LENGTH .. t * HOP_LENGTH + N_FFT])
  {
    if |y| < N_FFT then None
    else
      var k := FrameCount(|y|);
      Some(seq(k, t requires 0 <= t < k => frameDb(y[t * HOP_LENGTH .. t * HOP_LENGTH + N_FFT])))
  }

  datatype Option<T> = None | Some(value: T)

  /**
   * Scroll new columns into an image: at most the last |image| of them are
   * kept, the old columns move left by that many, and the new ones fill the
   * right-hand end.
   */
  function ScrollIn(image: seq<seq<real>>, cols: seq<seq<real>>): (r: seq<seq<real>>)
    ensures |r| == |image|
    ensures r == Last(image + cols, |image|)
  {
    ShiftInNewest(image, cols);
    ShiftIn(image, Last(cols, |image|))
  }

  /** Every column of an image has `rows` values. */
  predicate ColumnsOf(image: seq<seq<real>>, rows: nat)
  {
    forall t :: 0 <= t < |image| ==> |image[t]| == rows
  }

  /** The state behind one spectrogram display: its image and the samples carried to the next chunk. */
  datatype View = View(image: seq<seq<real>>, carry: seq<real>)

  /**
   * One update for a chunk: the chunk is prefixed with the carry, the carry
   * becomes the chunk's last 768 samples, and the image scrolls in the new
   * columns; when the combined samples are shorter than one frame the image
   * is left as it was.
   */
  function Update(v: View, chunk: seq<real>, frameDb: FrameDb): (r: View)
    ensures |r.image| == |v.image|
    ensures r.carry == Last(chunk, OVERLAP)
    ensures |v.carry + chunk| < N_FFT ==> r.image == v.image
    ensures |v.carry + chunk| >= N_FFT ==> r.image == Last(v.image + MelFrames(v.carry + chunk, frameDb).value, |v.image|)
  {
    var combined := v.carry + chunk;
    match MelFrames(combined, frameDb)
      case None => View(v.image, Last(chunk, OVERLAP))
      case Some(cols) => View(ScrollIn(v.image, cols), Last(chunk, OVERLAP))
  }

  /**
   * The image keeps its width and, when every frame has N_MELS bands, every
   * column keeps N_MELS values: the array keeps shape (128, 100).
   */
  lemma UpdateKeepsShape(v: View, chunk: seq<real>, frameDb: FrameDb)
    requires ColumnsOf(v.image, N_MELS) && forall x :: |frameDb(x)| == N_MELS
    ensures |Update(v, chunk, frameDb).image| == |v.image|
    ensures ColumnsOf(Update(v, chunk, frameDb).image, N_MELS)
  {
    var combined := v.carry + chunk;
    if |combined| >= N_FFT {
      var cols := MelFrames(combined, frameDb).value;
      MelFramesColumns(combined, frameDb);
      ColumnsOfLast(v.image, cols, N_MELS, |v.image|);
    }
  }

  /** When every frame has N_MELS bands, so does every column computed from a chunk. */
  lemma MelFramesColumns(y: seq<real>, frameDb: FrameDb)
    requires |y| >= N_FFT && forall x :: |frameDb(x)| == N_MELS
    ensures ColumnsOf(MelFrames(y, frameDb).value, N_MELS)
  {
  }

  lemma ColumnsOfLast(image: seq<seq<real>>, cols: seq<seq<real>>, rows: nat, n: nat)
    requires ColumnsOf(image, rows) && ColumnsOf(cols, rows)
    ensures ColumnsOf(Last(image + cols, n), rows)
  {
    var all := image + cols;
    assert ColumnsOf(all, rows) by {
      forall t | 0 <= t < |all| ensures |all[t]| == rows {
        if t >= |image| {
          assert all[t] == cols[t - |image|];
        }
      }
    }
    var r := Last(all, n);
    forall t | 0 <= t < |r| ensures |r[t]| == rows {
      assert r[t] == all[|all| - |r| + t];
    }
  }

  /**
   * A chunk of at least 256 samples always yields columns: with the
   * 768-sample carry the combined buffer holds a whole frame, so neither
   * the "too short" path nor an unchanged image occurs.
   */
  lemma FullCarryAlwaysFrames(v: View, chunk: seq<real>, frameDb: FrameDb)
    requires |v.carry| == OVERLAP && |chunk| >= HOP_LENGTH
    ensures MelFrames(v.carry + chunk, frameDb).Some?
    ensures |MelFrames(v.carry + chunk, frameDb).value| == FrameCount(OVERLAP + |chunk|)
  {
  }

  /**
   * Framing is continuous across a split that falls on the hop grid: when
   * a holds 768 samples plus m whole hops, the frames of a followed by the
   * frames of (last 768 samples of a) ++ b are the frames of a ++ b.
   */
  lemma MelFramesSplit(a: seq<real>, b: seq<real>, m: nat, frameDb: FrameDb)
    requires m >= 1 && |a| == OVERLAP + m * HOP_LENGTH && |b| >= HOP_LENGTH
    ensures MelFrames(a, frameDb).Some? && MelFrames(Last(a, OVERLAP) + b, frameDb).Some?
    ensures MelFrames(a + b, frameDb).value == MelFrames(a, frameDb).value + MelFrames(Last(a, OVERLAP) + b, frameDb).value
  {
    var s := Last(a, OVERLAP) + b;
    var fa := MelFrames(a, frameDb).value;
    var fs := MelFrames(s, frameDb).value;
    var fc := MelFrames(a + b, frameDb).value;
    FrameCountShift(m, |b|);
    assert |fc| == |fa| + |fs|;
    forall t | 0 <= t < |fc| ensures fc[t] == (fa + fs)[t] {
      FrameOfSplit(a, b, m, t, frameDb);
    }
  }

  /** Frame counts of a buffer of 768 samples plus m hops, with and without b appended. */
  lemma FrameCountShift(m: nat, x: nat)
    requires m >= 1 && x >= HOP_LENGTH
    ensures FrameCount(OVERLAP + m * HOP_LENGTH) == m
    ensures FrameCount(OVERLAP + m * HOP_LENGTH + x) == m + FrameCount(OVERLAP + x)
  {
  }

  /** Frame t of a ++ b is frame t of a, or frame t - m of the carried buffer. */
  lemma FrameOfSplit(a: seq<real>, b: seq<real>, m: nat, t: nat, frameDb: FrameDb)
    requires |a| == OVERLAP + m * HOP_LENGTH && t * HOP_LENGTH + N_FFT <= |a| + |b|
    ensures t < m ==> t * HOP_LENGTH + N_FFT <= |a| && (a + b)[t * HOP_LENGTH .. t * HOP_LENGTH + N_FFT] == a[t * HOP_LENGTH .. t * HOP_LENGTH + N_FFT]
    ensures t >= m ==> var s := Last(a, OVERLAP) + b;
      (t - m) * HOP_LENGTH + N_FFT <= |s| && s[(t - m) * HOP_LENGTH .. (t - m) * HOP_LENGTH + N_FFT] == (a + b)[t * HOP_LENGTH .. t * HOP_LENGTH + N_FFT]
  {
    var s := Last(a, OVERLAP) + b;
    assert s == (a + b)[m * HOP_LENGTH..];
    if t >= m {
      assert (t - m) * HOP_LENGTH + m * HOP_LENGTH == t * HOP_LENGTH;
    }
  }

  /**
   * As written, the carry is the chunk's last 768 samples. A chunk shorter
   * than 768 samples then drops the older samples that the next frame
   * needs: two 512-sample chunks after a full carry give 2 + 1 columns,
   * where the continuous stream of 768 + 1024 samples has 4 frames (the
   * frame over stream samples [512, 1536) is never computed).
   */
  lemma CarryLosesFrames(frameDb: FrameDb)
    ensures var c := Zeros(512);
      var first := MelFrames(Zeros(OVERLAP) + c, frameDb);
      var second := MelFrames(Update(View([], Zeros(OVERLAP)), c, frameDb).carry + c, frameDb);
      && first.Some? && second.Some?
      && |first.value| + |second.value| == 3
      && |MelFrames(Zeros(OVERLAP) + c + c, frameDb).value| == 4
  {
    var c := Zeros(512);
    assert Last(c, OVERLAP) == c;
    assert |Zeros(OVERLAP) + c| == 1280 && |c + c| == 1024 && |Zeros(OVERLAP) + c + c| == 1792;
  }

  /**
   * The evidently intended update: the carry is the last 768 samples of
   * carry ++ chunk, so consecutive frames overlap across chunk boundaries.
   */
  function UpdateContinuous(v: View, chunk: seq<real>, frameDb: FrameDb): (r: View)
    ensures |r.image| == |v.image|
    ensures r.carry == Last(v.carry + chunk, OVERLAP)
    ensures |v.carry + chunk| < N_FFT ==> r.image == v.image
    ensures |v.carry + chunk| >= N_FFT ==> r.image == Last(v.image + MelFrames(v.carry + chunk, frameDb).value, |v.image|)
  {
    var combined := v.carry + chunk;
    match MelFrames(combined, frameDb)
      case None => View(v.image, Last(combined, OVERLAP))
      case Some(cols) => View(ScrollIn(v.image, cols), Last(combined, OVERLAP))
  }

  /**
   * For a chunk of at least 768 samples the two carries coincide, so the
   * update as written is the continuous one: the serial viewer, whose
   * chunks hold 1024 samples, never loses a frame.
   */
  lemma LongChunkNeedsNoFix(v: View, chunk: seq<real>, frameDb: FrameDb)
    requires |chunk| >= OVERLAP
    ensures Update(v, chunk, frameDb) == UpdateContinuous(v, chunk, frameDb)
  {
    var combined := v.carry + chunk;
    assert combined[|combined| - OVERLAP..] == chunk[|chunk| - OVERLAP..];
  }

  /**
   * With the continuous carry, two updates whose first chunk is a whole
   * number of hops show exactly the frames of the uninterrupted stream
   * carry ++ c1 ++ c2, and carry its last 768 samples.
   */
  lemma ContinuousCarryMatchesStream(v: View, c1: seq<real>, c2: seq<real>, m: nat, frameDb: FrameDb)
    requires |v.carry| == OVERLAP && m >= 1 && |c1| == m * HOP_LENGTH && |c2| >= HOP_LENGTH
    ensures var v2 := UpdateContinuous(UpdateContinuous(v, c1, frameDb), c2, frameDb);
      && MelFrames(v.carry + c1 + c2, frameDb).Some?
      && v2.image == Last(v.image + MelFrames(v.carry + c1 + c2, frameDb).value, |v.image|)
      && v2.carry == Last(v.carry + c1 + c2, OVERLAP)
  {
    var n := |v.image|;
    var a := v.carry + c1;
    assert v.carry + c1 + c2 == a + c2;
    var v1 := UpdateContinuous(v, c1, frameDb);
    MelFramesSplit(a, c2, m, frameDb);
    var fa := MelFrames(a, frameDb).value;
    var fs := MelFrames(v1.carry + c2, frameDb).value;
    assert |v1.carry + c2| >= N_FFT;
    LastTwice(v.image, fa, fs, n);
    LastOfLastAppend(a, c2, OVERLAP);
  }

  /**
   * The sub-window (SpectrogramWindow): its own image, initially filled
   * with -60 dB, and its own carry.
   */
  class SpectrogramWindow {
    var image: seq<seq<real>>
    var carry: seq<real>
    var visible: bool
    const frameDb: FrameDb

    constructor (frameDb: FrameDb)
      ensures image == Repeat(Repeat(-60.0, N_MELS), SPECTRO_TIME_STEPS)
      ensures carry == Zeros(OVERLAP) && !visible && this.frameDb == frameDb
    {
      image := Repeat(Repeat(-60.0, N_MELS), SPECTRO_TIME_STEPS);
      carry := Zeros(OVERLAP);
      visible := false;
      this.frameDb := frameDb;
    }

    /** show() and hide() of the widget. */
    method SetVisible(shown: bool)
      modifies this`visible
      ensures visible == shown
    {
      visible := shown;
    }

    /**
     * update_plot: the carry is replaced before the spectrogram is
     * computed, so it changes even when librosa rejects a short buffer
     * (the exception is swallowed and the image stays).
     */
    method UpdatePlot(chunk: seq<real>)
      modifies this
      ensures View(image, carry) == Update(old(View(image, carry)), chunk, frameDb)
      ensures visible == old(visible)
    {
      var combined := carry + chunk;
      carry := Last(chunk, OVERLAP);
      var s := MelFrames(combined, frameDb);
      if s.None? {
        return;
      }
      image := ScrollIn(image, s.value);
    }
  }
}

=== FILE: saw_collector.dfy ===
/**
 * The microphone data collector: holding the space bar starts a thread
 * that reads 1024-frame chunks from the input stream into a list; when the
 * bar is released the thread stops and the chunks, joined in order, are
 * written as the next numbered WAV file of the gesture in the working
 * directory.
 */
module SawCollector {
  import opened Text
  import opened Seqs
  import opened Collection
  import Pcm

  const RATE: nat := 44100
  const CHUNK: nat := 1024

  /** The file one save writes and the counters after it. */
  function SaveOutcome(counts: map<string, int>, gesture: string, frames: seq<seq<Pcm.Byte>>): (r: (Wav, map<string, int>))
    ensures var g := OrDefault(gesture, "unknown");
      var count := NextCount(counts, g, 0);
      && r.1 == counts[g := count]
      && r.0.path == WavName(g, count)
      && r.0.data == Flatten(frames) && r.0.rate == RATE
  {
    var g := OrDefault(gesture, "unknown");
    var count := NextCount(counts, g, 0);
    (Wav(WavName(g, count), RATE, Flatten(frames)), counts[g := count])
  }

  /** Two saves in a row from the same label write different files. */
  lemma SuccessiveSavesDoNotOverwrite(counts: map<string, int>, gesture: string, first: seq<seq<Pcm.Byte>>, second: seq<seq<Pcm.Byte>>)
    ensures var (f1, counts') := SaveOutcome(counts, gesture, first);
      SaveOutcome(counts', gesture, second).0.path != f1.path
  {
    SuccessiveSavesDiffer(counts, OrDefault(gesture, "unknown"), 0, 0);
  }

  /**
   * The file holds every chunk read, in order: the bytes of chunk i come
   * right after those of the chunks before it and right before those
   * after it.
   */
  lemma ChunksInOrder(counts: map<string, int>, gesture: string, frames: seq<seq<Pcm.Byte>>, i: nat)
    requires i < |frames|
    ensures SaveOutcome(counts, gesture, frames).0.data == Flatten(frames[..i]) + frames[i] + Flatten(frames[i + 1..])
  {
    FlattenAppend(frames[..i], frames[i..]);
    assert frames[..i] + frames[i..] == frames;
    assert frames[i..][0] == frames[i] && frames[i..][1..] == frames[i + 1..];
  }

  class Collector {
    var active: bool
    var recording: bool
    /** audio_frames: the chunks read since the bar was pressed. */
    var frames: seq<seq<Pcm.Byte>>
    var counts: map<string, int>
    var gesture: string

    constructor ()
      ensures !active && !recording && frames == [] && counts == map[] && gesture == "default_gesture"
    {
      active, recording, frames, counts := false, false, [], map[];
      gesture := "default_gesture";
    }

    /** start_collection: opens the stream and becomes active once. */
    method StartCollection()
      modifies this`active
      ensures active
    {
      if !active {
        active := true;
      }
    }

    /** on_key_press: when not recording, start recording into an empty list. */
    method KeyPress()
      modifies this`recording, this`frames
      ensures !old(recording) ==> recording && frames == []
      ensures old(recording) ==> recording && frames == old(frames)
    {
      if !recording {
        recording := true;
        frames := [];
      }
    }

    /** on_key_release: only tells the recording thread to stop; the thread saves. */
    method KeyRelease()
      modifies this`recording
      ensures !recording
    {
      if recording {
        recording := false;
      }
    }

    /**
     * record_audio: the loop of the recording thread, given the chunks it
     * reads while the flag is set; each chunk is appended in turn.
     */
    method RecordAudio(chunks: seq<seq<Pcm.Byte>>)
      modifies this`frames
      ensures frames == (if recording then old(frames) + chunks else old(frames))
    {
      if !recording {
        return;
      }
      var k := 0;
      while k < |chunks|
        invariant 0 <= k <= |chunks|
        invariant frames == old(frames) + chunks[..k]
      {
        frames := frames + [chunks[k]];
        assert chunks[..k + 1] == chunks[..k] + [chunks[k]];
        k := k + 1;
      }
      assert chunks[..k] == chunks;
    }

    /** save_audio_file: number the file for its label, store the number and write the joined chunks. */
    method SaveAudioFile() returns (file: Wav)
      modifies this`counts
      ensures (file, counts) == SaveOutcome(old(counts), gesture, frames)
    {
      var g := OrDefault(gesture, "unknown");
      var count := NextCount(counts, g, 0);
      counts := counts[g := count];
      file := Wav(WavName(g, count), RATE, Flatten(frames));
    }
  }
}

=== FILE: saw_dashboard.dfy ===
/**
 * The dashboard's update loop (update_loop): each frame drains the UDP
 * listener's queue into one block and, if there was one, scrolls it into
 * the 48000-sample waveform, feeds it to the streaming spectrogram and
 * scrolls the new columns into the 80 x 200 image, and shows the spectrum
 * of its last 1024 samples between 0 and 12 kHz.
 */
module SawDashboard {
  import opened Pcm
  import opened Seqs
  import opened SignalProcess
  import opened UdpListener

  const WAVE_WINDOW_SIZE: nat := 48000
  const SPECTRO_WIDTH: nat := 200
  /** SAMPLE_RATE / 2 */
  const MAX_FREQ_DISP: real := 12000.0
  const SCALE_FFT: real := 4.0

  /**
   * The waveform after the waveform step as written: np.roll by the block
   * length, then the tail takes the block. A block longer than the buffer
   * has already rolled the buffer (by the length modulo 48000) when the
   * tail assignment raises (None).
   */
  function WaveformStep(w: seq<real>, block: seq<real>): (r: (seq<real>, bool))
    requires |w| > 0
    ensures |r.0| == |w|
    ensures r.1 <==> |block| <= |w|
    ensures r.1 ==> r.0 == Last(w + block, |w|)
    ensures !r.1 ==> r.0 == RollLeft(w, |block| % |w|)
  {
    if |block| == 0 then
      assert w + block == w;
      (w, true)
    else if |block| <= |w| then
      RollThenOverwrite(w, block);
      (OverwriteTail(RollLeft(w, |block|), block), true)
    else (RollLeft(w, |block| % |w|), false)
  }

  /**
   * The image after new columns arrive, row by row (one row per mel band):
   * only the last |row| new values are kept, the old ones move left and the
   * new ones fill the end.
   */
  function ScrollRows(image: seq<seq<real>>, mel: seq<seq<real>>): (r: seq<seq<real>>)
    requires |mel| == |image|
    ensures |r| == |image|
    ensures forall k :: 0 <= k < |r| ==> r[k] == Last(image[k] + mel[k], |image[k]|)
  {
    forall k | 0 <= k < |image| {
      ShiftInNewest(image[k], mel[k]);
    }
    seq(|image|, k requires 0 <= k < |image| => ShiftIn(image[k], Last(mel[k], |image[k]|)))
  }

  /**
   * The image update as written: the new columns are cut to the last
   * SPECTRO_WIDTH, every row is rolled left by their number and its tail
   * overwritten with them. This is the same image as ScrollRows.
   */
  function RollColumnsIn(image: seq<seq<real>>, mel: seq<seq<real>>): (r: seq<seq<real>>)
    requires |mel| == |image| > 0
    requires forall k :: 0 <= k < |mel| ==> |mel[k]| == |mel[0]| > 0
    requires forall k :: 0 <= k < |image| ==> |image[k]| == SPECTRO_WIDTH
    ensures r == ScrollRows(image, mel)
  {
    var numNew := if |mel[0]| > SPECTRO_WIDTH then SPECTRO_WIDTH else |mel[0]|;
    var kept := seq(|mel|, k requires 0 <= k < |mel| => Last(mel[k], SPECTRO_WIDTH));
    var r := seq(|image|, k requires 0 <= k < |image| => OverwriteTail(RollLeft(image[k], numNew), kept[k]));
    forall k | 0 <= k < |image|
      ensures r[k] == ScrollRows(image, mel)[k]
    {
      RollThenOverwrite(image[k], kept[k]);
      ShiftInNewest(image[k], mel[k]);
    }
    r
  }

  /** spectro_saw[::-1, :]: the rows in reverse mel order, highest band on top. */
  function Flipped(image: seq<seq<real>>): (r: seq<seq<real>>)
    ensures |r| == |image|
    ensures forall k :: 0 <= k < |r| ==> r[k] == image[|image| - 1 - k]
  {
    seq(|image|, k requires 0 <= k < |image| => image[|image| - 1 - k])
  }

  /** Flipping twice gives the image back. */
  lemma FlippedTwice(image: seq<seq<real>>)
    ensures Flipped(Flipped(image)) == image
  {
  }

  /**
   * The FFT display: the (kHz, magnitude / SCALE_FFT) points of the bins
   * whose frequency f satisfies 0 < f <= MAX_FREQ_DISP, in bin order.
   */
  function Masked(freqs: seq<real>, mags: seq<real>): (r: seq<(real, real)>)
    requires |freqs| == |mags|
    ensures |r| <= |freqs|
    ensures forall i :: 0 <= i < |r| ==> 0.0 < r[i].0 * 1000.0 <= MAX_FREQ_DISP
    decreases |freqs|
  {
    if freqs == [] then []
    else
      var head := if 0.0 < freqs[0] <= MAX_FREQ_DISP then [(freqs[0] / 1000.0, mags[0] / SCALE_FFT)] else [];
      head + Masked(freqs[1..], mags[1..])
  }

  /** When every bin is inside the band, the mask keeps all of them. */
  lemma {:induction false} MaskedAll(freqs: seq<real>, mags: seq<real>)
    requires |freqs| == |mags|
    requires forall i :: 0 <= i < |freqs| ==> 0.0 < freqs[i] <= MAX_FREQ_DISP
    ensures Masked(freqs, mags) == seq(|freqs|, i requires 0 <= i < |freqs| => (freqs[i] / 1000.0, mags[i] / SCALE_FFT))
    decreases |freqs|
  {
    if freqs != [] {
      MaskedAll(freqs[1..], mags[1..]);
    }
  }

  /**
   * For compute_fft's axis (513 bins from 0 Hz to 12 kHz) the display drops
   * exactly the 0 Hz bin and keeps the other 512, in order.
   */
  lemma DisplayedBins(mags: seq<real>)
    requires |mags| == FFT_SIZE / 2 + 1
    ensures var f := RfftFreqs(FFT_SIZE, SAMPLE_RATE);
      var shown := Masked(f, mags);
      && |shown| == FFT_SIZE / 2
      && forall k :: 0 <= k < |shown| ==> shown[k] == (f[k + 1] / 1000.0, mags[k + 1] / SCALE_FFT)
  {
    var f := RfftFreqs(FFT_SIZE, SAMPLE_RATE);
    assert f[0] * 1024.0 == 0.0;
    forall i | 0 <= i < |f[1..]|
      ensures 0.0 < f[1..][i] <= MAX_FREQ_DISP
    {
      assert f[i + 1] * 1024.0 == (i + 1) as real * 24000.0;
    }
    MaskedAll(f[1..], mags[1..]);
  }

  /** The stacked matrix of at least one column has N_MELS rows of equal, positive width. */
  lemma StackRows(cols: seq<seq<real>>)
    requires cols != [] && forall t :: 0 <= t < |cols| ==> |cols[t]| == N_MELS
    ensures var m := Stack(cols, N_MELS);
      |m| == N_MELS && forall k :: 0 <= k < |m| ==> |m[k]| == |m[0]| > 0
  {
  }

  /** The dashboard's globals and the listener and processor it drives. */
  class Dashboard {
    /** waveform_data, rebound to a rolled copy on every update. */
    var waveform: seq<real>
    /** spectro_saw: N_MELS rows of SPECTRO_WIDTH values. */
    var spectro: seq<seq<real>>
    /** The points of the FFT plot. */
    var fftShown: seq<(real, real)>
    const listener: UDPListener
    const dsp: DSPProcessor
    const magnitude: Magnitude

    ghost predicate Valid()
      reads this, dsp
    {
      && |waveform| == WAVE_WINDOW_SIZE
      && |spectro| == N_MELS
      && (forall k :: 0 <= k < |spectro| ==> |spectro[k]| == SPECTRO_WIDTH)
      && dsp.Valid()
      && (forall w :: |dsp.melDb(w)| == N_MELS)
      && (forall x :: |magnitude(x)| == FFT_SIZE / 2 + 1)
    }

    /** Zeroed waveform and image, an empty FFT plot. */
    constructor (listener: UDPListener, dsp: DSPProcessor, magnitude: Magnitude)
      requires dsp.Valid() && forall w :: |dsp.melDb(w)| == N_MELS
      requires forall x :: |magnitude(x)| == FFT_SIZE / 2 + 1
      ensures Valid() && this.listener == listener && this.dsp == dsp && this.magnitude == magnitude
      ensures waveform == Zeros(WAVE_WINDOW_SIZE) && spectro == Repeat(Zeros(SPECTRO_WIDTH), N_MELS) && fftShown == []
    {
      waveform := Zeros(WAVE_WINDOW_SIZE);
      spectro := Repeat(Zeros(SPECTRO_WIDTH), N_MELS);
      fftShown := [];
      this.listener := listener;
      this.dsp := dsp;
      this.magnitude := magnitude;
    }

    /**
     * update_loop: with nothing queued nothing changes. Otherwise the
     * drained block goes through the waveform step; if that raised, the
     * rest of the frame is skipped. Then the spectrogram step and the FFT
     * step.
     */
    method UpdateLoop() returns (ok: bool)
      requires Valid()
      modifies this`waveform, this`spectro, this`fftShown, listener`queue, dsp
      ensures Valid() && listener.queue == []
      ensures old(listener.queue) == [] ==>
        && ok && waveform == old(waveform) && spectro == old(spectro) && fftShown == old(fftShown)
        && dsp.residual == old(dsp.residual) && dsp.audioBuffer == old(dsp.audioBuffer)
      ensures old(listener.queue) != [] ==>
        var block := Flatten(old(listener.queue));
        && waveform == WaveformStep(old(waveform), block).0
        && ok == WaveformStep(old(waveform), block).1
        && (!ok ==> spectro == old(spectro) && fftShown == old(fftShown)
                    && dsp.residual == old(dsp.residual) && dsp.audioBuffer == old(dsp.audioBuffer))
        && (ok ==> SpectroAfter(old(spectro), old(dsp.residual), old(dsp.audioBuffer), block)
                   && fftShown == Masked(ComputeFft(block, magnitude).0, ComputeFft(block, magnitude).1))
    {
      ok := true;
      var newData := listener.GetData();
      if newData.None? {
        return;
      }
      var block := newData.value;
      var step := WaveformStep(waveform, block);
      waveform := step.0;
      if !step.1 {
        ok := false;
        return;
      }
      UpdateSpectrogram(block);
      UpdateFft(block);
    }

    /**
     * The spectrogram step's outcome: an empty block leaves the processor
     * as it was; otherwise the processor consumes the whole hops of
     * residual ++ block, and the image scrolls in the new columns, or stays
     * when no hop completed.
     */
    ghost predicate SpectroAfter(image0: seq<seq<real>>, residual0: seq<real>, window0: seq<real>, block: seq<real>)
      requires |image0| == N_MELS && |window0| >= HOP_LENGTH
      reads this, dsp
    {
      if block == [] then
        spectro == image0 && dsp.residual == residual0 && dsp.audioBuffer == window0
      else
        var h := Hops(residual0 + block, window0, dsp.melDb);
        && dsp.residual == h.rest && dsp.audioBuffer == h.window
        && (forall t :: 0 <= t < |h.cols| ==> |h.cols[t]| == N_MELS)
        && spectro == (if h.cols == [] then image0 else ScrollRows(image0, Stack(h.cols, N_MELS)))
    }

    /**
     * The spectrogram step: the processor's columns, cut to the last
     * SPECTRO_WIDTH, are rolled into the image with np.roll along the time
     * axis and written at its end.
     */
    method UpdateSpectrogram(block: seq<real>)
      requires Valid()
      modifies this`spectro, dsp
      ensures Valid()
      ensures SpectroAfter(old(spectro), old(dsp.residual), old(dsp.audioBuffer), block)
    {
      ghost var h := Hops(dsp.residual + block, dsp.audioBuffer, dsp.melDb);
      var melCols := dsp.ProcessSpectrogramColumn(Some(block));
      if melCols.None? {
        return;
      }
      var mel := melCols.value;
      assert mel == Stack(h.cols, N_MELS);
      assert |mel| == |spectro| > 0 && forall k :: 0 <= k < |mel| ==> |mel[k]| == |mel[0]| > 0 by {
        StackRows(h.cols);
      }
      spectro := RollColumnsIn(spectro, mel);
    }

    /** The FFT step: the masked points of compute_fft's spectrum. */
    method UpdateFft(block: seq<real>)
      requires Valid()
      modifies this`fftShown
      ensures fftShown == Masked(ComputeFft(block, magnitude).0, ComputeFft(block, magnitude).1)
    {
      var fft := ComputeFft(block, magnitude);
      fftShown := Masked(fft.0, fft.1);
    }
  }
}

=== FILE: seqs.dfy ===
/**
 * Sequence vocabulary shared by the receivers and viewers: concatenation
 * of queued blocks, bounded deques (collections.deque with maxlen), the
 * "shift left and write the tail" update of a fixed-size plot buffer,
 * numpy's roll, and DC removal.
 */
module Seqs {
  /** The total length of a list of blocks, summed from the last block back. */
  function SumLengths<T>(ss: seq<seq<T>>): nat
  {
    if ss == [] then 0 else SumLengths(ss[..|ss| - 1]) + |ss[|ss| - 1]|
  }

  /** Concatenation of a list of blocks (np.concatenate, b''.join). */
  function Flatten<T>(ss: seq<seq<T>>): (r: seq<T>)
    ensures ss == [] ==> r == []
  {
    if ss == [] then [] else ss[0] + Flatten(ss[1..])
  }

  /** The concatenation is as long as the blocks together. */
  lemma {:induction false} FlattenLengthSum<T>(ss: seq<seq<T>>)
    ensures |Flatten(ss)| == SumLengths(ss)
    decreases |ss|
  {
    if ss != [] {
      FlattenLengthSum(ss[1..]);
      SumLengthsFront(ss);
    }
  }

  /** The total length also splits off the first block. */
  lemma {:induction false} SumLengthsFront<T>(ss: seq<seq<T>>)
    requires ss != []
    ensures SumLengths(ss) == |ss[0]| + SumLengths(ss[1..])
    decreases |ss|
  {
    var n := |ss|;
    if n == 1 {
      assert ss[..0] == [] && ss[1..] == [];
    } else {
      var init := ss[..n - 1];
      SumLengthsFront(init);
      assert init[0] == ss[0];
      assert init[1..] == ss[1..][..n - 2];
    }
  }

  lemma {:induction false} FlattenAppend<T>(a: seq<seq<T>>, b: seq<seq<T>>)
    ensures Flatten(a + b) == Flatten(a) + Flatten(b)
  {
    if a == [] {
      assert a + b == b;
    } else {
      assert (a + b)[0] == a[0];
      assert (a + b)[1..] == a[1..] + b;
      FlattenAppend(a[1..], b);
    }
  }

  lemma FlattenSnoc<T>(a: seq<seq<T>>, x: seq<T>)
    ensures Flatten(a + [x]) == Flatten(a) + x
  {
    FlattenAppend(a, [x]);
    assert Flatten([x]) == x + Flatten([x][1..]);
  }

  /** Total length of a list of blocks. */
  lemma {:induction false} FlattenLength<T>(ss: seq<seq<T>>, n: nat)
    requires forall i :: 0 <= i < |ss| ==> |ss[i]| == n
    ensures |Flatten(ss)| == |ss| * n
  {
    if ss != [] {
      FlattenLength(ss[1..], n);
    }
  }

  /**
   * The blocks of equal length n are the consecutive n-wide slices of
   * their concatenation.
   */
  lemma {:induction false} FlattenSlice<T>(ss: seq<seq<T>>, n: nat, i: nat)
    requires forall j :: 0 <= j < |ss| ==> |ss[j]| == n
    requires i < |ss|
    ensures i * n + n <= |Flatten(ss)|
    ensures Flatten(ss)[i * n .. i * n + n] == ss[i]
  {
    var f := Flatten(ss);
    var g := Flatten(ss[1..]);
    assert f == ss[0] + g;
    if i > 0 {
      FlattenSlice(ss[1..], n, i - 1);
      var p := (i - 1) * n;
      MulSucc(i - 1, n);
      assert f[n + p .. n + p + n] == g[p .. p + n];
    }
  }

  lemma AppendAssoc<T>(a: seq<T>, b: seq<T>, c: seq<T>)
    ensures a + (b + c) == (a + b) + c
  {
  }

  lemma MulSucc(a: nat, n: nat)
    ensures (a + 1) * n == a * n + n
  {
  }

  /**
   * The last n elements of s, or all of s when it is shorter: Python's
   * s[-n:] for n > 0, and the contents of a deque(maxlen=n) after s has
   * been appended to it element by element.
   */
  function Last<T>(s: seq<T>, n: nat): (r: seq<T>)
    ensures |r| == if |s| < n then |s| else n
    ensures r == s[|s| - |r|..]
  {
    if |s| <= n then s else s[|s| - n..]
  }

  /** Trimming twice to the same bound is trimming once. */
  lemma LastOfLastAppend<T>(a: seq<T>, b: seq<T>, n: nat)
    ensures Last(Last(a, n) + b, n) == Last(a + b, n)
  {
    var la := Last(a, n);
    assert a == a[..|a| - |la|] + la;
    assert a + b == a[..|a| - |la|] + (la + b);
    var w := la + b;
    var v := a + b;
    assert Last(w, n) == w[|w| - |Last(w, n)|..];
    assert w == v[|a| - |la|..];
  }

  /** Appending in two steps, trimming after each, is appending once. */
  lemma LastTwice<T>(s: seq<T>, xs: seq<T>, ys: seq<T>, n: nat)
    ensures Last(Last(s + xs, n) + ys, n) == Last(s + (xs + ys), n)
  {
    LastOfLastAppend(s + xs, ys, n);
    assert s + xs + ys == s + (xs + ys);
  }

  /** deque.extend on a deque with maxlen n. */
  function Extend<T>(d: seq<T>, xs: seq<T>, n: nat): (r: seq<T>)
    ensures |r| <= n && (|d| == n ==> |r| == n)
  {
    Last(d + xs, n)
  }

  /** After an extend, the newest elements sit at the end of the deque. */
  lemma ExtendKeepsNewest<T>(d: seq<T>, xs: seq<T>, n: nat)
    ensures |xs| <= n ==> |xs| <= |Extend(d, xs, n)| && Extend(d, xs, n)[|Extend(d, xs, n)| - |xs|..] == xs
    ensures |xs| >= n ==> Extend(d, xs, n) == xs[|xs| - n..]
  {
    var w := d + xs;
    var r := Last(w, n);
    assert r == w[|w| - |r|..];
    assert |xs| <= n ==> r[|r| - |xs|..] == w[|w| - |xs|..] == xs;
  }

  /** Extending a bounded deque block by block keeps the last n of everything. */
  lemma ExtendAll<T>(d: seq<T>, xs: seq<T>, ys: seq<T>, n: nat)
    requires |d| <= n
    ensures Extend(Extend(d, xs, n), ys, n) == Extend(d, xs + ys, n)
  {
    LastOfLastAppend(d + xs, ys, n);
    calc {
      Extend(Extend(d, xs, n), ys, n);
      Last(Last(d + xs, n) + ys, n);
      Last((d + xs) + ys, n);
      { assert (d + xs) + ys == d + (xs + ys); }
      Extend(d, xs + ys, n);
    }
  }

  function Repeat<T>(x: T, n: nat): (r: seq<T>)
    ensures |r| == n && forall i :: 0 <= i < n ==> r[i] == x
  {
    seq(n, _ => x)
  }

  function Zeros(n: nat): (r: seq<real>)
    ensures |r| == n && forall i :: 0 <= i < n ==> r[i] == 0.0
  {
    Repeat(0.0, n)
  }

  /**
   * A fixed-size plot buffer after the newest block is written at its end
   * and everything else moves towards the front (y[:-n] = y[n:];
   * y[-n:] = chunk). For an empty chunk numpy raises (y[:-0] selects
   * nothing), which this function does not model: it returns the window.
   */
  function ShiftIn<T>(window: seq<T>, chunk: seq<T>): (r: seq<T>)
    requires |chunk| <= |window|
    ensures |r| == |window|
    ensures r == Last(window + chunk, |window|)
  {
    var w := window + chunk;
    assert w[|w| - |window|..] == window[|chunk|..] + chunk;
    window[|chunk|..] + chunk
  }

  /** Two consecutive shifts equal one shift by both blocks. */
  lemma ShiftInTwice<T>(w: seq<T>, a: seq<T>, b: seq<T>)
    requires |a| + |b| <= |w|
    ensures ShiftIn(ShiftIn(w, a), b) == ShiftIn(w, a + b)
  {
    LastOfLastAppend(w + a, b, |w|);
    assert w + a + b == w + (a + b);
  }

  /** Shifting in only the newest |w| elements of a block is shifting the whole block through. */
  lemma ShiftInNewest<T>(w: seq<T>, c: seq<T>)
    ensures ShiftIn(w, Last(c, |w|)) == Last(w + c, |w|)
  {
    var n := |w|;
    var newest := Last(c, n);
    assert c == c[..|c| - |newest|] + newest;
    if |c| > n {
      assert Last(w + newest, n) == newest;
      assert (w + c)[|w + c| - n..] == newest;
    } else {
      assert newest == c;
    }
  }

  /**
   * np.roll(s, -k) for 0 <= k <= |s|: element i of the result is element
   * i + k, wrapping round to the front.
   */
  function RollLeft<T>(s: seq<T>, k: nat): (r: seq<T>)
    requires k <= |s|
    ensures |r| == |s|
    ensures forall i :: 0 <= i < |s| ==> r[i] == if i + k < |s| then s[i + k] else s[i + k - |s|]
  {
    s[k..] + s[..k]
  }

  /** a[-len(c):] = c: overwrite the tail of s with c. */
  function OverwriteTail<T>(s: seq<T>, c: seq<T>): (r: seq<T>)
    requires |c| <= |s|
    ensures |r| == |s| && r[..|s| - |c|] == s[..|s| - |c|] && r[|s| - |c|..] == c
  {
    s[..|s| - |c|] + c
  }

  /**
   * Rolling left by the block length and then overwriting the tail (the
   * np.roll form of the plot update) gives the same buffer as the
   * slice-assignment form.
   */
  lemma RollThenOverwrite<T>(s: seq<T>, c: seq<T>)
    requires 0 < |c| <= |s|
    ensures OverwriteTail(RollLeft(s, |c|), c) == ShiftIn(s, c)
  {
    var r := RollLeft(s, |c|);
    var lhs := OverwriteTail(r, c);
    var rhs := ShiftIn(s, c);
    forall i | 0 <= i < |s| - |c|
      ensures lhs[i] == rhs[i]
    {
      assert lhs[i] == r[i] == s[i + |c|];
    }
    assert lhs[|s| - |c|..] == c == rhs[|s| - |c|..];
    assert lhs == lhs[..|s| - |c|] + lhs[|s| - |c|..];
    assert rhs == rhs[..|s| - |c|] + rhs[|s| - |c|..];
  }

  /**
   * The slice-assignment update performed in place on a plot array: the
   * first |a| - |chunk| cells take the cells |chunk| further on, the last
   * |chunk| cells take the block.
   */
  method ShiftInPlace(a: array<real>, chunk: seq<real>)
    requires |chunk| <= a.Length
    modifies a
    ensures a[..] == ShiftIn(old(a[..]), chunk)
  {
    var n := |chunk|;
    var m := a.Length - n;
    forall i | 0 <= i < m {
      a[i] := a[i + n];
    }
    forall i | m <= i < a.Length {
      a[i] := chunk[i - m];
    }
    assert a[..] == old(a[..])[n..] + chunk;
  }

  function Sum(s: seq<real>): real
  {
    if s == [] then 0.0 else s[0] + Sum(s[1..])
  }

  /** The arithmetic mean (np.mean); the empty block has none, modelled as 0. */
  function Mean(s: seq<real>): real
  {
    if s == [] then 0.0 else Sum(s) / |s| as real
  }

  /** y - mean(y): DC offset removal. */
  function MeanRemoved(s: seq<real>): (r: seq<real>)
    ensures |r| == |s|
  {
    var m := Mean(s);
    seq(|s|, i requires 0 <= i < |s| => s[i] - m)
  }

  lemma {:induction false} SumShifted(s: seq<real>, c: real)
    ensures Sum(seq(|s|, i requires 0 <= i < |s| => s[i] - c)) == Sum(s) - |s| as real * c
  {
    var t := seq(|s|, i requires 0 <= i < |s| => s[i] - c);
    if s != [] {
      SumShifted(s[1..], c);
      assert t[1..] == seq(|s[1..]|, i requires 0 <= i < |s[1..]| => s[1..][i] - c);
    }
  }

  /** After DC removal the block sums (and so averages) to zero. */
  lemma MeanRemovedSumsToZero(s: seq<real>)
    ensures Sum(MeanRemoved(s)) == 0.0
  {
    SumShifted(s, Mean(s));
  }

  /** Adding a constant offset to every sample does not change the DC-removed block. */
  lemma MeanRemovedIgnoresOffset(s: seq<real>, c: real)
    ensures MeanRemoved(seq(|s|, i requires 0 <= i < |s| => s[i] + c)) == MeanRemoved(s)
  {
    var t := seq(|s|, i requires 0 <= i < |s| => s[i] + c);
    if s != [] {
      SumShifted(s, -c);
      assert t == seq(|s|, i requires 0 <= i < |s| => s[i] - (-c));
      assert Mean(t) == Mean(s) + c;
    }
  }
}

=== FILE: serial_viewer.dfy ===
/**
 * The serial Qt viewer: a worker reads the port 2048 bytes at a time once
 * that many are waiting and emits 1024 normalised samples; the main window
 * queues each chunk, keeps the last two seconds of audio, and on every
 * timer tick plots the oldest queued chunk as a scrolling waveform or a
 * scrolling spectrogram, and feeds it to the spectrogram sub-window.
 */
module SerialViewer {
  import opened Pcm
  import opened Seqs
  import opened Framing
  import QtSpectrogram

  const READ_SIZE: nat := 2048
  const PLOT_DATA_SIZE: nat := 10240
  const SAMPLE_SIZE_FOR_INFERENCE: nat := 48000

  /** One pass of the worker's loop: the bytes that arrived since the previous pass, or a read error. */
  datatype SerialPoll = Arrived(data: seq<Byte>) | ReadFailed

  /** All bytes that arrived on the port during a run of passes. */
  function ArrivedBytes(polls: seq<SerialPoll>): seq<Byte>
  {
    if polls == [] then [] else ArrivedBytes(polls[..|polls| - 1]) + (if polls[|polls| - 1].Arrived? then polls[|polls| - 1].data else [])
  }

  lemma ArrivedStep(polls: seq<SerialPoll>, i: nat)
    requires i < |polls|
    ensures polls[i].Arrived? ==> ArrivedBytes(polls[..i + 1]) == ArrivedBytes(polls[..i]) + polls[i].data
    ensures polls[i].ReadFailed? ==> ArrivedBytes(polls[..i + 1]) == ArrivedBytes(polls[..i])
  {
    assert polls[..i + 1][..i] == polls[..i];
  }

  /**
   * Every chunk the worker emits holds 1024 samples, so it fits the plot
   * and queue_data accepts it.
   */
  lemma EmittedChunkSizes(frames: seq<seq<Byte>>)
    requires forall i :: 0 <= i < |frames| ==> |frames[i]| == READ_SIZE
    ensures |NormalisedFrames(frames)| == |frames|
    ensures forall i :: 0 <= i < |frames| ==> |NormalisedFrames(frames)[i]| == READ_SIZE / 2
  {
    forall i | 0 <= i < |frames|
      ensures |NormalisedFrames(frames)| == |frames| && |NormalisedFrames(frames)[i]| == READ_SIZE / 2
    {
      NormalisedFrameAt(frames, i);
    }
    if frames == [] {
      assert NormalisedFrames(frames) == [];
    }
  }

  /** The frames read so far followed by the bytes still waiting make up the stream; every frame is READ_SIZE bytes. */
  predicate Framed(frames: seq<seq<Byte>>, waiting: seq<Byte>, stream: seq<Byte>)
  {
    && Flatten(frames) + waiting == stream
    && forall i :: 0 <= i < |frames| ==> |frames[i]| == READ_SIZE
  }

  /**
   * The frames read and the bytes left waiting after a run of passes: each
   * pass adds the bytes that arrived to those waiting, then reads one frame
   * exactly when at least READ_SIZE bytes are waiting. A failed pass reads
   * nothing (the loop ends there).
   */
  function PollFrames(polls: seq<SerialPoll>): (r: (seq<seq<Byte>>, seq<Byte>))
  {
    if polls == [] then ([], [])
    else
      var (frames, waiting) := PollFrames(polls[..|polls| - 1]);
      var p := polls[|polls| - 1];
      if p.ReadFailed? then (frames, waiting)
      else
        var (frame, rest) := TakeFrame(waiting + p.data, READ_SIZE);
        (if frame.Some? then frames + [frame.value] else frames, rest)
  }

  lemma PollFramesStep(polls: seq<SerialPoll>, i: nat)
    requires i < |polls|
    ensures PollFrames(polls[..i + 1]) ==
      var (frames, waiting) := PollFrames(polls[..i]);
      if polls[i].ReadFailed? then (frames, waiting)
      else
        var (frame, rest) := TakeFrame(waiting + polls[i].data, READ_SIZE);
        (if frame.Some? then frames + [frame.value] else frames, rest)
  {
    assert polls[..i + 1][..i] == polls[..i];
  }

  /**
   * The frames read followed by the bytes still waiting are exactly the
   * bytes that arrived, every frame holds READ_SIZE bytes, and no pass
   * reads more than one frame.
   */
  lemma {:induction false} PollFramesFramed(polls: seq<SerialPoll>)
    ensures Framed(PollFrames(polls).0, PollFrames(polls).1, ArrivedBytes(polls))
    ensures |PollFrames(polls).0| <= |polls|
  {
    if polls != [] {
      var n := |polls| - 1;
      var init := polls[..n];
      assert polls[..n + 1] == polls;
      PollFramesFramed(init);
      PollFramesStep(polls, n);
      ArrivedStep(polls, n);
      var (frames, waiting) := PollFrames(init);
      var p := polls[n];
      if p.Arrived? {
        var (frame, rest) := TakeFrame(waiting + p.data, READ_SIZE);
        if frame.Some? {
          FlattenSnoc(frames, frame.value);
          AppendAssoc(Flatten(frames), frame.value, rest);
        }
        AppendAssoc(Flatten(frames), waiting, p.data);
      }
    }
  }

  /** Frame i read from the port is bytes [2048 i, 2048 (i + 1)) of everything that arrived. */
  lemma PollFramesAreGrid(polls: seq<SerialPoll>, i: nat)
    requires i < |PollFrames(polls).0|
    ensures (i + 1) * READ_SIZE <= |ArrivedBytes(polls)|
    ensures PollFrames(polls).0[i] == ArrivedBytes(polls)[i * READ_SIZE .. (i + 1) * READ_SIZE]
  {
    var frames := PollFrames(polls).0;
    PollFramesFramed(polls);
    FlattenSlice(frames, READ_SIZE, i);
    assert ArrivedBytes(polls) == Flatten(frames) + PollFrames(polls).1;
  }

  /** The worker (SerialWorker). */
  class SerialWorker {
    var isRunning: bool

    constructor ()
      ensures isRunning
    {
      isRunning := true;
    }

    /**
     * One pass with the given bytes waiting in the port: if at least
     * READ_SIZE are waiting, the first READ_SIZE are read and emitted.
     */
    method ReadWaiting(waiting: seq<Byte>, ghost frames: seq<seq<Byte>>, emitted: seq<seq<real>>)
      returns (emitted': seq<seq<real>>, waiting': seq<Byte>, ghost frames': seq<seq<Byte>>)
      requires forall i :: 0 <= i < |frames| ==> |frames[i]| == READ_SIZE
      requires emitted == NormalisedFrames(frames)
      ensures |waiting| >= READ_SIZE ==> frames' == frames + [waiting[..READ_SIZE]] && waiting' == waiting[READ_SIZE..]
      ensures |waiting| < READ_SIZE ==> frames' == frames && waiting' == waiting
      ensures Flatten(frames') + waiting' == Flatten(frames) + waiting
      ensures forall i :: 0 <= i < |frames'| ==> |frames'[i]| == READ_SIZE
      ensures emitted' == NormalisedFrames(frames')
    {
      var (frame, rest) := TakeFrame(waiting, READ_SIZE);
      if frame.Some? {
        FlattenSnoc(frames, frame.value);
        AppendAssoc(Flatten(frames), frame.value, rest);
        NormalisedFramesSnoc(frames, frame.value);
        emitted', waiting', frames' := emitted + [NormalisedBlock(frame.value)], rest, frames + [frame.value];
      } else {
        emitted', waiting', frames' := emitted, waiting, frames;
      }
    }

    /** stop() */
    method Stop()
      modifies this
      ensures !isRunning
    {
      isRunning := false;
    }

    /**
     * run(): after connecting, each pass reads one frame of READ_SIZE bytes
     * if that many are waiting (in_waiting >= read_size) and emits its
     * normalised samples; the first read error ends the loop. The frames
     * read and the bytes left waiting are those of PollFrames over the
     * passes made, and the chunks emitted are those frames normalised.
     */
    method Run(connectOk: bool, polls: seq<SerialPoll>) returns (exit: LoopExit, consumed: nat, emitted: seq<seq<real>>, waiting: seq<Byte>, ghost frames: seq<seq<Byte>>)
      ensures !connectOk ==> exit == ConnectFailed && consumed == 0 && emitted == []
      ensures connectOk ==> exit == SocketError || exit == NoMoreEvents
      ensures consumed <= |polls|
      ensures forall i :: 0 <= i < consumed - 1 ==> polls[i].Arrived?
      ensures exit == SocketError ==> consumed > 0 && polls[consumed - 1].ReadFailed?
      ensures exit == NoMoreEvents ==> consumed == |polls| && forall i :: 0 <= i < |polls| ==> polls[i].Arrived?
      ensures frames == PollFrames(polls[..consumed]).0 && waiting == PollFrames(polls[..consumed]).1
      ensures Framed(frames, waiting, ArrivedBytes(polls[..consumed]))
      ensures emitted == NormalisedFrames(frames)
    {
      emitted, waiting, frames, consumed := [], [], [], 0;
      assert polls[..0] == [];
      if !connectOk {
        PollFramesFramed(polls[..0]);
        return ConnectFailed, 0, [], [], [];
      }
      while consumed < |polls|
        invariant consumed <= |polls|
        invariant forall i :: 0 <= i < consumed ==> polls[i].Arrived?
        invariant (frames, waiting) == PollFrames(polls[..consumed])
        invariant forall i :: 0 <= i < |frames| ==> |frames[i]| == READ_SIZE
        invariant emitted == NormalisedFrames(frames)
      {
        var p := polls[consumed];
        PollFramesStep(polls, consumed);
        if p.ReadFailed? {
          consumed := consumed + 1;
          PollFramesFramed(polls[..consumed]);
          return SocketError, consumed, emitted, waiting, frames;
        }
        emitted, waiting, frames := ReadWaiting(waiting + p.data, frames, emitted);
        consumed := consumed + 1;
      }
      PollFramesFramed(polls[..consumed]);
      exit := NoMoreEvents;
    }
  }

  /** The main window's audio and plot state (MainWindow). */
  class MainWindow {
    /** data_buffer: chunks waiting to be plotted, oldest first. */
    var dataBuffer: seq<seq<real>>
    /** full_audio_buffer: deque(maxlen=48000). */
    var fullAudio: seq<real>
    /** y_data, updated in place. */
    var yData: array<real>
    var waveformMode: bool
    /** spectro_data (-80 dB fill) and prev_audio_main. */
    var mainView: QtSpectrogram.View
    var spectroWindow: QtSpectrogram.SpectrogramWindow
    const frameDb: QtSpectrogram.FrameDb

    predicate Valid()
      reads this, yData
    {
      && yData.Length == PLOT_DATA_SIZE
      && |fullAudio| == SAMPLE_SIZE_FOR_INFERENCE
      && (forall i :: 0 <= i < |dataBuffer| ==> 0 < |dataBuffer[i]| <= PLOT_DATA_SIZE)
    }

    constructor (frameDb: QtSpectrogram.FrameDb)
      ensures Valid() && fresh(yData) && fresh(spectroWindow)
      ensures dataBuffer == [] && fullAudio == Zeros(SAMPLE_SIZE_FOR_INFERENCE) && yData[..] == Zeros(PLOT_DATA_SIZE)
      ensures waveformMode && mainView == QtSpectrogram.View(Repeat(Repeat(-80.0, QtSpectrogram.N_MELS), QtSpectrogram.SPECTRO_TIME_STEPS), Zeros(QtSpectrogram.OVERLAP))
      ensures spectroWindow.frameDb == frameDb && this.frameDb == frameDb
    {
      dataBuffer := [];
      fullAudio := Zeros(SAMPLE_SIZE_FOR_INFERENCE);
      yData := new real[PLOT_DATA_SIZE](_ => 0.0);
      waveformMode := true;
      mainView := QtSpectrogram.View(Repeat(Repeat(-80.0, QtSpectrogram.N_MELS), QtSpectrogram.SPECTRO_TIME_STEPS), Zeros(QtSpectrogram.OVERLAP));
      spectroWindow := new QtSpectrogram.SpectrogramWindow(frameDb);
      this.frameDb := frameDb;
      new;
      assert yData[..] == Zeros(PLOT_DATA_SIZE);
    }

    /** start_plotting: the sub-window is shown and the queue emptied. */
    method StartPlotting()
      requires Valid()
      modifies this`dataBuffer, spectroWindow`visible
      ensures Valid() && dataBuffer == [] && spectroWindow.visible
    {
      spectroWindow.SetVisible(true);
      dataBuffer := [];
    }

    /** toggle_display_mode */
    method ToggleDisplayMode()
      modifies this`waveformMode
      ensures waveformMode == !old(waveformMode)
    {
      waveformMode := !waveformMode;
    }

    /**
     * queue_data: the chunk joins the plot queue and the rolling two-second
     * audio history. The plot's slice assignment needs a non-empty chunk no
     * longer than the plot.
     */
    method QueueData(chunk: seq<real>)
      requires Valid() && 0 < |chunk| <= PLOT_DATA_SIZE
      modifies this`dataBuffer, this`fullAudio
      ensures Valid()
      ensures dataBuffer == old(dataBuffer) + [chunk]
      ensures fullAudio == Extend(old(fullAudio), chunk, SAMPLE_SIZE_FOR_INFERENCE)
    {
      dataBuffer := dataBuffer + [chunk];
      fullAudio := Extend(fullAudio, chunk, SAMPLE_SIZE_FOR_INFERENCE);
    }

    /**
     * triggered_update_plot: with an empty queue nothing happens; otherwise
     * only the oldest chunk is taken. The sub-window always gets it; in
     * waveform mode the plot scrolls it in and the main spectrogram is
     * untouched, in spectrogram mode the main spectrogram is updated and
     * the plot is untouched.
     */
    method TriggeredUpdatePlot()
      requires Valid()
      modifies this`dataBuffer, this`mainView, yData, spectroWindow
      ensures Valid()
      ensures old(dataBuffer) == [] ==>
        && dataBuffer == [] && yData[..] == old(yData[..]) && mainView == old(mainView)
        && spectroWindow.image == old(spectroWindow.image) && spectroWindow.carry == old(spectroWindow.carry)
      ensures old(dataBuffer) != [] ==>
        var chunk := old(dataBuffer)[0];
        && dataBuffer == old(dataBuffer)[1..]
        && QtSpectrogram.View(spectroWindow.image, spectroWindow.carry)
           == QtSpectrogram.Update(QtSpectrogram.View(old(spectroWindow.image), old(spectroWindow.carry)), chunk, spectroWindow.frameDb)
        && (waveformMode ==> yData[..] == ShiftIn(old(yData[..]), chunk) && mainView == old(mainView))
        && (!waveformMode ==> yData[..] == old(yData[..]) && mainView == QtSpectrogram.Update(old(mainView), chunk, frameDb))
    {
      if dataBuffer == [] {
        return;
      }
      var chunk := dataBuffer[0];
      dataBuffer := dataBuffer[1..];
      spectroWindow.UpdatePlot(chunk);
      if waveformMode {
        ShiftInPlace(yData, chunk);
      } else {
        mainView := QtSpectrogram.Update(mainView, chunk, frameDb);
      }
    }
  }

  /**
   * full_audio_buffer after any number of chunks holds the last 48000
   * samples of the initial zeros followed by every chunk, in order.
   */
  lemma {:induction false} FullAudioHistory(start: seq<real>, chunks: seq<seq<real>>)
    requires |start| <= SAMPLE_SIZE_FOR_INFERENCE
    ensures ExtendEach(start, chunks) == Extend(start, Flatten(chunks), SAMPLE_SIZE_FOR_INFERENCE)
    decreases |chunks|
  {
    if chunks == [] {
      assert start + [] == start;
    } else {
      var init := chunks[..|chunks| - 1];
      var c := chunks[|chunks| - 1];
      assert chunks == init + [c];
      FullAudioHistory(start, init);
      FlattenSnoc(init, c);
      ExtendAll(start, Flatten(init), c, SAMPLE_SIZE_FOR_INFERENCE);
    }
  }

  /** The audio history after queue_data has been called with each chunk in turn. */
  function ExtendEach(start: seq<real>, chunks: seq<seq<real>>): seq<real>
  {
    if chunks == [] then Last(start, SAMPLE_SIZE_FOR_INFERENCE)
    else Extend(ExtendEach(start, chunks[..|chunks| - 1]), chunks[|chunks| - 1], SAMPLE_SIZE_FOR_INFERENCE)
  }
}

=== FILE: signal_process.dfy ===
/**
 * The dashboard's streaming spectrogram (DSPProcessor): incoming audio is
 * appended to a residual, consumed one hop of 256 samples at a time, and
 * each hop is shifted into a rolling window of N_FFT samples from which one
 * spectrogram column is computed. Also the pad-or-truncate step of
 * compute_fft and the frequency axis of a real FFT.
 *
 * The Hann window, the FFT, the mel projection and power_to_db are one
 * opaque function `MelDb` of the window; what is modelled is the counting,
 * the buffer continuity and the [0, 1] normalisation of the columns.
 */
module SignalProcess {
  import opened Pcm
  import opened Seqs

  const SAMPLE_RATE: nat := 24000
  const N_FFT: nat := 1024
  const HOP_LENGTH: nat := 256
  const N_MELS: nat := 80
  const FFT_SIZE: nat := 1024

  /** power_to_db(mel_basis . |rfft(window * hanning)|): the dB mel column of a window. */
  type MelDb = seq<real> -> seq<real>

  /** np.clip(x, 0, 1) */
  function Clip01(x: real): (r: real)
    ensures 0.0 <= r <= 1.0
    ensures 0.0 <= x <= 1.0 ==> r == x
    ensures x < 0.0 ==> r == 0.0
    ensures x > 1.0 ==> r == 1.0
  {
    if x < 0.0 then 0.0 else if x > 1.0 then 1.0 else x
  }

  /** One spectrogram column: the dB values mapped by (db + 80) / 80 and clipped into [0, 1]. */
  function Column(window: seq<real>, melDb: MelDb): (c: seq<real>)
    ensures |c| == |melDb(window)|
    ensures forall m :: 0 <= m < |c| ==> 0.0 <= c[m] <= 1.0
    ensures forall m :: 0 <= m < |c| && -80.0 <= melDb(window)[m] <= 0.0 ==> c[m] * 80.0 == melDb(window)[m] + 80.0
  {
    var db := melDb(window);
    seq(|db|, m requires 0 <= m < |db| => Clip01((db[m] + 80.0) / 80.0))
  }

  /** Result of consuming whole hops: the columns, the residual left over and the final window. */
  datatype HopRun = HopRun(cols: seq<seq<real>>, rest: seq<real>, window: seq<real>)

  /**
   * Consume pending samples hop by hop: each hop of 256 samples is shifted
   * into the window and yields the column of the new window; fewer than 256
   * samples are left.
   */
  function Hops(pending: seq<real>, window: seq<real>, melDb: MelDb): (h: HopRun)
    requires HOP_LENGTH <= |window|
    ensures |h.window| == |window| && |h.rest| < HOP_LENGTH
    decreases |pending|
  {
    if |pending| < HOP_LENGTH then HopRun([], pending, window)
    else
      var w := ShiftIn(window, pending[..HOP_LENGTH]);
      var h := Hops(pending[HOP_LENGTH..], w, melDb);
      HopRun([Column(w, melDb)] + h.cols, h.rest, h.window)
  }

  /**
   * Counting: the hops consumed and the new residual are exactly the
   * pending samples, with one column per consumed hop, so the number of
   * columns is |pending| div 256.
   */
  lemma {:induction false} HopsConsume(pending: seq<real>, window: seq<real>, melDb: MelDb)
    requires HOP_LENGTH <= |window|
    ensures var h := Hops(pending, window, melDb);
      && |h.cols| * HOP_LENGTH + |h.rest| == |pending|
      && h.rest == pending[|h.cols| * HOP_LENGTH..]
    decreases |pending|
  {
    if |pending| >= HOP_LENGTH {
      var w := ShiftIn(window, pending[..HOP_LENGTH]);
      HopsConsume(pending[HOP_LENGTH..], w, melDb);
      var h := Hops(pending[HOP_LENGTH..], w, melDb);
      MulSucc(|h.cols|, HOP_LENGTH);
    }
  }

  /** One hop shifted in, then k more hops, is the window after k + 1 hops. */
  lemma ShiftThenLast(window: seq<real>, pending: seq<real>, k: nat)
    requires HOP_LENGTH <= |window| && HOP_LENGTH <= |pending|
    requires k * HOP_LENGTH <= |pending| - HOP_LENGTH
    ensures (k + 1) * HOP_LENGTH <= |pending|
    ensures Last(ShiftIn(window, pending[..HOP_LENGTH]) + pending[HOP_LENGTH..][..k * HOP_LENGTH], |window|)
         == Last(window + pending[..(k + 1) * HOP_LENGTH], |window|)
  {
    MulSucc(k, HOP_LENGTH);
    var hop := pending[..HOP_LENGTH];
    var more := pending[HOP_LENGTH..][..k * HOP_LENGTH];
    LastOfLastAppend(window + hop, more, |window|);
    assert pending[..(k + 1) * HOP_LENGTH] == hop + more;
    assert window + hop + more == window + (hop + more);
  }

  /**
   * Continuity: the final window is the last |window| samples of the old
   * window followed by every consumed sample.
   */
  lemma {:induction false} HopsWindow(pending: seq<real>, window: seq<real>, melDb: MelDb)
    requires HOP_LENGTH <= |window|
    ensures var h := Hops(pending, window, melDb);
      && |h.cols| * HOP_LENGTH <= |pending|
      && h.window == Last(window + pending[..|h.cols| * HOP_LENGTH], |window|)
    decreases |pending|
  {
    HopsConsume(pending, window, melDb);
    if |pending| < HOP_LENGTH {
      assert pending[..0] == [];
      assert window + [] == window;
    } else {
      var tail := pending[HOP_LENGTH..];
      var w := ShiftIn(window, pending[..HOP_LENGTH]);
      HopsWindow(tail, w, melDb);
      ShiftThenLast(window, pending, |Hops(tail, w, melDb).cols|);
    }
  }

  /** Column t is computed from the window as it stands after t + 1 hops. */
  lemma {:induction false} HopsColumn(pending: seq<real>, window: seq<real>, melDb: MelDb, t: nat)
    requires HOP_LENGTH <= |window|
    requires t < |Hops(pending, window, melDb).cols|
    ensures (t + 1) * HOP_LENGTH <= |pending|
    ensures Hops(pending, window, melDb).cols[t] == Column(Last(window + pending[..(t + 1) * HOP_LENGTH], |window|), melDb)
    decreases t
  {
    var h := Hops(pending, window, melDb);
    assert |pending| >= HOP_LENGTH;
    var hop := pending[..HOP_LENGTH];
    var tail := pending[HOP_LENGTH..];
    var w := ShiftIn(window, hop);
    var h' := Hops(tail, w, melDb);
    assert h.cols == [Column(w, melDb)] + h'.cols;
    if t == 0 {
      assert (t + 1) * HOP_LENGTH == HOP_LENGTH;
      assert w == Last(window + hop, |window|);
    } else {
      HopsColumn(tail, w, melDb, t - 1);
      ShiftThenLast(window, pending, t);
      assert h.cols[t] == h'.cols[t - 1];
    }
  }

  /**
   * Chunking does not matter: feeding the stream in two pieces, carrying
   * the residual and the window from the first call into the second, gives
   * the columns, residual and window of feeding it at once.
   */
  lemma {:induction false} HopsAppend(pending: seq<real>, more: seq<real>, window: seq<real>, melDb: MelDb)
    requires HOP_LENGTH <= |window|
    ensures var h1 := Hops(pending, window, melDb);
      var h2 := Hops(h1.rest + more, h1.window, melDb);
      var h := Hops(pending + more, window, melDb);
      h.cols == h1.cols + h2.cols && h.rest == h2.rest && h.window == h2.window
    decreases |pending|
  {
    var p := pending + more;
    if |pending| < HOP_LENGTH {
      assert [] + Hops(p, window, melDb).cols == Hops(p, window, melDb).cols;
    } else {
      var tail := pending[HOP_LENGTH..];
      var w := ShiftIn(window, pending[..HOP_LENGTH]);
      assert p[..HOP_LENGTH] == pending[..HOP_LENGTH];
      assert p[HOP_LENGTH..] == tail + more;
      var t1 := Hops(tail, w, melDb);
      var h2 := Hops(t1.rest + more, t1.window, melDb);
      var t := Hops(tail + more, w, melDb);
      HopsUnfold(p, window, melDb);
      HopsUnfold(pending, window, melDb);
      HopsAppend(tail, more, w, melDb);
      assert t.cols == t1.cols + h2.cols && t.rest == h2.rest && t.window == h2.window;
      AppendAssoc([Column(w, melDb)], t1.cols, h2.cols);
    }
  }

  /** The first hop of a run, taken apart. */
  lemma HopsUnfold(pending: seq<real>, window: seq<real>, melDb: MelDb)
    requires HOP_LENGTH <= |window| && HOP_LENGTH <= |pending|
    ensures var w := ShiftIn(window, pending[..HOP_LENGTH]);
      var h := Hops(pending, window, melDb);
      var t := Hops(pending[HOP_LENGTH..], w, melDb);
      h.cols == [Column(w, melDb)] + t.cols && h.rest == t.rest && h.window == t.window
  {
  }

  /** np.stack(cols, axis=1): the columns side by side, one row per mel band. */
  function Stack(cols: seq<seq<real>>, rows: nat): (m: seq<seq<real>>)
    requires forall t :: 0 <= t < |cols| ==> |cols[t]| == rows
    ensures |m| == rows && forall k :: 0 <= k < rows ==> |m[k]| == |cols|
    ensures forall k, t :: 0 <= k < rows && 0 <= t < |cols| ==> m[k][t] == cols[t][k]
  {
    seq(rows, k requires 0 <= k < rows => seq(|cols|, t requires 0 <= t < |cols| => cols[t][k]))
  }

  /** The processor's state: the rolling analysis window and the samples not yet consumed. */
  class DSPProcessor {
    var audioBuffer: seq<real>
    var residual: seq<real>
    const melDb: MelDb

    predicate Valid()
      reads this
    {
      |audioBuffer| == N_FFT && |residual| < HOP_LENGTH
    }

    /** A zeroed window, no residual, and the mel analysis of N_MELS bands. */
    constructor (melDb: MelDb)
      requires forall w :: |melDb(w)| == N_MELS
      ensures Valid() && audioBuffer == Zeros(N_FFT) && residual == [] && this.melDb == melDb
    {
      audioBuffer := Zeros(N_FFT);
      residual := [];
      this.melDb := melDb;
    }

    /**
     * process_spectrogram_column: None or an empty chunk changes nothing;
     * otherwise every whole hop of residual + chunk is consumed and the
     * N_MELS x k matrix of the k new columns is returned, or None when no
     * hop completed.
     */
    method ProcessSpectrogramColumn(chunk: Option<seq<real>>) returns (r: Option<seq<seq<real>>>)
      requires Valid() && forall w :: |melDb(w)| == N_MELS
      modifies this
      ensures Valid()
      ensures (chunk.None? || chunk.value == []) ==> r.None? && audioBuffer == old(audioBuffer) && residual == old(residual)
      ensures chunk.Some? && chunk.value != [] ==>
        var h := Hops(old(residual) + chunk.value, old(audioBuffer), melDb);
        && residual == h.rest && audioBuffer == h.window
        && (forall t :: 0 <= t < |h.cols| ==> |h.cols[t]| == N_MELS)
        && r == (if h.cols == [] then None else Some(Stack(h.cols, N_MELS)))
    {
      if chunk.None? || |chunk.value| == 0 {
        return None;
      }
      residual := residual + chunk.value;
      ghost var goal := Hops(residual, audioBuffer, melDb);
      var cols: seq<seq<real>> := [];
      while |residual| >= HOP_LENGTH
        invariant |audioBuffer| == N_FFT
        invariant forall t :: 0 <= t < |cols| ==> |cols[t]| == N_MELS
        invariant goal.cols == cols + Hops(residual, audioBuffer, melDb).cols
        invariant goal.rest == Hops(residual, audioBuffer, melDb).rest
        invariant goal.window == Hops(residual, audioBuffer, melDb).window
        decreases |residual|
      {
        var hop := residual[..HOP_LENGTH];
        HopsUnfold(residual, audioBuffer, melDb);
        ghost var w := ShiftIn(audioBuffer, hop);
        assert cols + ([Column(w, melDb)] + Hops(residual[HOP_LENGTH..], w, melDb).cols)
            == (cols + [Column(w, melDb)]) + Hops(residual[HOP_LENGTH..], w, melDb).cols;
        RollThenOverwrite(audioBuffer, hop);
        residual := residual[HOP_LENGTH..];
        audioBuffer := OverwriteTail(RollLeft(audioBuffer, HOP_LENGTH), hop);
        cols := cols + [Column(audioBuffer, melDb)];
      }
      HopsColumnsHeight(goal.cols, cols, Hops(residual, audioBuffer, melDb).cols);
      assert cols + [] == cols;
      if cols == [] {
        return None;
      }
      return Some(Stack(cols, N_MELS));
    }
  }

  lemma HopsColumnsHeight(all: seq<seq<real>>, cols: seq<seq<real>>, none: seq<seq<real>>)
    requires none == [] && all == cols + none
    requires forall t :: 0 <= t < |cols| ==> |cols[t]| == N_MELS
    ensures all == cols && forall t :: 0 <= t < |all| ==> |all[t]| == N_MELS
  {
    assert cols + [] == cols;
  }

  /**
   * The processor after a call, stated from the totals: the residual is the
   * unconsumed tail of old residual ++ chunk, and there is one column per
   * whole hop in it.
   */
  lemma ProcessCounts(residual: seq<real>, chunk: seq<real>, window: seq<real>, melDb: MelDb)
    requires HOP_LENGTH <= |window|
    ensures var h := Hops(residual + chunk, window, melDb);
      && |h.cols| * HOP_LENGTH + |h.rest| == |residual| + |chunk| && |h.rest| < HOP_LENGTH
      && (residual + chunk)[..|h.cols| * HOP_LENGTH] + h.rest == residual + chunk
  {
    HopsConsume(residual + chunk, window, melDb);
  }

  /**
   * compute_fft's input: shorter audio is zero-padded at the end to
   * FFT_SIZE samples, longer audio keeps its last FFT_SIZE samples.
   */
  function FftInput(chunk: seq<real>): (r: seq<real>)
    ensures |r| == FFT_SIZE
    ensures |chunk| < FFT_SIZE ==> r[..|chunk|] == chunk && forall i :: |chunk| <= i < FFT_SIZE ==> r[i] == 0.0
    ensures |chunk| >= FFT_SIZE ==> r == chunk[|chunk| - FFT_SIZE..]
  {
    if |chunk| < FFT_SIZE then chunk + Zeros(FFT_SIZE - |chunk|) else Last(chunk, FFT_SIZE)
  }

  /**
   * np.fft.rfftfreq(n, 1/rate): the n/2 + 1 non-negative bin frequencies
   * k * rate / n, rising from 0 to at most rate / 2.
   */
  function RfftFreqs(n: nat, rate: nat): (f: seq<real>)
    requires n > 0
    ensures |f| == n / 2 + 1
    ensures forall k :: 0 <= k < |f| ==> f[k] * n as real == k as real * rate as real
    ensures forall k :: 0 <= k < |f| ==> 0.0 <= f[k] && 2.0 * f[k] <= rate as real
  {
    seq(n / 2 + 1, k requires 0 <= k < n / 2 + 1 => Bin(k, n, rate))
  }

  /** The frequency of bin k, for the non-negative half of the spectrum. */
  function Bin(k: nat, n: nat, rate: nat): (x: real)
    requires n > 0 && k < n / 2 + 1
    ensures x * n as real == k as real * rate as real
    ensures 0.0 <= x && 2.0 * x <= rate as real
  {
    var kr, nr, r := k as real, n as real, rate as real;
    HalfBound(kr, nr, r);
    var x := kr * r / nr;
    assert x * nr == kr * r && 0.0 <= x && 2.0 * x <= r;
    x
  }

  /** A bin at most halfway along the spectrum lies at most at half the rate. */
  lemma HalfBound(k: real, n: real, r: real)
    requires n > 0.0 && r >= 0.0 && 0.0 <= k && 2.0 * k <= n
    ensures (k * r / n) * n == k * r
    ensures 0.0 <= k * r / n && 2.0 * (k * r / n) <= r
  {
    var x := k * r / n;
    assert x * n == k * r;
    MulMono(2.0 * k, n, r);
    assert (2.0 * x) * n <= r * n;
    CancelMono(2.0 * x, r, n);
  }

  lemma MulMono(a: real, b: real, c: real)
    requires a <= b && c >= 0.0
    ensures a * c <= b * c
  {
  }

  lemma CancelMono(a: real, b: real, c: real)
    requires c > 0.0 && a * c <= b * c
    ensures a <= b
  {
  }

  /** Consecutive frequency bins are rate / n apart, so the axis is strictly increasing when rate > 0. */
  lemma RfftFreqsIncreasing(n: nat, rate: nat, k: nat)
    requires n > 0 && rate > 0 && k + 1 < n / 2 + 1
    ensures RfftFreqs(n, rate)[k] < RfftFreqs(n, rate)[k + 1]
  {
    var f := RfftFreqs(n, rate);
    assert f[k] * n as real == k as real * rate as real;
    assert f[k + 1] * n as real == (k + 1) as real * rate as real;
    assert (k + 1) as real == k as real + 1.0;
    NextBinAbove(f[k], f[k + 1], n as real, k as real, rate as real);
  }

  /** a * c = k * r and b * c = (k + 1) * r with c, r > 0 put b above a. */
  lemma NextBinAbove(a: real, b: real, c: real, k: real, r: real)
    requires c > 0.0 && r > 0.0 && a * c == k * r && b * c == (k + 1.0) * r
    ensures a < b
  {
    assert (k + 1.0) * r == k * r + r;
    assert a * c < b * c;
  }

  /**
   * compute_fft: the frequencies of the FFT_SIZE / 2 + 1 = 513 bins and the
   * magnitude spectrum of the padded or truncated block.
   */
  function ComputeFft(chunk: seq<real>, magnitude: seq<real> -> seq<real>): (r: (seq<real>, seq<real>))
    ensures |r.0| == FFT_SIZE / 2 + 1 == 513
    ensures r.1 == magnitude(FftInput(chunk))
    ensures r.0[0] == 0.0 && r.0[512] == 12000.0
  {
    var f := RfftFreqs(FFT_SIZE, SAMPLE_RATE);
    assert f[512] * 1024.0 == 512.0 * 24000.0;
    (f, magnitude(FftInput(chunk)))
  }

  /** |rfft(hanning window * block)| as the viewers compute it: the FFT itself is not modelled. */
  type Magnitude = seq<real> -> seq<real>

  /**
   * The spectrum the viewers show in FFT mode: the magnitude of the chunk
   * with its mean removed, whose samples sum to zero.
   */
  function Spectrum(chunk: seq<real>, magnitude: Magnitude): (r: seq<real>)
    ensures exists x :: r == magnitude(x) && |x| == |chunk| && Sum(x) == 0.0
  {
    MeanRemovedSumsToZero(chunk);
    magnitude(MeanRemoved(chunk))
  }

  /** A constant offset in the chunk does not change the spectrum. */
  lemma SpectrumIgnoresOffset(chunk: seq<real>, c: real, magnitude: Magnitude)
    ensures Spectrum(seq(|chunk|, i requires 0 <= i < |chunk| => chunk[i] + c), magnitude) == Spectrum(chunk, magnitude)
  {
    MeanRemovedIgnoresOffset(chunk, c);
  }
}

=== FILE: simple_viewer.dfy ===
/**
 * The minimal TCP waveform monitor: the worker cuts at most one
 * 1024-byte frame per receive and hands it straight to the window, which
 * rolls its 5120-sample waveform and writes the frame's 512 samples at
 * the end.
 */
module SimpleViewer {
  import opened Pcm
  import opened Seqs
  import opened Framing

  const BUFFER_SIZE: nat := 1024
  /** BUFFER_SIZE // itemsize of int16 */
  const NUM_SAMPLES: nat := 512
  /** NUM_SAMPLES * 10 */
  const PLOT_DATA_SIZE: nat := 5120

  /** recv(BUFFER_SIZE) never returns more than BUFFER_SIZE bytes. */
  predicate ReceivesBounded(events: seq<RecvEvent>)
  {
    forall i :: 0 <= i < |events| ==> |DataOf(events[i])| <= BUFFER_SIZE
  }

  /** A receive that brings data: the loop goes on after it. */
  predicate Delivers(e: RecvEvent)
  {
    e.Received? && e.data != []
  }

  /**
   * Why the loop stopped after `consumed` events: every exception,
   * a timeout included, ends it, as does an empty receive.
   */
  predicate StoppedAt(events: seq<RecvEvent>, exit: LoopExit, consumed: nat)
  {
    && consumed <= |events|
    && (forall i :: 0 <= i < consumed - 1 ==> Delivers(events[i]))
    && (exit == PeerClosed ==> consumed > 0 && events[consumed - 1] == Received([]))
    && (exit == SocketError ==> consumed > 0 && !events[consumed - 1].Received?)
    && (exit == NoMoreEvents ==> consumed == |events|)
    && exit != ConnectFailed
  }

  /** A loop whose receives so far all brought data stops at a closing or failing receive. */
  lemma StoppedAtEnd(events: seq<RecvEvent>, consumed: nat, exit: LoopExit)
    requires consumed < |events| && forall i :: 0 <= i < consumed ==> Delivers(events[i])
    requires !Delivers(events[consumed])
    requires exit == (if events[consumed].Received? then PeerClosed else SocketError)
    ensures StoppedAt(events, exit, consumed + 1)
    ensures ReceivedBytes(events[..consumed + 1]) == ReceivedBytes(events[..consumed])
  {
    ReceivedBytesStep(events, consumed);
  }

  /** One more receive that brought data extends the run of such receives. */
  lemma DeliversStep(events: seq<RecvEvent>, consumed: nat)
    requires consumed < |events| && forall i :: 0 <= i < consumed ==> Delivers(events[i])
    requires Delivers(events[consumed])
    ensures forall i :: 0 <= i < consumed + 1 ==> Delivers(events[i])
  {
  }

  /** A loop whose every receive brought data stops after all of them. */
  lemma StoppedAtAll(events: seq<RecvEvent>)
    requires forall i :: 0 <= i < |events| ==> Delivers(events[i])
    ensures StoppedAt(events, NoMoreEvents, |events|)
  {
  }

  /** The receiving thread (DataWorker). */
  class DataWorker {
    var isRunning: bool

    constructor ()
      ensures isRunning
    {
      isRunning := true;
    }

    /** stop() */
    method Stop()
      modifies this
      ensures !isRunning
    {
      isRunning := false;
    }

    /**
     * run(): each receive is appended to the buffer and, if the buffer now
     * holds a whole frame, one frame is cut from its front and emitted.
     * No byte is lost or duplicated, every frame has BUFFER_SIZE bytes, and
     * because a receive brings at most BUFFER_SIZE bytes the leftover stays
     * below one frame.
     */
    method Run(connectOk: bool, events: seq<RecvEvent>) returns (exit: LoopExit, consumed: nat, emitted: seq<seq<real>>, leftover: seq<Byte>, ghost frames: seq<seq<Byte>>)
      requires ReceivesBounded(events)
      ensures !connectOk ==> exit == ConnectFailed && consumed == 0 && emitted == []
      ensures connectOk ==> StoppedAt(events, exit, consumed)
      ensures IsFraming(frames, leftover, ReceivedBytes(events[..consumed]), BUFFER_SIZE)
      ensures |frames| <= consumed
      ensures emitted == NormalisedFrames(frames)
    {
      if !connectOk {
        assert events[..0] == [];
        assert Flatten<Byte>([]) == [];
        return ConnectFailed, 0, [], [], [];
      }
      exit, consumed, emitted, leftover, frames := ReceiveLoop(events);
    }

    /**
     * The receive loop of run(), once connected: it stops at the first
     * empty or failing receive, or when the receives run out.
     */
    method ReceiveLoop(events: seq<RecvEvent>) returns (exit: LoopExit, consumed: nat, emitted: seq<seq<real>>, leftover: seq<Byte>, ghost frames: seq<seq<Byte>>)
      requires ReceivesBounded(events)
      ensures StoppedAt(events, exit, consumed)
      ensures IsFraming(frames, leftover, ReceivedBytes(events[..consumed]), BUFFER_SIZE)
      ensures |frames| <= consumed
      ensures emitted == NormalisedFrames(frames)
    {
      leftover, frames, emitted, consumed := [], [], [], 0;
      ghost var stream: seq<Byte> := [];
      assert events[..0] == [];
      assert Flatten<Byte>([]) == [];
      while consumed < |events|
        invariant consumed <= |events|
        invariant forall i :: 0 <= i < consumed ==> Delivers(events[i])
        invariant stream == ReceivedBytes(events[..consumed])
        invariant IsFraming(frames, leftover, stream, BUFFER_SIZE)
        invariant |frames| <= consumed
        invariant emitted == NormalisedFrames(frames)
      {
        var e := events[consumed];
        if !Delivers(e) {
          exit := if e.Received? then PeerClosed else SocketError;
          StoppedAtEnd(events, consumed, exit);
          consumed := consumed + 1;
          return;
        }
        ReceivedBytesStep(events, consumed);
        DeliversStep(events, consumed);
        assert |DataOf(e)| <= BUFFER_SIZE;
        emitted, leftover, frames := ReceiveOne(leftover, e.data, frames, stream, emitted);
        stream := stream + e.data;
        consumed := consumed + 1;
      }
      exit := NoMoreEvents;
      StoppedAtAll(events);
    }

    /** One receive: append it, then cut and emit at most one frame. */
    method ReceiveOne(buffer: seq<Byte>, data: seq<Byte>, ghost frames: seq<seq<Byte>>, ghost before: seq<Byte>, emitted: seq<seq<real>>)
      returns (emitted': seq<seq<real>>, rest: seq<Byte>, ghost frames': seq<seq<Byte>>)
      requires IsFraming(frames, buffer, before, BUFFER_SIZE) && |data| <= BUFFER_SIZE
      requires emitted == NormalisedFrames(frames)
      ensures IsFraming(frames', rest, before + data, BUFFER_SIZE)
      ensures |frames'| <= |frames| + 1
      ensures emitted' == NormalisedFrames(frames')
    {
      OneFramePerReceiveBounded(buffer, data, BUFFER_SIZE);
      var (frame, r) := TakeFrame(buffer + data, BUFFER_SIZE);
      rest := r;
      if frame.Some? {
        FramingSnoc(frames, buffer, before, data, frame.value, r, BUFFER_SIZE);
        NormalisedFramesSnoc(frames, frame.value);
        emitted', frames' := emitted + [NormalisedBlock(frame.value)], frames + [frame.value];
      } else {
        FramingKeep(frames, buffer, before, data, BUFFER_SIZE);
        emitted', frames' := emitted, frames;
      }
    }
  }

  /** The window (MainWindow): only the waveform is modelled. */
  class MainWindow {
    var yData: array<real>

    constructor ()
      ensures fresh(yData) && yData[..] == Zeros(PLOT_DATA_SIZE)
    {
      yData := new real[PLOT_DATA_SIZE](_ => 0.0);
      new;
      assert yData[..] == Zeros(PLOT_DATA_SIZE);
    }

    /**
     * update_plot: np.roll makes a new array shifted left by NUM_SAMPLES,
     * whose last NUM_SAMPLES cells then take the chunk. The waveform keeps
     * its length and ends with the chunk.
     */
    method UpdatePlot(chunk: seq<real>)
      requires yData.Length == PLOT_DATA_SIZE && |chunk| == NUM_SAMPLES
      modifies this
      ensures fresh(yData) && yData[..] == Last(old(yData[..]) + chunk, PLOT_DATA_SIZE)
    {
      var rolled := RollLeft(yData[..], NUM_SAMPLES);
      var shown := new real[PLOT_DATA_SIZE](i requires 0 <= i < PLOT_DATA_SIZE => rolled[i]);
      assert shown[..] == rolled;
      var start := PLOT_DATA_SIZE - NUM_SAMPLES;
      forall i | start <= i < PLOT_DATA_SIZE {
        shown[i] := chunk[i - start];
      }
      assert shown[..] == OverwriteTail(rolled, chunk);
      RollThenOverwrite(yData[..], chunk);
      yData := shown;
    }
  }
}

=== FILE: tcp_data_collector.dfy ===
/**
 * The TCP data collector: holding the Option key starts a thread that
 * appends every chunk read from the ring's TCP connection to a byte
 * buffer; releasing it waits for the thread and writes the buffer as the
 * next numbered WAV file of the gesture.
 */
module TcpDataCollector {
  import opened Text
  import opened Seqs
  import opened Collection
  import Framing
  import Pcm

  const SAMPLE_RATE: nat := 24000
  /** client.recv(BUFFER_SIZE) */
  const BUFFER_SIZE: nat := 1024

  /** ../data/{texture}, or ../data/{texture}/{person} when a person is given. */
  function SaveDir(texture: string, person: string): (dir: string)
    ensures person == [] ==> dir == "../data/" + texture
    ensures person != [] ==> dir == "../data/" + texture + "/" + person
  {
    "../data/" + texture + (if person == [] then "" else "/" + person)
  }

  /**
   * The bytes the receiving thread keeps from the outcomes of its reads:
   * the data of each read, in order. An empty read raises ConnectionError,
   * and so does a reset, aborted or broken connection: the thread
   * reconnects and the read adds nothing, so each of these is Received([]).
   * Failed is any other exception and TimedOut a socket timeout (not a
   * ConnectionError): either ends the thread, and nothing after it is read.
   */
  function Accumulated(events: seq<Framing.RecvEvent>): (bytes: seq<Pcm.Byte>)
  {
    if events == [] then []
    else match events[0]
      case Received(d) => d + Accumulated(events[1..])
      case TimedOut => []
      case Failed => []
  }

  /** Whether a read outcome ends the receiving thread. */
  predicate Ends(e: Framing.RecvEvent)
  {
    !e.Received?
  }

  /** The number of reads the thread performs: up to and including the first that ends it. */
  function ReadsDone(events: seq<Framing.RecvEvent>): (n: nat)
    ensures n <= |events|
    ensures forall i :: 0 <= i < n - 1 ==> !Ends(events[i])
    ensures n < |events| ==> n > 0 && Ends(events[n - 1])
  {
    if events == [] then 0
    else if Ends(events[0]) then 1
    else 1 + ReadsDone(events[1..])
  }

  /**
   * The buffer is the data of the reads before the first one that ends
   * the thread, joined in order: an outcome after that changes nothing.
   */
  lemma {:induction false} AccumulatedIsReceivedPrefix(events: seq<Framing.RecvEvent>, later: seq<Framing.RecvEvent>)
    requires exists i :: 0 <= i < |events| && Ends(events[i])
    ensures Accumulated(events + later) == Accumulated(events)
  {
    assert events != [];
    assert (events + later)[0] == events[0];
    if !Ends(events[0]) {
      var i :| 0 <= i < |events| && Ends(events[i]);
      assert i > 0 && Ends(events[1..][i - 1]);
      assert (events + later)[1..] == events[1..] + later;
      AccumulatedIsReceivedPrefix(events[1..], later);
    }
  }

  /** Reads that all deliver data contribute their bytes one after another. */
  lemma {:induction false} AccumulatedAppend(events: seq<Framing.RecvEvent>, later: seq<Framing.RecvEvent>)
    requires forall i :: 0 <= i < |events| ==> events[i].Received?
    ensures Accumulated(events + later) == Accumulated(events) + Accumulated(later)
  {
    if events == [] {
      assert events + later == later;
    } else {
      assert (events + later)[0] == events[0];
      assert (events + later)[1..] == events[1..] + later;
      AccumulatedAppend(events[1..], later);
    }
  }

  /** The file one save writes and the counters after it. */
  function SaveOutcome(counts: map<string, int>, texture: string, gesture: string, person: string,
                       buffer: seq<Pcm.Byte>): (r: (Wav, map<string, int>))
    ensures var g := OrDefault(gesture, "unknown");
      var count := NextCount(counts, g, 0);
      && r.1 == counts[g := count]
      && r.0.data == buffer && r.0.rate == SAMPLE_RATE
      && r.0.path == PathJoin(SaveDir(Strip(texture), Strip(person)), WavName(g, count))
  {
    var g := OrDefault(gesture, "unknown");
    var count := NextCount(counts, g, 0);
    (Wav(PathJoin(SaveDir(Strip(texture), Strip(person)), WavName(g, count)), SAMPLE_RATE, buffer), counts[g := count])
  }

  /** Two saves in a row from the same form write different files. */
  lemma SuccessiveSavesDoNotOverwrite(counts: map<string, int>, texture: string, gesture: string, person: string,
                                      first: seq<Pcm.Byte>, second: seq<Pcm.Byte>)
    ensures var (f1, counts') := SaveOutcome(counts, texture, gesture, person, first);
      SaveOutcome(counts', texture, gesture, person, second).0.path != f1.path
  {
    var g := OrDefault(gesture, "unknown");
    assert g != [];
    SuccessivePathsDiffer(SaveDir(Strip(texture), Strip(person)), counts, g, 0, 0);
  }

  /** The first file of a gesture in a session is numbered 1. */
  lemma FirstFileIsOne(counts: map<string, int>, texture: string, gesture: string, person: string, buffer: seq<Pcm.Byte>)
    requires OrDefault(gesture, "unknown") !in counts
    ensures SaveOutcome(counts, texture, gesture, person, buffer).1[OrDefault(gesture, "unknown")] == 1
  {
  }

  class Collector {
    var active: bool
    /** Whether start_collection has bound the Option keys; reset_app never unbinds them. */
    var keysBound: bool
    var recording: bool
    var frames: seq<seq<Pcm.Byte>>
    /** The bytes received since the key was pressed. */
    var buffer: seq<Pcm.Byte>
    var counts: map<string, int>
    var texture: string
    var gesture: string
    var person: string

    constructor ()
      ensures !active && !keysBound && !recording && frames == [] && buffer == [] && counts == map[]
      ensures texture == "skin" && gesture == "swipe" && person == "person_0"
    {
      active, keysBound, recording, frames, buffer, counts := false, false, false, [], [], map[];
      texture, gesture, person := "skin", "swipe", "person_0";
    }

    /** start_collection: when inactive, opens the stream, becomes active and binds the keys. */
    method StartCollection()
      modifies this`active, this`keysBound
      ensures active
      ensures keysBound == (old(keysBound) || !old(active))
    {
      if !active {
        active := true;
        keysBound := true;
      }
    }

    /**
     * on_key_press: when not recording, start recording with empty frames
     * and an empty buffer. The key is delivered once start_collection has
     * bound it, and still after reset_app, which leaves the binding.
     */
    method KeyPress()
      modifies this`recording, this`frames, this`buffer
      ensures keysBound && !old(recording) ==> recording && frames == [] && buffer == []
      ensures !(keysBound && !old(recording)) ==> recording == old(recording) && frames == old(frames) && buffer == old(buffer)
    {
      if keysBound && !recording {
        recording := true;
        frames := [];
        buffer := [];
      }
    }

    /**
     * receive_pcm_data: the thread started by the key press, given the
     * outcomes of the reads it makes while the key is held. It starts from
     * an empty buffer and keeps what Accumulated says.
     */
    method ReceivePcmData(events: seq<Framing.RecvEvent>) returns (readCount: nat)
      modifies this`buffer
      ensures !recording ==> readCount == 0 && buffer == []
      ensures recording ==> readCount == ReadsDone(events) && buffer == Accumulated(events)
    {
      buffer := [];
      readCount := 0;
      if !recording {
        return;
      }
      var acc: seq<Pcm.Byte> := [];
      var k := 0;
      while k < |events|
        invariant 0 <= k <= |events|
        invariant forall i :: 0 <= i < k ==> events[i].Received?
        invariant acc + Accumulated(events[k..]) == Accumulated(events)
        invariant ReadsDone(events) == k + ReadsDone(events[k..])
      {
        assert events[k..][0] == events[k] && events[k..][1..] == events[k + 1..];
        match events[k]
        case Received(d) =>
          // An empty read raises ConnectionError and the thread reconnects.
          if d != [] {
            acc := acc + d;
          }
          assert Accumulated(events[k..]) == d + Accumulated(events[k + 1..]);
          k := k + 1;
        case TimedOut =>
          break;
        case Failed =>
          break;
      }
      if k < |events| {
        k := k + 1;
      }
      buffer := acc;
      readCount := k;
    }

    /** on_key_release: once the key is bound and when recording, stop, wait for the thread and save. */
    method KeyRelease() returns (file: Option<Wav>)
      modifies this`recording, this`counts
      ensures !(keysBound && old(recording)) ==> file.None? && counts == old(counts) && recording == old(recording)
      ensures keysBound && old(recording) ==> !recording && file.Some?
      ensures keysBound && old(recording) ==> (file.value, counts) == SaveOutcome(old(counts), texture, gesture, person, buffer)
    {
      file := None;
      if keysBound && recording {
        recording := false;
        var f := SaveAudioFile();
        file := Some(f);
      }
    }

    /** save_audio_file: number the file for its gesture, store the number and write the buffer. */
    method SaveAudioFile() returns (file: Wav)
      modifies this`counts
      ensures (file, counts) == SaveOutcome(old(counts), texture, gesture, person, buffer)
    {
      var outcome := SaveOutcome(counts, texture, gesture, person, buffer);
      file, counts := outcome.0, outcome.1;
    }

    /**
     * reset_app: empty texture and gesture entries get "skin" and "swipe",
     * the person entry is always set back to "person_0", and the flags,
     * frames and counters are cleared. The keys stay bound, so a later
     * press starts recording even though collection is inactive.
     */
    method ResetApp()
      modifies this`texture, this`gesture, this`person, this`active, this`recording, this`frames, this`counts
      ensures texture == (if old(texture) == "" then "skin" else old(texture))
      ensures gesture == (if old(gesture) == "" then "swipe" else old(gesture))
      ensures person == "person_0"
      ensures !active && !recording && frames == [] && counts == map[]
    {
      if texture == "" {
        texture := "skin";
      }
      if gesture == "" {
        gesture := "swipe";
      }
      person := "person_0";
      active, recording, frames, counts := false, false, [], map[];
    }
  }

  /**
   * reset_app clears is_collecting_active but leaves the keys bound, so a
   * press after start_collection and reset_app starts a recording while
   * the collector is inactive. (A collector that is active has always
   * bound its keys.)
   */
  method PressAfterReset(c: Collector)
    requires c.active ==> c.keysBound
    modifies c
    ensures c.recording && !c.active && c.frames == [] && c.buffer == []
  {
    c.StartCollection();
    c.ResetApp();
    c.KeyPress();
  }
}

=== FILE: tcp_viewer.dfy ===
/**
 * The TCP Qt viewer: a worker cuts the TCP stream into 2048-byte frames
 * and emits each as 1024 normalised samples; the main window queues them
 * and on every timer tick plots the oldest one, as a scrolling waveform or
 * as the magnitude spectrum of the mean-removed chunk.
 */
module TcpViewer {
  import opened Pcm
  import opened Seqs
  import opened Framing
  import opened SignalProcess

  const BUFFER_SIZE: nat := 2048
  /** BUFFER_SIZE // itemsize of int16 */
  const NUM_SAMPLES: nat := 1024
  /** NUM_SAMPLES * 10 */
  const PLOT_DATA_SIZE: nat := 10240

  /** The receiving thread (DataWorker). */
  class DataWorker {
    var isRunning: bool

    constructor ()
      ensures isRunning
    {
      isRunning := true;
    }

    /** stop() */
    method Stop()
      modifies this
      ensures !isRunning
    {
      isRunning := false;
    }

    /**
     * run(): after connecting, every receive is appended to the byte buffer
     * and each whole BUFFER_SIZE frame at its front is cut off and emitted;
     * a timeout is ignored, an empty receive or another error ends the
     * loop. What was emitted is exactly the frames of the bytes received,
     * in order, and fewer than BUFFER_SIZE bytes are left over.
     */
    method Run(connectOk: bool, events: seq<RecvEvent>) returns (exit: LoopExit, consumed: nat, emitted: seq<seq<real>>, leftover: seq<Byte>, ghost frames: seq<seq<Byte>>)
      ensures !connectOk ==> exit == ConnectFailed && consumed == 0 && emitted == []
      ensures connectOk ==> exit != ConnectFailed && ReceiveLoopDone(events, exit, consumed)
      ensures IsFraming(frames, leftover, ReceivedBytes(events[..consumed]), BUFFER_SIZE)
      ensures emitted == NormalisedFrames(frames)
    {
      leftover, frames, emitted, consumed := [], [], [], 0;
      ghost var stream: seq<Byte> := [];
      assert events[..0] == [];
      assert Flatten<Byte>([]) == [];
      if !connectOk {
        exit := ConnectFailed;
        return;
      }
      while consumed < |events|
        invariant consumed <= |events|
        invariant forall i :: 0 <= i < consumed ==> !EndsLoop(events[i])
        invariant stream == ReceivedBytes(events[..consumed])
        invariant IsFraming(frames, leftover, stream, BUFFER_SIZE)
        invariant emitted == NormalisedFrames(frames)
      {
        var e := events[consumed];
        if EndsLoop(e) {
          exit := if e.Failed? then SocketError else PeerClosed;
          LoopEndsAt(events, consumed, exit);
          consumed := consumed + 1;
          return;
        }
        LoopContinues(events, consumed);
        if e.Received? {
          emitted, leftover, frames := ReceiveData(leftover, e.data, frames, stream, emitted);
        } else {
          assert stream + DataOf(e) == stream;
        }
        stream := stream + DataOf(e);
        consumed := consumed + 1;
      }
      exit := NoMoreEvents;
    }

    /** Append received bytes to the buffer and emit the frames they complete. */
    method ReceiveData(buffer: seq<Byte>, data: seq<Byte>, ghost frames: seq<seq<Byte>>, ghost before: seq<Byte>, emitted: seq<seq<real>>)
      returns (emitted': seq<seq<real>>, rest: seq<Byte>, ghost frames': seq<seq<Byte>>)
      requires IsFraming(frames, buffer, before, BUFFER_SIZE)
      requires emitted == NormalisedFrames(frames)
      ensures IsFraming(frames', rest, before + data, BUFFER_SIZE)
      ensures emitted' == NormalisedFrames(frames')
    {
      var newFrames;
      newFrames, rest := DrainFrames(buffer + data, BUFFER_SIZE);
      FramingAppend(frames, buffer, before, newFrames, rest, data, BUFFER_SIZE);
      NormalisedFramesAppend(frames, newFrames);
      frames' := frames + newFrames;
      emitted' := emitted + NormalisedFrames(newFrames);
    }
  }

  /** Every emitted chunk holds NUM_SAMPLES samples. */
  lemma EmittedChunkSizes(frames: seq<seq<Byte>>)
    requires forall i :: 0 <= i < |frames| ==> |frames[i]| == BUFFER_SIZE
    ensures |NormalisedFrames(frames)| == |frames|
    ensures forall i :: 0 <= i < |frames| ==> |NormalisedFrames(frames)[i]| == NUM_SAMPLES
  {
    forall i | 0 <= i < |frames|
      ensures |NormalisedFrames(frames)| == |frames| && |NormalisedFrames(frames)[i]| == NUM_SAMPLES
    {
      NormalisedFrameAt(frames, i);
    }
    if frames == [] {
      assert NormalisedFrames(frames) == [];
    }
  }

  /** The main window (MainWindow). */
  class MainWindow {
    /** data_buffer: a deque of chunks, oldest first. */
    var dataBuffer: seq<seq<real>>
    /** y_data: updated in place by the timer path, replaced by np.roll in update_plot. */
    var yData: array<real>
    var waveformMode: bool
    var fftPower: seq<real>
    const fftFreqs: seq<real>
    const magnitude: Magnitude

    predicate Valid()
      reads this, yData
    {
      && yData.Length == PLOT_DATA_SIZE
      && |fftFreqs| == NUM_SAMPLES / 2 + 1
      && (forall i :: 0 <= i < |dataBuffer| ==> |dataBuffer[i]| == NUM_SAMPLES)
    }

    /**
     * The waveform starts as zeros, the spectrum as zeros over the
     * rfftfreq(NUM_SAMPLES, 1 / SAMPLE_RATE) bins: 0 Hz to 12000 Hz in
     * steps of 23.4375 Hz.
     */
    constructor (magnitude: Magnitude)
      ensures Valid() && fresh(yData) && dataBuffer == [] && waveformMode
      ensures yData[..] == Zeros(PLOT_DATA_SIZE) && fftPower == Zeros(NUM_SAMPLES / 2 + 1)
      ensures fftFreqs[0] == 0.0 && fftFreqs[1] == 23.4375 && fftFreqs[NUM_SAMPLES / 2] == 12000.0
      ensures this.magnitude == magnitude
    {
      dataBuffer := [];
      yData := new real[PLOT_DATA_SIZE](_ => 0.0);
      waveformMode := true;
      fftFreqs := RfftFreqs(NUM_SAMPLES, SAMPLE_RATE);
      fftPower := Zeros(NUM_SAMPLES / 2 + 1);
      this.magnitude := magnitude;
      new;
      assert yData[..] == Zeros(PLOT_DATA_SIZE);
      assert fftFreqs[1] * 1024.0 == 24000.0;
      assert fftFreqs[512] * 1024.0 == 512.0 * 24000.0;
    }

    /** toggle_display_mode */
    method ToggleDisplayMode()
      modifies this`waveformMode
      ensures waveformMode == !old(waveformMode)
    {
      waveformMode := !waveformMode;
    }

    /** queue_data; the worker only emits chunks of NUM_SAMPLES samples. */
    method QueueData(chunk: seq<real>)
      requires Valid() && |chunk| == NUM_SAMPLES
      modifies this`dataBuffer
      ensures Valid() && dataBuffer == old(dataBuffer) + [chunk]
    {
      dataBuffer := dataBuffer + [chunk];
    }

    /**
     * triggered_update_plot: with an empty queue nothing happens; otherwise
     * the oldest chunk is taken and either scrolled into the waveform or
     * turned into the spectrum; the other display keeps its data.
     */
    method TriggeredUpdatePlot()
      requires Valid()
      modifies this`dataBuffer, this`fftPower, yData
      ensures Valid()
      ensures old(dataBuffer) == [] ==> dataBuffer == [] && yData[..] == old(yData[..]) && fftPower == old(fftPower)
      ensures old(dataBuffer) != [] ==>
        var chunk := old(dataBuffer)[0];
        && dataBuffer == old(dataBuffer)[1..]
        && (waveformMode ==> yData[..] == ShiftIn(old(yData[..]), chunk) && fftPower == old(fftPower))
        && (!waveformMode ==> yData[..] == old(yData[..]) && fftPower == Spectrum(chunk, magnitude))
    {
      if dataBuffer == [] {
        return;
      }
      var chunk := dataBuffer[0];
      dataBuffer := dataBuffer[1..];
      if waveformMode {
        ShiftInPlace(yData, chunk);
      } else {
        fftPower := Spectrum(chunk, magnitude);
      }
    }

    /**
     * update_plot (the direct path, not connected to the worker): np.roll
     * builds a new waveform array whose tail is then overwritten. It shows
     * the same waveform as the timer path.
     */
    method UpdatePlot(chunk: seq<real>)
      requires Valid() && |chunk| == NUM_SAMPLES
      modifies this`yData, this`fftPower
      ensures Valid()
      ensures waveformMode ==> fresh(yData) && yData[..] == ShiftIn(old(yData[..]), chunk) && fftPower == old(fftPower)
      ensures !waveformMode ==> yData == old(yData) && fftPower == Spectrum(chunk, magnitude)
    {
      if waveformMode {
        var rolled := RollLeft(yData[..], NUM_SAMPLES);
        var shown := new real[PLOT_DATA_SIZE](i requires 0 <= i < PLOT_DATA_SIZE => rolled[i]);
        assert shown[..] == rolled;
        var start := PLOT_DATA_SIZE - NUM_SAMPLES;
        forall i | start <= i < PLOT_DATA_SIZE {
          shown[i] := chunk[i - start];
        }
        assert shown[..] == OverwriteTail(rolled, chunk);
        RollThenOverwrite(yData[..], chunk);
        yData := shown;
      } else {
        fftPower := Spectrum(chunk, magnitude);
      }
    }
  }
}

=== FILE: text.dfy ===
/**
 * The string handling the collectors and the serial parser depend on:
 * str.strip, int(), str(int), str.split and os.path.join, over ASCII.
 */
module Text {
  datatype Option<T> = None | Some(value: T)

  /** The ASCII characters str.isspace accepts. */
  predicate IsSpace(c: char)
  {
    c == ' ' || c == '\t' || c == '\n' || c == '\r' || c == '\U{B}' || c == '\U{C}'
    || c == '\U{1C}' || c == '\U{1D}' || c == '\U{1E}' || c == '\U{1F}'
  }

  function StripLeft(s: string): (r: string)
    ensures |r| <= |s| && r == s[|s| - |r|..]
    ensures r == [] || !IsSpace(r[0])
    ensures forall i :: 0 <= i < |s| - |r| ==> IsSpace(s[i])
  {
    if s != [] && IsSpace(s[0]) then StripLeft(s[1..]) else s
  }

  function StripRight(s: string): (r: string)
    ensures |r| <= |s| && r == s[..|r|]
    ensures r == [] || !IsSpace(r[|r| - 1])
    ensures forall i :: |r| <= i < |s| ==> IsSpace(s[i])
  {
    if s != [] && IsSpace(s[|s| - 1]) then StripRight(s[..|s| - 1]) else s
  }

  /**
   * str.strip(): the longest middle part of s that neither starts nor ends
   * with whitespace; it is empty exactly when s is all whitespace.
   */
  function Strip(s: string): (r: string)
    ensures |r| <= |s|
    ensures r == [] || (!IsSpace(r[0]) && !IsSpace(r[|r| - 1]))
    ensures r == [] <==> forall i :: 0 <= i < |s| ==> IsSpace(s[i])
  {
    var l := StripLeft(s);
    var r := StripRight(l);
    assert r != [] ==> r[0] == l[0];
    assert l != [] ==> r != [];
    r
  }

  /** A string without surrounding whitespace is its own strip. */
  lemma StripClean(s: string)
    requires s == [] || (!IsSpace(s[0]) && !IsSpace(s[|s| - 1]))
    ensures Strip(s) == s
  {
    assert StripLeft(s) == s;
    assert StripRight(s) == s;
  }

  /** Stripping a stripped string changes nothing. */
  lemma StripIdempotent(s: string)
    ensures Strip(Strip(s)) == Strip(s)
  {
    StripClean(Strip(s));
  }

  predicate IsDigit(c: char)
  {
    '0' <= c <= '9'
  }

  predicate AllDigits(s: string)
  {
    forall i :: 0 <= i < |s| ==> IsDigit(s[i])
  }

  function DigitValue(c: char): (d: nat)
    requires IsDigit(c)
    ensures d < 10
  {
    (c as int - '0' as int) as nat
  }

  function DigitChar(d: nat): (c: char)
    requires d < 10
    ensures IsDigit(c) && DigitValue(c) == d
  {
    ('0' as int + d) as char
  }

  /** The value of a run of decimal digits, most significant first. */
  function DigitsValue(s: string): nat
    requires AllDigits(s)
  {
    if s == [] then 0 else DigitsValue(s[..|s| - 1]) * 10 + DigitValue(s[|s| - 1])
  }

  /** str(n) for a natural number: decimal digits without leading zeros. */
  function NatToString(n: nat): (s: string)
    ensures s != [] && AllDigits(s)
    ensures |s| > 1 ==> s[0] != '0'
  {
    if n < 10 then [DigitChar(n)] else NatToString(n / 10) + [DigitChar(n % 10)]
  }

  /** Reading back the digits of str(n) gives n. */
  lemma {:induction false} NatToStringRoundTrip(n: nat)
    ensures DigitsValue(NatToString(n)) == n
  {
    if n >= 10 {
      NatToStringRoundTrip(n / 10);
      var s := NatToString(n);
      assert s[..|s| - 1] == NatToString(n / 10);
    }
  }

  /** str(i) for any integer: a minus sign before the digits of |i| when negative. */
  function IntToString(i: int): (s: string)
    ensures s != []
  {
    if i < 0 then "-" + NatToString(-i) else NatToString(i)
  }

  /** A decimal literal int() accepts: an optional sign, then one or more digits. */
  predicate IsIntLiteral(t: string)
  {
    |t| > 0 && (AllDigits(t) || ((t[0] == '-' || t[0] == '+') && |t| > 1 && AllDigits(t[1..])))
  }

  /**
   * int(s) for a decimal literal: surrounding whitespace is ignored, an
   * optional sign is followed by at least one digit; anything else is a
   * ValueError, modelled as None.
   */
  function ParseInt(s: string): (r: Option<int>)
    ensures Strip(s) != [] && AllDigits(Strip(s)) ==> r == Some(DigitsValue(Strip(s)) as int)
  {
    var t := Strip(s);
    if |t| > 0 && (t[0] == '-' || t[0] == '+') then
      var ds := t[1..];
      if |ds| > 0 && AllDigits(ds) then Some(if t[0] == '-' then -(DigitsValue(ds) as int) else DigitsValue(ds) as int) else None
    else if |t| > 0 && AllDigits(t) then Some(DigitsValue(t) as int)
    else None
  }

  /**
   * int(s) succeeds exactly on the literals IsIntLiteral describes, and a
   * signed literal has the value of its digits, negated after '-'.
   */
  lemma ParseIntAccepts(s: string)
    ensures ParseInt(s).Some? <==> IsIntLiteral(Strip(s))
    ensures var t := Strip(s); |t| > 1 && t[0] == '+' && AllDigits(t[1..]) ==> ParseInt(s) == Some(DigitsValue(t[1..]) as int)
    ensures var t := Strip(s); |t| > 1 && t[0] == '-' && AllDigits(t[1..]) ==> ParseInt(s) == Some(-(DigitsValue(t[1..]) as int))
  {
  }

  /** int(str(i)) == i. */
  lemma IntToStringRoundTrip(i: int)
    ensures ParseInt(IntToString(i)) == Some(i)
  {
    var s := IntToString(i);
    var n: nat := if i < 0 then -i else i;
    var d := NatToString(n);
    NatToStringRoundTrip(n);
    assert IsDigit(d[0]) && IsDigit(d[|d| - 1]);
    assert s[|s| - 1] == d[|d| - 1];
    StripClean(s);
    if i < 0 {
      assert s[1..] == d;
    } else {
      assert s[0] == d[0];
    }
  }

  /** Number of occurrences of c in s. */
  function Count(s: string, c: char): nat
  {
    if s == [] then 0 else (if s[0] == c then 1 else 0) + Count(s[1..], c)
  }

  /** The index of the first occurrence of c in s, if any. */
  function Find(s: string, c: char): (r: Option<nat>)
    ensures r.Some? ==> r.value < |s| && s[r.value] == c && c !in s[..r.value]
    ensures r.None? ==> c !in s
  {
    if s == [] then None
    else if s[0] == c then Some(0)
    else match Find(s[1..], c)
      case None => None
      case Some(k) =>
        assert s[..k + 1] == [s[0]] + s[1..][..k];
        Some(k + 1)
  }

  /** str.split(sep) with a one-character separator. */
  function Split(s: string, sep: char): (parts: seq<string>)
    ensures |parts| == Count(s, sep) + 1
    ensures forall i :: 0 <= i < |parts| ==> sep !in parts[i]
    decreases |s|
  {
    match Find(s, sep)
      case None =>
        CountAbsent(s, sep);
        [s]
      case Some(k) =>
        CountSplit(s, sep, k);
        [s[..k]] + Split(s[k + 1..], sep)
  }

  lemma {:induction false} CountAbsent(s: string, c: char)
    requires c !in s
    ensures Count(s, c) == 0
  {
    if s != [] {
      assert c !in s[1..];
      CountAbsent(s[1..], c);
    }
  }

  lemma {:induction false} CountSplit(s: string, c: char, k: nat)
    requires k < |s| && s[k] == c && c !in s[..k]
    ensures Count(s, c) == 1 + Count(s[k + 1..], c)
  {
    if k > 0 {
      assert c !in s[1..][..k - 1];
      CountSplit(s[1..], c, k - 1);
      assert s[1..][k..] == s[k + 1..];
    }
  }

  function Join(parts: seq<string>, sep: char): string
    requires parts != []
  {
    if |parts| == 1 then parts[0] else parts[0] + [sep] + Join(parts[1..], sep)
  }

  /** Splitting and re-joining gives back the string. */
  lemma {:induction false} SplitJoin(s: string, sep: char)
    ensures Join(Split(s, sep), sep) == s
    decreases |s|
  {
    match Find(s, sep)
      case None =>
      case Some(k) =>
        SplitJoin(s[k + 1..], sep);
        assert s == s[..k] + [sep] + s[k + 1..];
  }

  /** Two separator-free texts joined by one separator split back into the two. */
  lemma SplitAround(a: string, b: string, sep: char)
    requires sep !in a && sep !in b
    ensures Count(a + [sep] + b, sep) == 1
    ensures Split(a + [sep] + b, sep) == [a, b]
  {
    var s := a + [sep] + b;
    CountAbsent(b, sep);
    assert s[..|a|] == a && s[|a|] == sep;
    CountSplit(s, sep, |a|);
    assert s[|a| + 1..] == b;
    SplitOne(s, sep);
  }

  /**
   * The split parts of a string with exactly one separator are the text
   * before and after it.
   */
  lemma SplitOne(s: string, sep: char)
    requires Count(s, sep) == 1
    ensures Find(s, sep).Some?
    ensures var k := Find(s, sep).value; Split(s, sep) == [s[..k], s[k + 1..]]
  {
    if Find(s, sep).None? {
      CountAbsent(s, sep);
    } else {
      var k := Find(s, sep).value;
      CountSplit(s, sep, k);
      var t := s[k + 1..];
      if Find(t, sep).Some? {
        CountSplit(t, sep, Find(t, sep).value);
      }
    }
  }

  /**
   * os.path.join(a, b) on POSIX: an absolute b replaces a; otherwise a
   * slash is inserted unless a is empty or already ends with one.
   */
  function PathJoin(a: string, b: string): (r: string)
    ensures |b| > 0 && b[0] == '/' ==> r == b
    ensures !(|b| > 0 && b[0] == '/') ==> |a| + |b| <= |r| && r[..|a|] == a && r[|r| - |b|..] == b
  {
    if |b| > 0 && b[0] == '/' then b
    else if a == [] || a[|a| - 1] == '/' then a + b
    else a + "/" + b
  }

  function ToLowerChar(c: char): char
  {
    if 'A' <= c <= 'Z' then (c as int + 32) as char else c
  }

  /** ASCII lower-casing, as used for case-insensitive matching. */
  function ToLower(s: string): (r: string)
    ensures |r| == |s| && forall i :: 0 <= i < |s| ==> r[i] == ToLowerChar(s[i])
  {
    seq(|s|, i requires 0 <= i < |s| => ToLowerChar(s[i]))
  }
}

=== FILE: udp_data_collector.dfy ===
/**
 * The UDP data collector: datagrams are received all the time into a
 * short history of the last 200 packets; holding the Option key records
 * them, starting with up to five packets of pre-roll from that history;
 * releasing the key writes the recording as a numbered WAV file unless the
 * estimated packet loss is above 10 %.
 */
module UdpDataCollector {
  import opened Text
  import opened Seqs
  import opened Collection
  import Framing
  import Pcm

  const SAMPLE_RATE: nat := 24000
  const BUFFER_SIZE: nat := 1024
  /** recvfrom(BUFFER_SIZE * 2) */
  const RECV_SIZE: nat := 2048
  /** stream_buffer = deque(maxlen=200) */
  const STREAM_PACKETS: nat := 200
  /** list(stream_buffer)[-5:] */
  const PRE_ROLL_PACKETS: nat := 5
  /** LESS_THRESHOLD, in percent. */
  const LOSS_THRESHOLD: real := 10.0

  /** ../data/experiment/{texture}, or .../{texture}/person_{person} when a person is given. */
  function SaveDir(texture: string, person: string): (dir: string)
    ensures person == [] ==> dir == "../data/experiment/" + texture
    ensures person != [] ==> dir == "../data/experiment/" + texture + "/person_" + person
  {
    "../data/experiment/" + texture + (if person == [] then "" else "/person_" + person)
  }

  class Collector {
    var active: bool
    var recording: bool
    var recorded: seq<seq<Pcm.Byte>>
    var stream: seq<seq<Pcm.Byte>>
    var counts: map<string, int>
    var startTime: real
    var actualDuration: real
    /** The Texture, Gesture, Person and Index entries of the form. */
    var texture: string
    var gesture: string
    var person: string
    var index: string

    /** The history never holds more than 200 packets. */
    predicate Valid()
      reads this
    {
      |stream| <= STREAM_PACKETS
    }

    constructor ()
      ensures Valid() && !active && !recording && recorded == [] && stream == [] && counts == map[]
      ensures texture == "test_tex" && gesture == "swipe" && person == "person_1" && index == "1"
    {
      active, recording, recorded, stream, counts := false, false, [], [], map[];
      startTime, actualDuration := 0.0, 0.0;
      texture, gesture, person, index := "test_tex", "swipe", "person_1", "1";
    }

    /** start_collection: nothing when already active; otherwise active once the socket is bound. */
    method StartCollection(bindOk: bool)
      modifies this`active
      ensures active == (old(active) || bindOk)
    {
      if active {
        return;
      }
      if bindOk {
        active := true;
      }
    }

    /**
     * One pass of receive_pcm_data: while active, a datagram (cut to
     * 2048 bytes) joins the history and, while recording, the recording; a
     * timeout is skipped; any other error ends the receiving thread.
     */
    method Receive(e: Framing.RecvEvent) returns (goOn: bool)
      requires Valid()
      modifies this`stream, this`recorded
      ensures Valid()
      ensures goOn <==> active && !e.Failed?
      ensures active && e.Received? ==>
        var data := Framing.RecvFrom(e.data, RECV_SIZE);
        && stream == Extend(old(stream), [data], STREAM_PACKETS)
        && recorded == (if recording then old(recorded) + [data] else old(recorded))
      ensures !(active && e.Received?) ==> stream == old(stream) && recorded == old(recorded)
    {
      if !active {
        return false;
      }
      match e {
        case Received(d) =>
          var data := Framing.RecvFrom(d, RECV_SIZE);
          stream := Extend(stream, [data], STREAM_PACKETS);
          if recording {
            recorded := recorded + [data];
          }
          goOn := true;
        case TimedOut =>
          goOn := true;
        case Failed =>
          goOn := false;
      }
    }

    /** on_key_press: when active and not recording, start recording with the last five packets as pre-roll. */
    method KeyPress(now: real)
      modifies this`recording, this`startTime, this`recorded
      ensures old(!recording && active) ==> recording && startTime == now && recorded == Last(stream, PRE_ROLL_PACKETS)
      ensures !old(!recording && active) ==> recording == old(recording) && recorded == old(recorded) && startTime == old(startTime)
    {
      if !recording && active {
        recording := true;
        startTime := now;
        recorded := Last(stream, PRE_ROLL_PACKETS);
      }
    }

    /** on_key_release: when recording, stop, measure how long the key was held and save. */
    method KeyRelease(now: real) returns (file: Option<Wav>)
      modifies this`recording, this`actualDuration, this`counts
      ensures !old(recording) ==> file.None? && counts == old(counts) && actualDuration == old(actualDuration)
      ensures old(recording) ==> !recording && actualDuration == now - startTime
      ensures old(recording) ==> (file, counts) == SaveOutcome(old(counts), texture, gesture, person, index, recorded, actualDuration)
    {
      file := None;
      if recording {
        recording := false;
        actualDuration := now - startTime;
        file := SaveAudioFile();
      }
    }

    /**
     * save_audio_file: number the file for its gesture, estimate the loss
     * and either abort (loss above 10 %, counter unchanged) or store the
     * number and write the joined packets.
     */
    method SaveAudioFile() returns (file: Option<Wav>)
      modifies this`counts
      ensures (file, counts) == SaveOutcome(old(counts), texture, gesture, person, index, recorded, actualDuration)
    {
      var g := OrDefault(gesture, "test");
      var p := Strip(person);
      var t := OrDefault(texture, "test");
      var count := NextCount(counts, g, InitialCount(index));
      var data := Flatten(recorded);
      var duration := Duration(|data|, SAMPLE_RATE);
      var loss := ClampedLossRate(duration, actualDuration);
      if loss > LOSS_THRESHOLD {
        return None;
      }
      counts := counts[g := count];
      file := Some(Wav(PathJoin(SaveDir(t, p), WavName(g, count)), SAMPLE_RATE, data));
    }

    /** reset_app: inactive, not recording, counters forgotten. */
    method ResetApp()
      modifies this`active, this`recording, this`counts
      ensures !active && !recording && counts == map[]
    {
      active, recording, counts := false, false, map[];
    }
  }

  /**
   * What a save produces from the counters, the form and the recording:
   * the file written, if any, and the new counters.
   */
  function SaveOutcome(counts: map<string, int>, texture: string, gesture: string, person: string, index: string,
                       recorded: seq<seq<Pcm.Byte>>, actual: real): (r: (Option<Wav>, map<string, int>))
    ensures var g := OrDefault(gesture, "test");
      var loss := ClampedLossRate(Duration(|Flatten(recorded)|, SAMPLE_RATE), actual);
      && (r.0.Some? <==> loss <= LOSS_THRESHOLD)
      && (r.0.None? ==> r.1 == counts)
      && (r.0.Some? ==> r.1 == counts[g := NextCount(counts, g, InitialCount(index))])
      && (r.0.Some? ==> r.0.value.data == Flatten(recorded) && r.0.value.rate == SAMPLE_RATE)
      && (r.0.Some? ==> r.0.value.path == PathJoin(SaveDir(OrDefault(texture, "test"), Strip(person)),
                                                   WavName(g, NextCount(counts, g, InitialCount(index)))))
  {
    var g := OrDefault(gesture, "test");
    var count := NextCount(counts, g, InitialCount(index));
    var data := Flatten(recorded);
    if ClampedLossRate(Duration(|data|, SAMPLE_RATE), actual) > LOSS_THRESHOLD then (None, counts)
    else (Some(Wav(PathJoin(SaveDir(OrDefault(texture, "test"), Strip(person)), WavName(g, count)), SAMPLE_RATE, data)), counts[g := count])
  }

  /**
   * A save is aborted exactly when the recording holds less than 90 % of
   * the seconds of audio the key was held for (at 48000 bytes per second).
   */
  lemma AbortsExactlyOnShortRecording(counts: map<string, int>, texture: string, gesture: string, person: string, index: string,
                                      recorded: seq<seq<Pcm.Byte>>, actual: real)
    requires actual > 0.0
    ensures SaveOutcome(counts, texture, gesture, person, index, recorded, actual).0.None?
      <==> Duration(|Flatten(recorded)|, SAMPLE_RATE) * 100.0 < 90.0 * actual
  {
    LossAboveThreshold(Duration(|Flatten(recorded)|, SAMPLE_RATE), actual, LOSS_THRESHOLD);
  }

  /**
   * Two saves in a row from the same form, both written, go to different
   * files: the second is numbered one above the first.
   */
  lemma SuccessiveSavesDoNotOverwrite(counts: map<string, int>, texture: string, gesture: string, person: string,
                                      index: string, laterIndex: string,
                                      first: seq<seq<Pcm.Byte>>, second: seq<seq<Pcm.Byte>>, actual1: real, actual2: real)
    requires SaveOutcome(counts, texture, gesture, person, index, first, actual1).0.Some?
    requires var counts' := SaveOutcome(counts, texture, gesture, person, index, first, actual1).1;
      SaveOutcome(counts', texture, gesture, person, laterIndex, second, actual2).0.Some?
    ensures var (f1, counts') := SaveOutcome(counts, texture, gesture, person, index, first, actual1);
      SaveOutcome(counts', texture, gesture, person, laterIndex, second, actual2).0.value.path != f1.value.path
  {
    var g := OrDefault(gesture, "test");
    assert g != [];
    SuccessivePathsDiffer(SaveDir(OrDefault(texture, "test"), Strip(person)), counts, g, InitialCount(index), InitialCount(laterIndex));
  }
}

=== FILE: udp_fft.dfy ===
/**
 * The UDP FFT monitor's analysis thread (analyze_signal): datagrams of at
 * most 1024 bytes are appended to a byte buffer, every whole 1024-byte
 * frame is cut off its front and unpacked as 512 little-endian int16
 * samples, and the non-negative-frequency half of its amplitude spectrum
 * is published on a queue.
 */
module UdpFft {
  import opened Pcm
  import opened Seqs
  import opened Framing

  const BUFFER_SIZE: nat := 1024
  const SAMPLE_RATE: nat := 44100
  /** BUFFER_SIZE // 2, unpacked with '<512h'. */
  const NUM_SAMPLES: nat := 512

  /** |np.fft.fft(x)|: the FFT itself is not modelled. */
  type FftAbs = seq<real> -> seq<real>

  /**
   * np.fft.fftfreq(n, 1/rate): bin i has frequency i * rate / n for the
   * first (n - 1) / 2 + 1 bins and (i - n) * rate / n for the rest.
   */
  function FftFreq(n: nat, rate: nat): (f: seq<real>)
    requires n > 0
    ensures |f| == n
    ensures forall i :: 0 <= i < n ==> f[i] * n as real == (if i <= (n - 1) / 2 then i else i - n) as real * rate as real
  {
    seq(n, i requires 0 <= i < n => BinFreq(i, n, rate))
  }

  /** The frequency of bin i of fftfreq: non-negative exactly for the first (n - 1) / 2 + 1 bins. */
  function BinFreq(i: nat, n: nat, rate: nat): (x: real)
    requires i < n
    ensures x * n as real == (if i <= (n - 1) / 2 then i else i - n) as real * rate as real
    ensures rate > 0 ==> (x >= 0.0 <==> i <= (n - 1) / 2)
  {
    var k := if i <= (n - 1) / 2 then i else i - n;
    var y := k as real * rate as real;
    SignOfProduct(k, rate);
    SignOfQuotient(y, n as real);
    y / n as real
  }

  /** Boolean-mask selection freq >= 0, applied to the frequencies and the amplitudes alike. */
  function NonNegative(freq: seq<real>, amp: seq<real>): (r: (seq<real>, seq<real>))
    requires |freq| == |amp|
    ensures |r.0| == |r.1| <= |freq|
    ensures forall i :: 0 <= i < |r.0| ==> r.0[i] >= 0.0
    decreases |freq|
  {
    if freq == [] then ([], [])
    else
      var t := NonNegative(freq[1..], amp[1..]);
      if freq[0] >= 0.0 then ([freq[0]] + t.0, [amp[0]] + t.1) else t
  }

  /** When the non-negative frequencies are exactly the first m, the mask keeps exactly the first m bins. */
  lemma {:induction false} NonNegativePrefix(freq: seq<real>, amp: seq<real>, m: nat)
    requires |freq| == |amp| && m <= |freq|
    requires forall i :: 0 <= i < m ==> freq[i] >= 0.0
    requires forall i :: m <= i < |freq| ==> freq[i] < 0.0
    ensures NonNegative(freq, amp) == (freq[..m], amp[..m])
    decreases |freq|
  {
    if freq != [] {
      if m > 0 {
        NonNegativePrefix(freq[1..], amp[1..], m - 1);
        assert freq[..m] == [freq[0]] + freq[1..][..m - 1];
        assert amp[..m] == [amp[0]] + amp[1..][..m - 1];
      } else {
        NonNegativePrefix(freq[1..], amp[1..], 0);
      }
    }
  }

  /** For an even n the bins with freq >= 0 are exactly the first half. */
  lemma FirstHalf(n: nat, rate: nat, amp: seq<real>)
    requires n > 0 && n % 2 == 0 && rate > 0 && |amp| == n
    ensures NonNegative(FftFreq(n, rate), amp) == (FftFreq(n, rate)[..n / 2], amp[..n / 2])
  {
    var f := FftFreq(n, rate);
    var h := n / 2;
    assert n == 2 * h && (n - 1) / 2 == h - 1;
    forall i | 0 <= i < n
      ensures i < h <==> f[i] >= 0.0
    {
      assert f[i] == BinFreq(i, n, rate);
    }
    NonNegativePrefix(f, amp, n / 2);
  }

  lemma SignOfProduct(k: int, rate: nat)
    ensures k >= 0 ==> k as real * rate as real >= 0.0
    ensures k < 0 && rate > 0 ==> k as real * rate as real < 0.0
  {
  }

  lemma SignOfQuotient(y: real, n: real)
    requires n > 0.0
    ensures y / n >= 0.0 <==> y >= 0.0
    ensures (y / n) * n == y
  {
  }

  /** The unpacked samples as float32 values: int16 converts exactly. */
  function AsReals(s: seq<Int16>): (x: seq<real>)
    ensures |x| == |s| && forall i :: 0 <= i < |s| ==> x[i] == s[i] as real
  {
    seq(|s|, i requires 0 <= i < |s| => s[i] as real)
  }

  /** The amplitude spectrum np.abs(fft) / num_samples. */
  function Amplitude(x: seq<real>, fftAbs: FftAbs): (a: seq<real>)
    requires |fftAbs(x)| == |x|
    ensures |a| == |x| && forall i :: 0 <= i < |x| ==> a[i] * NUM_SAMPLES as real == fftAbs(x)[i]
  {
    seq(|x|, i requires 0 <= i < |x| => fftAbs(x)[i] / NUM_SAMPLES as real)
  }

  /**
   * What is published for one frame: the frequencies and amplitudes of the
   * bins with freq >= 0, which are the first 256 of the 512.
   */
  function Analysis(frame: seq<Byte>, fftAbs: FftAbs): (r: (seq<real>, seq<real>))
    requires |frame| == BUFFER_SIZE && forall x :: |fftAbs(x)| == |x|
    ensures var x := AsReals(DecodeSamples(frame));
      r == (FftFreq(NUM_SAMPLES, SAMPLE_RATE)[..NUM_SAMPLES / 2], Amplitude(x, fftAbs)[..NUM_SAMPLES / 2])
  {
    var x := AsReals(DecodeSamples(frame));
    FirstHalf(NUM_SAMPLES, SAMPLE_RATE, Amplitude(x, fftAbs));
    NonNegative(FftFreq(NUM_SAMPLES, SAMPLE_RATE), Amplitude(x, fftAbs))
  }

  /** The items published for a list of frames, in order. */
  function Analyses(frames: seq<seq<Byte>>, fftAbs: FftAbs): seq<(seq<real>, seq<real>)>
    requires forall i :: 0 <= i < |frames| ==> |frames[i]| == BUFFER_SIZE
    requires forall x :: |fftAbs(x)| == |x|
  {
    seq(|frames|, i requires 0 <= i < |frames| => Analysis(frames[i], fftAbs))
  }

  lemma AnalysesAppend(a: seq<seq<Byte>>, b: seq<seq<Byte>>, fftAbs: FftAbs)
    requires forall i :: 0 <= i < |a| ==> |a[i]| == BUFFER_SIZE
    requires forall i :: 0 <= i < |b| ==> |b[i]| == BUFFER_SIZE
    requires forall x :: |fftAbs(x)| == |x|
    ensures Analyses(a + b, fftAbs) == Analyses(a, fftAbs) + Analyses(b, fftAbs)
  {
    var l := Analyses(a + b, fftAbs);
    var r := Analyses(a, fftAbs) + Analyses(b, fftAbs);
    forall i | 0 <= i < |l|
      ensures l[i] == r[i]
    {
      if i >= |a| {
        assert (a + b)[i] == b[i - |a|];
      }
    }
  }

  /** The bytes the loop appended for a run of receives: each datagram cut to BUFFER_SIZE, errors adding nothing. */
  function Arrived(events: seq<RecvEvent>): seq<Byte>
  {
    if events == [] then [] else Arrived(events[..|events| - 1]) + RecvFrom(DataOf(events[|events| - 1]), BUFFER_SIZE)
  }

  lemma ArrivedStep(events: seq<RecvEvent>, i: nat)
    requires i < |events|
    ensures Arrived(events[..i + 1]) == Arrived(events[..i]) + RecvFrom(DataOf(events[i]), BUFFER_SIZE)
  {
    assert events[..i + 1][..i] == events[..i];
  }

  /**
   * analyze_signal until stop_event is set before receive number stopAt:
   * every receive error is reported and skipped; the published items are
   * the analyses of the whole 1024-byte frames of the bytes received, in
   * order, and fewer than 1024 bytes are left in the buffer.
   */
  method AnalyzeSignal(events: seq<RecvEvent>, stopAt: nat, fftAbs: FftAbs)
    returns (consumed: nat, published: seq<(seq<real>, seq<real>)>, buffer: seq<Byte>, ghost frames: seq<seq<Byte>>)
    requires forall x :: |fftAbs(x)| == |x|
    ensures consumed == (if stopAt < |events| then stopAt else |events|)
    ensures IsFraming(frames, buffer, Arrived(events[..consumed]), BUFFER_SIZE)
    ensures published == Analyses(frames, fftAbs)
  {
    consumed, published, buffer, frames := 0, [], [], [];
    ghost var stream: seq<Byte> := [];
    assert events[..0] == [];
    assert Flatten<Byte>([]) == [];
    while consumed < |events| && consumed < stopAt
      invariant consumed <= |events| && consumed <= stopAt
      invariant stream == Arrived(events[..consumed])
      invariant IsFraming(frames, buffer, stream, BUFFER_SIZE)
      invariant published == Analyses(frames, fftAbs)
    {
      var data := RecvFrom(DataOf(events[consumed]), BUFFER_SIZE);
      ArrivedStep(events, consumed);
      published, buffer, frames := AnalyzeData(buffer, data, frames, stream, published, fftAbs);
      stream := stream + data;
      consumed := consumed + 1;
    }
  }

  /** Append one datagram and publish the analysis of every frame it completes. */
  method AnalyzeData(buffer: seq<Byte>, data: seq<Byte>, ghost frames: seq<seq<Byte>>, ghost before: seq<Byte>,
                     published: seq<(seq<real>, seq<real>)>, fftAbs: FftAbs)
    returns (published': seq<(seq<real>, seq<real>)>, rest: seq<Byte>, ghost frames': seq<seq<Byte>>)
    requires forall x :: |fftAbs(x)| == |x|
    requires IsFraming(frames, buffer, before, BUFFER_SIZE)
    requires published == Analyses(frames, fftAbs)
    ensures IsFraming(frames', rest, before + data, BUFFER_SIZE)
    ensures published' == Analyses(frames', fftAbs)
  {
    var newFrames;
    newFrames, rest := DrainFrames(buffer + data, BUFFER_SIZE);
    FramingAppend(frames, buffer, before, newFrames, rest, data, BUFFER_SIZE);
    AnalysesAppend(frames, newFrames, fftAbs);
    frames' := frames + newFrames;
    published' := published + Analyses(newFrames, fftAbs);
  }
}

=== FILE: udp_listener.dfy ===
/**
 * The dashboard's UDP listener (UDPListener): a receiving loop that turns
 * each datagram into one block of normalised samples on a queue, and
 * get_data, which drains the whole queue into one block.
 */
module UdpListener {
  import opened Pcm
  import opened Seqs
  import opened Framing

  const BUFFER_SIZE: nat := 1024
  /** recvfrom(BUFFER_SIZE * 4): longer datagrams are cut to this many bytes. */
  const RECV_SIZE: nat := 4096

  /**
   * The block the loop queues for one receive: nothing for an error, an
   * empty datagram (skipped) or an odd-length one (frombuffer raises and
   * the error is only reported); otherwise the normalised samples.
   */
  function Queued(e: RecvEvent): (r: Option<seq<real>>)
    ensures r.Some? <==> e.Received? && |RecvFrom(e.data, RECV_SIZE)| % 2 == 0 && e.data != []
    ensures r.Some? ==> r.value == NormalisedBlock(RecvFrom(e.data, RECV_SIZE)) && 0 < |r.value| <= RECV_SIZE / 2
  {
    if e.Received? && e.data != [] then Emitted(RecvFrom(e.data, RECV_SIZE)) else None
  }

  /** The blocks the loop queues for a run of receives, in arrival order. */
  function ListenChunks(events: seq<RecvEvent>): seq<seq<real>>
  {
    if events == [] then []
    else
      var q := Queued(events[|events| - 1]);
      ListenChunks(events[..|events| - 1]) + (if q.Some? then [q.value] else [])
  }

  /** Every queued block holds between 1 and 2048 samples, each in [-1, 1). */
  lemma {:induction false} ListenChunksWellFormed(events: seq<RecvEvent>)
    ensures |ListenChunks(events)| <= |events|
    ensures forall i :: 0 <= i < |ListenChunks(events)| ==> 0 < |ListenChunks(events)[i]| <= RECV_SIZE / 2
    ensures forall i, j :: 0 <= i < |ListenChunks(events)| && 0 <= j < |ListenChunks(events)[i]| ==>
      -1.0 <= ListenChunks(events)[i][j] < 1.0
    decreases |events|
  {
    if events != [] {
      ListenChunksWellFormed(events[..|events| - 1]);
      var q := Queued(events[|events| - 1]);
      if q.Some? {
        forall j | 0 <= j < |q.value|
          ensures -1.0 <= q.value[j] < 1.0
        {
          assert q.value[j] * FULL_SCALE == DecodeSample(RecvFrom(events[|events| - 1].data, RECV_SIZE)[2 * j], RecvFrom(events[|events| - 1].data, RECV_SIZE)[2 * j + 1]) as real;
        }
      }
    }
  }

  /**
   * When every datagram is received whole and carries whole samples, the
   * queued blocks joined are the normalised samples of every byte
   * received, in order: errors and empty datagrams add nothing.
   */
  lemma {:induction false} EvenDatagramsKeepEverySample(events: seq<RecvEvent>)
    requires forall i :: 0 <= i < |events| ==> |DataOf(events[i])| % 2 == 0 && |DataOf(events[i])| <= RECV_SIZE
    ensures |ReceivedBytes(events)| % 2 == 0
    ensures Flatten(ListenChunks(events)) == NormalisedBlock(ReceivedBytes(events))
    decreases |events|
  {
    if events == [] {
      assert NormalisedBlock([]) == [];
    } else {
      var init := events[..|events| - 1];
      var e := events[|events| - 1];
      WholeDatagramsStep(events, init, e);
      EvenDatagramsKeepEverySample(init);
      NormalisedBlockAppend(ReceivedBytes(init), DataOf(e));
      if Queued(e).Some? {
        FlattenSnoc(ListenChunks(init), Queued(e).value);
      } else {
        assert DataOf(e) == [];
        assert ReceivedBytes(init) + DataOf(e) == ReceivedBytes(init);
        assert ListenChunks(init) + [] == ListenChunks(init);
      }
    }
  }

  lemma WholeDatagramsStep(events: seq<RecvEvent>, init: seq<RecvEvent>, e: RecvEvent)
    requires events != [] && init == events[..|events| - 1] && e == events[|events| - 1]
    requires forall i :: 0 <= i < |events| ==> |DataOf(events[i])| % 2 == 0 && |DataOf(events[i])| <= RECV_SIZE
    ensures forall i :: 0 <= i < |init| ==> |DataOf(init[i])| % 2 == 0 && |DataOf(init[i])| <= RECV_SIZE
    ensures |DataOf(e)| % 2 == 0 && |DataOf(e)| <= RECV_SIZE
    ensures ReceivedBytes(events) == ReceivedBytes(init) + DataOf(e)
    ensures ListenChunks(events) == ListenChunks(init) + (if Queued(e).Some? then [Queued(e).value] else [])
    ensures Queued(e).Some? ==> Queued(e).value == NormalisedBlock(DataOf(e))
  {
  }

  /** The listener: its running flag, whether its socket is open, and the queue of blocks. */
  class UDPListener {
    var running: bool
    var socketOpen: bool
    /** data_queue, oldest block first. */
    var queue: seq<seq<real>>

    constructor ()
      ensures !running && !socketOpen && queue == []
    {
      running, socketOpen, queue := false, false, [];
    }

    /**
     * start(): set the running flag and create the socket, then bind it.
     * When the bind fails the exception reaches the caller (raised) with
     * the flag already set and the socket created, and no listening thread
     * is started.
     */
    method Start(bindOk: bool) returns (raised: bool)
      modifies this`running, this`socketOpen
      ensures running && socketOpen
      ensures raised <==> !bindOk
    {
      running := true;
      socketOpen := true;
      raised := !bindOk;
    }

    /** stop(): clear the running flag and close the socket if there is one. */
    method Stop()
      modifies this`running, this`socketOpen
      ensures !running && !socketOpen
    {
      running := false;
      if socketOpen {
        socketOpen := false;
      }
    }

    /**
     * _listen_loop over a run of receives: no receive ends the loop (errors
     * are reported and skipped), and each one queues at most one block at
     * the back of the queue.
     */
    method ListenLoop(events: seq<RecvEvent>)
      modifies this`queue
      ensures queue == old(queue) + ListenChunks(events)
    {
      var k := 0;
      ghost var q0 := queue;
      while k < |events|
        invariant k <= |events|
        invariant queue == q0 + ListenChunks(events[..k])
      {
        var e := events[k];
        assert events[..k + 1][..k] == events[..k];
        if e.Received? {
          var data := RecvFrom(e.data, RECV_SIZE);
          if data != [] {
            var pcm := FromBuffer(data);
            if pcm.Some? && |pcm.value| > 0 {
              queue := queue + [NormaliseAll(pcm.value)];
            }
          }
        }
        k := k + 1;
      }
      assert events[..k] == events;
    }

    /**
     * get_data: take every queued block, oldest first, until the queue is
     * empty; None when there was none, otherwise the blocks joined in order.
     */
    method GetData() returns (r: Option<seq<real>>)
      modifies this`queue
      ensures queue == []
      ensures r.None? <==> old(queue) == []
      ensures r.Some? ==> r.value == Flatten(old(queue))
    {
      var dataList: seq<seq<real>> := [];
      ghost var q0 := queue;
      while queue != []
        invariant dataList + queue == q0
        decreases |queue|
      {
        dataList := dataList + [queue[0]];
        queue := queue[1..];
      }
      assert dataList == q0;
      if dataList == [] {
        return None;
      }
      r := Some(Flatten(dataList));
    }
  }
}

=== FILE: udp_viewer.dfy ===
/**
 * The UDP Qt viewer: a worker turns each datagram into one chunk of
 * normalised samples; the main window queues the chunks and on every
 * timer tick drains the whole queue, scrolling each chunk into the
 * two-second waveform or the main spectrogram, and into the spectrogram
 * sub-window while that is shown.
 */
module UdpViewer {
  import opened Pcm
  import opened Seqs
  import opened Framing
  import QtSpectrogram

  /** recvfrom(BUFFER_SIZE * 4) with BUFFER_SIZE = 1024. */
  const RECV_SIZE: nat := 4096
  /** SAMPLE_RATE * 2 */
  const PLOT_DATA_SIZE: nat := 48000

  /**
   * The chunks the worker emits for a run of datagrams, in order: an empty
   * datagram is skipped, one of odd length makes frombuffer raise (the
   * error is printed and the datagram dropped), every other one becomes
   * one chunk.
   */
  function WorkerChunks(datagrams: seq<seq<Byte>>): seq<seq<real>>
  {
    if datagrams == [] then []
    else
      var last := Emitted(RecvFrom(datagrams[|datagrams| - 1], RECV_SIZE));
      WorkerChunks(datagrams[..|datagrams| - 1]) + (if last.Some? then [last.value] else [])
  }

  /** Every chunk the worker emits holds between 1 and 2048 samples. */
  lemma {:induction false} WorkerChunkSizes(datagrams: seq<seq<Byte>>)
    ensures |WorkerChunks(datagrams)| <= |datagrams|
    ensures forall i :: 0 <= i < |WorkerChunks(datagrams)| ==> 0 < |WorkerChunks(datagrams)[i]| <= RECV_SIZE / 2
  {
    if datagrams != [] {
      WorkerChunkSizes(datagrams[..|datagrams| - 1]);
    }
  }

  /**
   * A datagram of even, non-zero length within the receive size is
   * delivered whole, as its samples divided by 32768.
   */
  lemma WorkerDeliversWellFormed(datagrams: seq<seq<Byte>>, d: seq<Byte>)
    requires 0 < |d| <= RECV_SIZE && |d| % 2 == 0
    ensures WorkerChunks(datagrams + [d]) == WorkerChunks(datagrams) + [NormalisedBlock(d)]
  {
    assert (datagrams + [d])[..|datagrams|] == datagrams;
  }

  /** A malformed datagram (empty, or odd once truncated) emits nothing. */
  lemma WorkerDropsMalformed(datagrams: seq<seq<Byte>>, d: seq<Byte>)
    requires |RecvFrom(d, RECV_SIZE)| % 2 == 1 || d == []
    ensures WorkerChunks(datagrams + [d]) == WorkerChunks(datagrams)
  {
    assert (datagrams + [d])[..|datagrams|] == datagrams;
  }

  /** The receiving thread (UDPWorker). */
  class UDPWorker {
    var isRunning: bool

    constructor ()
      ensures isRunning
    {
      isRunning := true;
    }

    /** stop() */
    method Stop()
      modifies this
      ensures !isRunning
    {
      isRunning := false;
    }

    /**
     * run(): if the bind fails nothing is received; otherwise every
     * datagram is received in turn and its chunk, if any, emitted.
     */
    method Run(bindOk: bool, datagrams: seq<seq<Byte>>) returns (emitted: seq<seq<real>>)
      ensures !bindOk ==> emitted == []
      ensures bindOk ==> emitted == WorkerChunks(datagrams)
    {
      emitted := [];
      if !bindOk {
        return;
      }
      var k := 0;
      while k < |datagrams|
        invariant k <= |datagrams|
        invariant emitted == WorkerChunks(datagrams[..k])
      {
        assert datagrams[..k + 1][..k] == datagrams[..k];
        var data := RecvFrom(datagrams[k], RECV_SIZE);
        if data != [] {
          var pcm := FromBuffer(data);
          if pcm.Some? {
            emitted := emitted + [NormaliseAll(pcm.value)];
          }
        }
        k := k + 1;
      }
      assert datagrams[..k] == datagrams;
    }
  }

  /** What the window shows: the waveform, the main spectrogram and the sub-window's spectrogram. */
  datatype Screen = Screen(y: seq<real>, main: QtSpectrogram.View, sub: QtSpectrogram.View)

  /** The settings that hold for a whole tick. */
  datatype Mode = Mode(waveform: bool, subVisible: bool, mainDb: QtSpectrogram.FrameDb, subDb: QtSpectrogram.FrameDb)

  /** In spectrogram mode, librosa raises on a combined buffer shorter than one frame. */
  predicate Raises(s: Screen, chunk: seq<real>, m: Mode)
  {
    !m.waveform && |s.main.carry + chunk| < QtSpectrogram.N_FFT
  }

  /** One pass of the drain loop on one chunk. */
  function Step(s: Screen, chunk: seq<real>, m: Mode): (r: Screen)
    requires |chunk| <= |s.y|
    ensures |r.y| == |s.y|
  {
    Screen(
      if m.waveform then ShiftIn(s.y, chunk) else s.y,
      if m.waveform then s.main else QtSpectrogram.Update(s.main, chunk, m.mainDb),
      if m.subVisible then QtSpectrogram.Update(s.sub, chunk, m.subDb) else s.sub)
  }

  predicate ChunksFit(q: seq<seq<real>>, n: nat)
  {
    forall i :: 0 <= i < |q| ==> |q[i]| <= n
  }

  datatype Drained = Drained(screen: Screen, rest: seq<seq<real>>, raised: bool)

  /**
   * A whole tick: chunks are taken oldest first until the queue is empty
   * or one raises; the raising chunk has already updated the sub-window
   * and the carry, and the chunks after it stay queued. The raise escapes
   * the timer slot, which under PyQt6 aborts the viewer: the state here is
   * the one at the moment of the raise.
   */
  function Drain(s: Screen, q: seq<seq<real>>, m: Mode): (r: Drained)
    requires ChunksFit(q, |s.y|)
    ensures |r.screen.y| == |s.y|
    ensures !r.raised ==> r.rest == []
    decreases |q|
  {
    if q == [] then Drained(s, [], false)
    else if Raises(s, q[0], m) then Drained(Step(s, q[0], m), q[1..], true)
    else Drain(Step(s, q[0], m), q[1..], m)
  }

  /**
   * In waveform mode nothing raises: the whole queue is drained and the
   * waveform is the last two seconds of the old waveform followed by every
   * chunk, in order.
   */
  lemma {:induction false} DrainWaveform(s: Screen, q: seq<seq<real>>, m: Mode)
    requires ChunksFit(q, |s.y|) && m.waveform
    ensures Drain(s, q, m).rest == [] && !Drain(s, q, m).raised
    ensures Drain(s, q, m).screen.y == Last(s.y + Flatten(q), |s.y|)
    ensures Drain(s, q, m).screen.main == s.main
    decreases |q|
  {
    if q == [] {
      assert s.y + [] == s.y;
    } else {
      var s1 := Step(s, q[0], m);
      assert Drain(s, q, m) == Drain(s1, q[1..], m);
      DrainWaveform(s1, q[1..], m);
      LastTwice(s.y, q[0], Flatten(q[1..]), |s.y|);
    }
  }

  /** A hidden sub-window is left alone. */
  lemma {:induction false} DrainHiddenSub(s: Screen, q: seq<seq<real>>, m: Mode)
    requires ChunksFit(q, |s.y|) && !m.subVisible
    ensures Drain(s, q, m).screen.sub == s.sub
    decreases |q|
  {
    if q != [] && !Raises(s, q[0], m) {
      DrainHiddenSub(Step(s, q[0], m), q[1..], m);
    }
  }

  /**
   * In spectrogram mode, chunks of at least 512 samples never raise once
   * the carry holds 512 samples (the carry starts with 768 zeros and keeps
   * the last 768 samples of each chunk), so the queue drains completely.
   */
  lemma {:induction false} DrainLongChunks(s: Screen, q: seq<seq<real>>, m: Mode)
    requires ChunksFit(q, |s.y|)
    requires |s.main.carry| >= 512
    requires forall i :: 0 <= i < |q| ==> |q[i]| >= 512
    ensures Drain(s, q, m).rest == [] && !Drain(s, q, m).raised
    decreases |q|
  {
    if q != [] {
      DrainLongChunks(Step(s, q[0], m), q[1..], m);
    }
  }

  /**
   * A chunk shorter than the overlap (768 samples), arriving when the
   * carry holds at most a hop (256 samples), raises in spectrogram mode,
   * and the chunks behind it stay queued.
   */
  lemma ShortChunksRaise(s: Screen, c: seq<real>, rest: seq<seq<real>>, m: Mode)
    requires ChunksFit([c] + rest, |s.y|)
    requires !m.waveform && |s.main.carry| <= QtSpectrogram.HOP_LENGTH && |c| < QtSpectrogram.OVERLAP
    ensures Drain(s, [c] + rest, m).raised && Drain(s, [c] + rest, m).rest == rest
  {
    assert ([c] + rest)[1..] == rest;
  }

  /** The main window (MainWindow). */
  class MainWindow {
    /** data_buffer: a deque of chunks, oldest first. */
    var dataBuffer: seq<seq<real>>
    /** y_data, updated in place. */
    var yData: array<real>
    var waveformMode: bool
    /** spectro_data (-80 dB fill) and prev_audio_main. */
    var mainView: QtSpectrogram.View
    var spectroWindow: QtSpectrogram.SpectrogramWindow
    const frameDb: QtSpectrogram.FrameDb

    predicate Valid()
      reads this, yData
    {
      yData.Length == PLOT_DATA_SIZE && ChunksFit(dataBuffer, PLOT_DATA_SIZE)
    }

    function Shown(): Screen
      reads this, yData, spectroWindow
    {
      Screen(yData[..], mainView, QtSpectrogram.View(spectroWindow.image, spectroWindow.carry))
    }

    function CurrentMode(): Mode
      reads this, spectroWindow
    {
      Mode(waveformMode, spectroWindow.visible, frameDb, spectroWindow.frameDb)
    }

    constructor (frameDb: QtSpectrogram.FrameDb)
      ensures Valid() && fresh(yData) && fresh(spectroWindow)
      ensures dataBuffer == [] && yData[..] == Zeros(PLOT_DATA_SIZE) && waveformMode
      ensures mainView == QtSpectrogram.View(Repeat(Repeat(-80.0, QtSpectrogram.N_MELS), QtSpectrogram.SPECTRO_TIME_STEPS), Zeros(QtSpectrogram.OVERLAP))
      ensures !spectroWindow.visible && spectroWindow.frameDb == frameDb && this.frameDb == frameDb
    {
      dataBuffer := [];
      yData := new real[PLOT_DATA_SIZE](_ => 0.0);
      waveformMode := true;
      mainView := QtSpectrogram.View(Repeat(Repeat(-80.0, QtSpectrogram.N_MELS), QtSpectrogram.SPECTRO_TIME_STEPS), Zeros(QtSpectrogram.OVERLAP));
      spectroWindow := new QtSpectrogram.SpectrogramWindow(frameDb);
      this.frameDb := frameDb;
      new;
      assert yData[..] == Zeros(PLOT_DATA_SIZE);
    }

    /** start_receiving: the sub-window is shown and the queue emptied. */
    method StartReceiving()
      requires Valid()
      modifies this`dataBuffer, spectroWindow`visible
      ensures Valid() && dataBuffer == [] && spectroWindow.visible
    {
      spectroWindow.SetVisible(true);
      dataBuffer := [];
    }

    /** toggle_display_mode */
    method ToggleDisplayMode()
      modifies this`waveformMode
      ensures waveformMode == !old(waveformMode)
    {
      waveformMode := !waveformMode;
    }

    /** queue_data */
    method QueueData(chunk: seq<real>)
      requires Valid() && |chunk| <= PLOT_DATA_SIZE
      modifies this`dataBuffer
      ensures Valid() && dataBuffer == old(dataBuffer) + [chunk]
    {
      dataBuffer := dataBuffer + [chunk];
    }

    /**
     * triggered_update_plot: drain the queue as Drain says; raised reports
     * the librosa error that escapes the slot (and aborts the viewer).
     */
    method TriggeredUpdatePlot() returns (raised: bool)
      requires Valid()
      modifies this`dataBuffer, this`mainView, yData, spectroWindow
      ensures Valid()
      ensures var d := Drain(old(Shown()), old(dataBuffer), old(CurrentMode()));
        Shown() == d.screen && dataBuffer == d.rest && raised == d.raised
      ensures waveformMode == old(waveformMode) && spectroWindow.visible == old(spectroWindow.visible)
    {
      raised := false;
      ghost var mode := CurrentMode();
      ghost var goal := Drain(Shown(), dataBuffer, mode);
      while dataBuffer != []
        invariant Valid() && CurrentMode() == mode
        invariant Drain(Shown(), dataBuffer, mode) == goal
        invariant !raised
        decreases |dataBuffer|
      {
        var chunk := dataBuffer[0];
        dataBuffer := dataBuffer[1..];
        raised := PlotChunk(chunk);
        if raised {
          return;
        }
      }
    }

    /**
     * The body of the drain loop for one chunk; raised says that librosa
     * rejected the main spectrogram's buffer, after the carry was replaced.
     */
    method PlotChunk(chunk: seq<real>) returns (raised: bool)
      requires yData.Length == PLOT_DATA_SIZE && |chunk| <= PLOT_DATA_SIZE
      modifies this`mainView, yData, spectroWindow
      ensures Shown() == Step(old(Shown()), chunk, old(CurrentMode()))
      ensures raised == Raises(old(Shown()), chunk, old(CurrentMode()))
      ensures CurrentMode() == old(CurrentMode())
    {
      ghost var s0, m := Shown(), CurrentMode();
      ghost var goal := Step(s0, chunk, m);
      raised := false;
      if spectroWindow.visible {
        spectroWindow.UpdatePlot(chunk);
      }
      assert QtSpectrogram.View(spectroWindow.image, spectroWindow.carry) == goal.sub;
      assert CurrentMode() == m && yData[..] == s0.y && mainView == s0.main;
      if waveformMode {
        ShiftInPlace(yData, chunk);
      } else {
        raised := UpdateMain(chunk);
      }
      assert yData[..] == goal.y && mainView == goal.main;
    }

    /** The spectrogram-mode branch of the drain loop for the main spectrogram. */
    method UpdateMain(chunk: seq<real>) returns (raised: bool)
      modifies this`mainView
      ensures mainView == QtSpectrogram.Update(old(mainView), chunk, frameDb)
      ensures raised <==> |old(mainView).carry + chunk| < QtSpectrogram.N_FFT
    {
      var combined := mainView.carry + chunk;
      var frames := QtSpectrogram.MelFrames(combined, frameDb);
      if frames.None? {
        mainView := mainView.(carry := Last(chunk, QtSpectrogram.OVERLAP));
        raised := true;
      } else {
        mainView := QtSpectrogram.View(QtSpectrogram.ScrollIn(mainView.image, frames.value), Last(chunk, QtSpectrogram.OVERLAP));
        raised := false;
      }
    }
  }
}
